=== FILE: README.md ===
# AI x Leaders CMS — a Dafny model of the worker and its front-end scripts

The system is a Cloudflare Worker that serves a marketing site and a small
content management system behind it, plus three browser scripts of the site.
This project models, as pure Dafny functions over immutable data, what the
worker and the scripts compute:

- **content API** (`ContentApi`): the page catalogue; reading, saving and
  listing page content in a key-value store. Every save first snapshots the
  previous text under a 30-day history key. The history listing and restore
  of a snapshot are modelled too. The store is a `map<string, string>`. An
  operation returns its reply together with the ordered list of writes it
  issues, and `ApplyPuts` gives the store afterwards.
- **tokens** (`Jwt`, on top of `Base64` and `Utf8`): HS256 tokens, with
  base64url as `btoa`/`atob` compute it. The claims text goes out through
  `btoa` (Latin-1 bytes) and comes back through `TextDecoder` (UTF-8).
- **authentication** (`Auth`): the login endpoint with its allow-list,
  per-user password-hash variable and PBKDF2 check; the hash utility
  endpoint; and the `Bearer` gate in front of the content and image APIs.
- **images** (`ImageApi`): upload with type and size checks and a sanitised,
  time-stamped key; listing, deletion and public serving from an object
  bucket, which is a map from key to blob.
- **server-side injection** (`Ssr`): the page id of a path. The page's and
  the shared content are merged, and elements marked `data-cms*` are
  rewritten from the result. The no-cache header treatment is modelled too.
- **the worker** (`Worker`, `Rss`): the routing of `fetch`. Also the RSS
  proxy, which extracts the first two `<item>` blocks with the source's
  regular expressions.
- **front end** (`Carousel`, `Accordion`, `Forms`): the testimonial
  carousel's index arithmetic, swipes and dots; the accordion's
  one-open-item behaviour; the e-mail pattern and the two forms' validation.

The platform primitives the code calls become fields of a `Platform.Runtime`
value passed in as a parameter. Nothing about them is assumed beyond what a
lemma states in its own `requires`. They are JSON text conversion, ISO date
rendering, HMAC-SHA-256, PBKDF2 and the upstream feed fetch. Clock readings
(`Date.now()`) are parameters as well. So are the environment variables, the
static-asset fetcher and the viewport width.

The model proves several facts about the source:

- A token the corrected signer issues verifies, with its claims, until it
  expires (`Jwt.SignThenVerify`). The source's own signer issues the same
  token whenever the claims text is ASCII (`Jwt.AsciiSignersAgree`), so a
  login with an ASCII address passes the gate (`Auth.LoginThenGate`).
- Saving and then restoring the snapshot that the save made brings the
  previous text back (`ContentApi.RestoreUndoesPut`).
- Injection is idempotent on the model's pages, where markup that a handler
  inserts is held as text and not parsed again (`Ssr.InjectTwice`).
- An uploaded image is then served publicly, byte for byte
  (`Worker.UploadThenPublic`).
- Only a caller the gate admits changes anything stored
  (`Worker.WritesNeedAdmission`).
- The carousel's index never leaves range (`Carousel.RunStaysInRange`).
- A raw `application/octet-stream` upload can never be stored, because the
  declared content type is then never an allowed image type
  (`ImageApi.RawUploadRejected`).

## Model

| member | source | states |
|---|---|---|
| Http.JsonResponse | src/lib/auth.js:14-19 | The reply has the given status, the JSON body, `Content-Type: application/json`, and every cross-origin header. |
| Common.Trim | src/lib/auth.js:60-61 | `trim()` yields an infix of the input with only ECMAScript white space before and after it, that neither starts nor ends with white space; it is empty exactly when the input is all white space. |
| Common.TrimStart | src/lib/auth.js:61 | Only a prefix of white space is removed, and the result does not start with white space. |
| Common.TrimEnd | src/lib/auth.js:61 | Only a suffix of white space is removed, and the result does not end with white space. |
| Common.TrimTrimmed | src/lib/auth.js:61 | A text that neither starts nor ends with white space is its own trim. |
| Common.LowerChar | src/lib/auth.js:61 | `toLowerCase` maps each Latin-1 capital to its small letter (code + 32) and leaves every other character alone. |
| Common.Lower | src/lib/auth.js:61 | Lower-casing keeps the length and maps each character by `LowerChar`. |
| Common.LowerIdempotent | src/lib/auth.js:61 | Lower-casing twice gives what lower-casing once gave. |
| Common.LowerCharSpace | src/lib/auth.js:61 | Lower-casing neither makes nor removes white space. |
| Common.Upper | src/lib/auth.js:68 | `toUpperCase` on the sanitised key maps `a`-`z` to `A`-`Z` and keeps the length. |
| Common.Split | src/lib/auth.js:60 | `split(c)` yields at least one piece and no piece contains the separator. |
| Common.JoinSplit | src/lib/auth.js:60 | Joining the pieces of a split gives the text back. |
| Common.SplitJoin | src/lib/jwt.js:46-47 | Splitting a join of separator-free pieces gives the pieces back, so a token's three segments are recovered. |
| Common.LastPiece | src/lib/content-api.js:100 | `split(':').pop()` contains no colon. |
| Common.LastPieceOfAppend | src/lib/content-api.js:100 | The last piece of `prefix:tail` is `tail` when `tail` has no colon. |
| Common.RemoveFirst | src/lib/content-api.js:140 | `replace(sub, '')` on a text starting with `sub` drops exactly that prefix. |
| Common.Decimal | src/lib/content-api.js:77 | A timestamp in a key is written as a run of decimal digits without a leading zero. |
| Common.DecimalRoundTrip | src/lib/content-api.js:100 | `parseInt` of a written timestamp gives the timestamp back. |
| Common.DecimalInjective | src/lib/content-api.js:77 | Distinct timestamps give distinct key suffixes. |
| Ordering.TakeFirst | src/lib/content-api.js:102 | The first `limit` elements under a strict total order, increasing, and before every element left out. |
| Ordering.LexIsStrictTotal | src/lib/content-api.js:98 | The key order of a store listing is a strict total order. |
| Ordering.Listing | src/lib/image-api.js:67 | One listing page: `min(limit, size)` keys of the store, in increasing key order, each before every key left out. |
| Ordering.SmallListingWhole | src/lib/image-api.js:67 | A store with no more keys than the limit is listed whole. |
| Base64.SextetValue | src/lib/jwt.js:14 | A character's alphabet value, when it has one, is below 64 and maps back to that character. |
| Base64.SextetRoundTrip | src/lib/jwt.js:8 | Every value below 64 maps to an alphabet character that maps back to it. |
| Base64.EncodeSextets | src/lib/jwt.js:8 | `btoa` turns three bytes into four sextets, with a final partial group of `n + 1` sextets for `n` leftover bytes. |
| Base64.BytesAsLatin1 | src/lib/jwt.js:7 | `String.fromCharCode(...bytes)` is a Latin-1 string whose Latin-1 bytes are those bytes. |
| Base64.Btoa | src/lib/jwt.js:8 | `btoa` succeeds exactly on Latin-1 text. |
| Base64.StripTrailingEq | src/lib/jwt.js:8 | `replace(/=+$/, '')` removes exactly the maximal run of trailing `=`. |
| Base64.UrlEncode | src/lib/jwt.js:6-9 | `base64urlEncode` of a string succeeds exactly on Latin-1 text and yields the unpadded base64url text of its Latin-1 bytes. |
| Base64.UrlEncodeBytes | src/lib/jwt.js:6-9 | `base64urlEncode` of a byte buffer yields the unpadded base64url text of those bytes. |
| Base64.PadCount | src/lib/jwt.js:13 | The padding loop appends fewer than four `=` and makes the length a multiple of four. |
| Base64.Atob | src/lib/jwt.js:14 | `atob` succeeds exactly when the text, without white space and trailing padding, has a length not of the form `4k+1` and uses only the alphabet. |
| Base64.DecodeEncodeSextets | src/lib/jwt.js:14 | Decoding the sextets of any bytes gives those bytes back. |
| Base64.DropAddedPadding | src/lib/jwt.js:13-14 | The padding `base64urlDecode` appends is exactly what `atob` strips again. |
| Base64.AtobPaddedCore | src/lib/jwt.js:13-14 | `atob` decodes a padded run of alphabet characters to the bytes of its sextets. |
| Base64.UrlDecode | src/lib/jwt.js:11-18 | `-` to `+`, `_` to `/`, `=` padding, then `atob`; its inverse property is `Base64.UrlRoundTrip`. |
| Base64.UrlRoundTrip | src/lib/jwt.js:11-18 | `base64urlDecode` of the base64url text of any bytes gives those bytes back. |
| Base64.UrlEncodeRoundTrip | src/lib/jwt.js:6-18 | `base64urlEncode` of a Latin-1 string decodes back to its Latin-1 bytes. |
| Utf8.EncodeChar | src/lib/jwt.js:40 | One character takes one to four bytes, and one exactly when it is ASCII. |
| Utf8.Encode | src/lib/jwt.js:40 | `TextEncoder` writes at least one byte per character. |
| Utf8.DecodeChar | src/lib/jwt.js:58 | The decoder reads an encoded character back and returns to its idle state. |
| Utf8.RunEncode | src/lib/jwt.js:58 | Decoding the bytes of any text, keeping a leading byte-order mark, gives the text back. |
| Utf8.Decode | src/lib/jwt.js:58 | `TextDecoder().decode`; `Utf8.DecodeEncode` and `Jwt.Latin1ReadAsUtf8` state what it gives back. |
| Utf8.DecodeEncode | src/lib/jwt.js:58 | `TextDecoder` gives back what `TextEncoder` wrote, except that a leading U+FEFF is dropped. |
| Utf8.AsciiEncode | src/lib/jwt.js:40 | On ASCII text the UTF-8 bytes are the character codes. |
| Utf8.RunLength | src/lib/jwt.js:58 | The decoder writes at most one character per byte, and one per byte only for ASCII bytes. |
| Jwt.Claims | src/lib/jwt.js:33 | The claims are the caller's, plus `iat` = now and `exp` = now + lifetime, which override same-named claims. |
| Jwt.HeaderSegment | src/lib/jwt.js:31-35 | The encoded header is base64url text. |
| Jwt.SignJwtAsWritten | src/lib/jwt.js:30-43 | `signJWT` issues a token exactly when the secret is non-empty and the claims text is Latin-1. The token is header, `btoa` payload and MAC of the two. |
| Jwt.SignJwt | src/lib/jwt.js:30-43 | The corrected signer issues a token whenever the secret is non-empty, with the payload taken from the UTF-8 bytes of the claims text. |
| Jwt.AsciiSignersAgree | src/lib/jwt.js:36 | On ASCII claims text the source's signer and the corrected signer issue the same token. |
| Jwt.VerifyJwt | src/lib/jwt.js:45-65 | Verification checks, in this order: three segments, a usable key, a decodable signature equal to the MAC (else `BadSignature`), a decodable payload, JSON, non-null, not expired. It is `Valid` with the parsed claims exactly when every check passes. |
| Jwt.SegmentsOfToken | src/lib/jwt.js:46-47 | Splitting an issued token at `.` gives back header, payload and signature. |
| Jwt.ExpiredAt | src/lib/jwt.js:60-62 | `payload.exp && payload.exp < now`; `Jwt.SignThenVerify` shows an issued token valid up to its `exp` second and expired after. |
| Jwt.SignThenVerify | src/lib/jwt.js:45-65 | A token the corrected signer issued verifies with the same secret to the claims it carries until its `exp` second, and is `Expired` after. |
| Jwt.Latin1ReadAsUtf8 | src/lib/jwt.js:58 | Latin-1 bytes read as UTF-8 give the same text exactly when the text is ASCII. |
| Jwt.AsWrittenAltersLatin1Claims | src/lib/jwt.js:58 | With the source's `btoa` encoding, a Latin-1 but non-ASCII claims text reaches `JSON.parse` altered. |
| Jwt.AccentBecomesReplacement | src/lib/jwt.js:58 | The single byte of `é` decodes to U+FFFD. |
| Jwt.CorrectedKeepsClaims | src/lib/jwt.js:58 | With `TextEncoder` on the signing side, `JSON.parse` receives exactly the claims text that was signed. |
| Auth.Normalize | src/lib/auth.js:61 | The normalised address has no white space at either end and no Latin-1 capital; it is empty exactly when the input is all white space. |
| Auth.NormalizeIdempotent | src/lib/auth.js:61 | Normalising an address twice gives what normalising once gave, so the allow-list and the login compare alike. |
| Auth.AllowList | src/lib/auth.js:60 | One entry per comma-separated piece of `ADMIN_USERS`, each trimmed and lower-cased. |
| Auth.Underscored | src/lib/auth.js:68 | The replacement works per UTF-16 code unit, so the key has one character per code unit of the name. |
| Auth.UserKey | src/lib/auth.js:68 | The name part, non-alphanumerics to `_`, upper-cased; `Auth.UserKeyShape` and `Auth.UserKeyIgnoresDomain` state its shape. |
| Auth.SecretName | src/lib/auth.js:69 | `ADMIN_PASSWORD_HASH_` and the user key; `Auth.ProvisionThenLogin` shows the hash endpoint names the variable the login reads. |
| Auth.Salt | src/lib/auth.js:76 | `aixleaders_` and the normalised address; the login and the hash endpoint use the same salt (`Auth.ProvisionThenLogin`). |
| Auth.UserKeyShape | src/lib/auth.js:68 | A user key consists of `A`-`Z`, `0`-`9` and `_` only, one per code unit of the name part. |
| Auth.UserKeyIgnoresDomain | src/lib/auth.js:68 | The hash variable depends only on the part before `@`. |
| Auth.ReadCredentials | src/lib/auth.js:55-58 | Credentials count as given only when both the address and the password are truthy. |
| Auth.Login | src/lib/auth.js:60-84 | Every refusal is the same 401. The reply is 200 exactly when the address is on the list, its hash variable is set and equals the PBKDF2 of the password, the secret is set and the claims text is Latin-1. Otherwise, once those checks pass, the signer throws. |
| Auth.LoginAccepts | src/lib/auth.js:60-84 | Credentials that pass every check, with a secret and a Latin-1 claims text, log in with 200. |
| Auth.HandleLogin | src/lib/auth.js:43-58 | A non-`POST` gets 405, a non-JSON body 400, missing fields 400, a `null` body or a non-string address throws, and given credentials go to the login checks. |
| Auth.HandleHashPassword | src/lib/auth.js:92-117 | 405 for a non-POST; for a POST, 400 "Invalid JSON" for a body that is not JSON, a throw for a `null` body or a non-string address, 400 for a missing field, and otherwise 200. The 200 reply holds the normalised address, the PBKDF2 hash under the site salt, and the name of the variable to store it in. |
| Auth.ProvisionThenLogin | src/lib/auth.js:109-115 | Storing the hash endpoint's `hash` under its `secretName` lets an allowed address log in with the same password. |
| Auth.HashReplyFields | src/lib/auth.js:112-116 | A 200 from the hash endpoint comes only from a `POST` with given credentials. |
| Auth.BearerToken | src/lib/auth.js:123-128 | There is a token exactly when the `Authorization` header starts with `Bearer `, and it is the rest of the header. |
| Auth.ClaimedEmail | src/lib/auth.js:133 | The claims name an address exactly when they carry a string `email` claim. |
| Auth.Admission | src/lib/auth.js:129-140 | The gate admits exactly valid claims whose string `email` is on the list. A rejected token gets 401; valid claims off the list get 403. |
| Auth.WithAuth | src/lib/auth.js:122-141 | Without a `Bearer` header the answer is 401. Otherwise the caller is admitted exactly when the token verifies and its `email` is on the list, and every other answer is 401 or 403. |
| Auth.BearerAdmits | src/lib/auth.js:122-141 | A header carrying a verifying token that names a listed address admits that address. |
| Auth.LoginToken | src/lib/auth.js:83-84 | A successful login means the secret is set, the address is listed, and the token is the one `signJWT` issues for it. |
| Auth.ReplyNamesToken | src/lib/auth.js:84 | Equal login replies carry equal tokens. |
| Auth.ClaimsKeepEmail | src/lib/auth.js:83 | The issued claims carry the normalised address as `email`. |
| Auth.IssuedTokenAdmits | src/lib/auth.js:122-141 | A token the corrected signer issues for a listed address is admitted until it expires. |
| Auth.LoginThenGate | src/lib/auth.js:83-141 | For an ASCII claims text, the token a successful login returns is admitted by the gate until it expires. |
| ContentApi.ApplyPuts | src/lib/content-api.js:77-89 | After a sequence of writes, a written key holds its last written value and every other key is unchanged. |
| ContentApi.KeyFamiliesDistinct | src/lib/content-api.js:77-86 | `content:`, `meta:` and `history:` keys never collide. |
| ContentApi.Snapshot | src/lib/content-api.js:74-80 | A snapshot is written exactly when there is a non-empty previous text. It goes to `history:<id>:<now>` with the previous text and a 30-day TTL. |
| ContentApi.Summaries | src/lib/content-api.js:28-39 | One summary per page in order. The listing throws exactly when some metadata is not JSON. |
| ContentApi.ListPages | src/lib/content-api.js:28-39 | One entry per catalogue page, in catalogue order, whose dates are the truthy `lastModified` and `modifiedBy` of that page's stored metadata, or `null`. Pages without metadata get `null` dates, and the listing throws exactly when some stored metadata is not JSON. |
| ContentApi.SaveThenList | src/lib/content-api.js:28-39 | After a save, the listing reports that save's ISO date and author for the page (`null` for an empty one), and every other page's entry is unchanged. |
| ContentApi.ListingAfterMetaWrite | src/lib/content-api.js:28-39 | When only one page's metadata changes, only that page's entry of the listing changes, and it reads the new document. |
| ContentApi.GetContent | src/lib/content-api.js:44-50 | The reply is 200 unless the stored text is not JSON (then it throws). A missing or falsy document reads as `{}`, and a truthy document is returned as it is. |
| ContentApi.PutContent | src/lib/content-api.js:55-92 | An unknown id gets 400 "Page inconnue", a non-JSON body 400 "JSON invalide", a `null` body throws, and a body whose `content` is missing, falsy or not an object gets 400 with the "content" message; none of these writes. Writes happen exactly for a catalogue id with an object or array `content`: the snapshot, then content, then metadata. The reply is 200 exactly when there were writes. |
| ContentApi.PutContentEffect | src/lib/content-api.js:74-89 | After a save, the store holds the new content and metadata and the previous text as a snapshot; nothing else changes. |
| ContentApi.PutThenGet | src/lib/content-api.js:44-92 | Reading back after a save yields the saved document. |
| ContentApi.NewerFirstIsStrictTotal | src/lib/content-api.js:102 | Newest-first by timestamp, then by key, is a strict total order. |
| ContentApi.ListedHistory | src/lib/content-api.js:98 | The listing holds the first thousand history keys of the page in key order. |
| ContentApi.FewSnapshotsListedWhole | src/lib/content-api.js:98 | With at most a thousand snapshots the listing holds all of them. |
| ContentApi.Versions | src/lib/content-api.js:99-101 | Each version carries its key and the timestamp parsed from it. |
| ContentApi.TimestampOfKey | src/lib/content-api.js:100 | `parseInt(key.split(':').pop())` of a history key gives back the `Date.now()` it was written with. |
| ContentApi.VersionsInOrder | src/lib/content-api.js:102 | Versions of keys taken in newest-first order keep that order, key order breaking ties, and are distinct. |
| ContentApi.GetHistory | src/lib/content-api.js:97-105 | The history holds at most twenty versions of listed keys of that page, newest first and distinct, with equal timestamps in key order (the stable sort of the lexicographic listing). Every listed key left out comes after every one kept in that order. |
| ContentApi.HistoryNewestOfAll | src/lib/content-api.js:97-105 | With at most a thousand snapshots, no snapshot left out of the history is newer than one shown. |
| ContentApi.RestoreVersion | src/lib/content-api.js:110-133 | A missing snapshot gets 404 and no writes. Otherwise: 200, a snapshot of the live text, the snapshot copied back verbatim, and metadata with `restoredFrom`. |
| ContentApi.RestoreEffect | src/lib/content-api.js:110-133 | After a restore the live text is the snapshot's, the previous live text is itself a snapshot, and nothing else changes. |
| ContentApi.RestoreUndoesPut | src/lib/content-api.js:55-133 | Saving over a page and restoring the snapshot that the save made brings the previous text back. |
| ContentApi.MatchHistory | src/lib/content-api.js:149 | A match means the path is `/<id>/history` with a non-empty, break-free id. |
| ContentApi.HistoryPathMatches | src/lib/content-api.js:149 | Every such path matches, with its id. |
| ContentApi.TrailingDigits | src/lib/content-api.js:156 | The longest run of digits that ends the text. |
| ContentApi.MatchRestore | src/lib/content-api.js:156 | A match means the path is `/<id>/restore/<digits>`. |
| ContentApi.RestorePathMatches | src/lib/content-api.js:156 | Every such path matches, with its id and digits. |
| ContentApi.Handle | src/lib/content-api.js:138-172 | Only `PUT` and `POST` requests write. Each route's replies are stated in ListRoute, HistoryRoute, RestoreRoute and AnyPageRoute. |
| ContentApi.ListRoute | src/lib/content-api.js:142-146 | The collection path answers `GET` with `{pages}` (throwing on unparseable metadata) and every other method with 405. |
| ContentApi.HistoryRoute | src/lib/content-api.js:148-153 | `GET …/<id>/history` replies with that page's history and writes nothing; any other method gets 405. |
| ContentApi.RestoreRoute | src/lib/content-api.js:155-160 | `POST …/<id>/restore/<digits>` is the restore of that snapshot; any other method gets 405 and writes nothing. |
| ContentApi.PageRoute | src/lib/content-api.js:162-171 | A catalogue page's path reads on `GET`, saves on `PUT`, and answers 405 to anything else. |
| ContentApi.AnyPageRoute | src/lib/content-api.js:162-171 | Any id whose path is neither a history nor a restore path, catalogue or not, reads `content:<id>` on `GET`, goes to the save (and its 400 for an unknown id) on `PUT`, and gets 405 otherwise. |
| ImageApi.Sanitize | src/lib/image-api.js:47 | The sanitised name has one safe character (`a-z0-9._-`) per UTF-16 code unit of the name. |
| ImageApi.SanitizeKeepsSafe | src/lib/image-api.js:47 | A name already made of safe characters is kept. |
| ImageApi.SanitizeIdempotent | src/lib/image-api.js:47 | Sanitising twice gives what sanitising once gave. |
| ImageApi.SanitizeMerges | src/lib/image-api.js:47 | Distinct names can share a key suffix (`a b` and `a+b`). |
| ImageApi.ImageKeysDistinct | src/lib/image-api.js:48 | Uploads at different milliseconds get different keys. |
| ImageApi.TimeOfKey | src/lib/image-api.js:48 | The key starts with the upload time, up to the first `-`. |
| ImageApi.ReadUpload | src/lib/image-api.js:15-35 | A multipart form without a readable form throws. A missing or string `file` gets 400. A raw body's declared type is never an allowed one. |
| ImageApi.Store | src/lib/image-api.js:37-60 | The reply is 200 exactly for an allowed type of at most 5 MiB, and then the bucket maps the key to the bytes and type. Otherwise 400 and no change. |
| ImageApi.Upload | src/lib/image-api.js:14-61 | The upload is stored exactly for a multipart `file` of an allowed type within the size limit, under `<now>-<sanitised name>`. Every other request leaves the bucket as it was. |
| ImageApi.AllowedTypesAreNotRaw | src/lib/image-api.js:7 | No allowed type mentions `application/octet-stream`. |
| ImageApi.RawUploadRejected | src/lib/image-api.js:17-39 | A non-multipart upload is always refused with 400 and stores nothing. |
| ImageApi.UploadEffect | src/lib/image-api.js:47-52 | A successful upload stores the file's bytes and type under the key it reports. |
| ImageApi.ListedKeys | src/lib/image-api.js:67 | The first 500 keys of the bucket, in key order. |
| ImageApi.ListImages | src/lib/image-api.js:66-76 | One entry per listed key, in listing order, with its public URL. |
| ImageApi.SmallBucketListedWhole | src/lib/image-api.js:67 | A bucket of at most 500 objects is listed whole. |
| ImageApi.DeleteImage | src/lib/image-api.js:81-84 | The key is gone whether or not it was there, and no other key changes. |
| ImageApi.ServeImage | src/lib/image-api.js:90-102 | 404 exactly for a missing key. Otherwise the stored bytes, the recorded type (JPEG by default) and a year-long immutable cache. |
| ImageApi.UploadThenServe | src/lib/image-api.js:14-102 | An uploaded image is served back under its key with its bytes and type. |
| ImageApi.DeleteThenServe | src/lib/image-api.js:81-102 | A deleted image is no longer served. |
| ImageApi.HandleImages | src/lib/image-api.js:107-125 | Only `POST` and `DELETE` change the bucket. A request that is not `POST …/upload`, `GET` of the collection, or `DELETE` of a key gets 404 "Route non trouvee" and leaves the bucket as it was. |
| ImageApi.UnknownImageRoutes | src/lib/image-api.js:124 | Any other method, a `POST` anywhere but `/upload`, a `GET` below the collection and a `DELETE` without a key all get 404 and change nothing. |
| ImageApi.DeleteRoute | src/lib/image-api.js:119-122 | `DELETE /api/images/<key>` deletes that key. |
| ImageApi.UploadAndListRoutes | src/lib/image-api.js:111-117 | `POST …/upload` is the upload and `GET /api/images` the listing. |
| Ssr.PageIdOf | src/lib/ssr.js:79-87 | The page id of a path is never empty, and the root (`""`, `/`) and the spellings of `/index` name `index`. |
| Ssr.HtmlStrippedBeforeSlash | src/lib/ssr.js:81 | `.html` is removed before the trailing slash, so `/<id>.html/` names `<id>.html`. |
| Ssr.PageIdOfSpellings | src/lib/ssr.js:79-87 | `/<id>`, `/<id>.html` and `/<id>/` all name the page `<id>`. |
| Ssr.IndexFields | src/lib/ssr.js:108 | Spreading an array gives exactly the keys `"0"`, `"1"`, … with the items. |
| Ssr.CharItems | src/lib/ssr.js:108 | Spreading a string gives one one-character string per position. |
| Ssr.Fields | src/lib/ssr.js:108 | `x \|\| {}` spread: nothing for a falsy value, the fields of an object, and index keys for an array or string. |
| Ssr.Merge | src/lib/ssr.js:108 | The merge has the keys of both sides, and the page's value wins. |
| Ssr.Rewrite | src/lib/ssr.js:111-117 | Every element of the page is rewritten, and only by its own markers. |
| Ssr.SetTargetKeepsMarkers | src/lib/ssr.js:34-71 | Setting a target attribute leaves what every marker reads unchanged. |
| Ssr.TextHandler | src/lib/ssr.js:9-21 | Only the inner content changes, and only when `data-cms` names a mapped key. |
| Ssr.LinkHandler | src/lib/ssr.js:26-37 | `href` is set from `data-cms-href` when mapped; the inner content and every marker are kept. |
| Ssr.ImageHandler | src/lib/ssr.js:42-58 | `src`, then `alt`, from their markers; `Ssr.ImageHandlerEffect` states it. |
| Ssr.MetaHandler | src/lib/ssr.js:63-74 | `content` is set from `data-cms-content` when mapped; the inner content and every marker are kept. |
| Ssr.RewriteElement | src/lib/ssr.js:111-117 | The handlers in registration order; `Ssr.RewriteElementMeetsTable` states the result. |
| Ssr.ImageHandlerEffect | src/lib/ssr.js:47-57 | The image handler sets `src`, then `alt`, from their markers and touches nothing else. |
| Ssr.RewriteElementUpdates | src/lib/ssr.js:9-74 | Each handler's value comes from the element's original markers. |
| Ssr.RewriteElementMeetsTable | src/lib/ssr.js:111-117 | The handler chain agrees with the marker-to-target table: each target changes exactly when its marker names a present key. |
| Ssr.ImageHandlerIdempotent | src/lib/ssr.js:47-57 | Applying the image handler twice gives what applying it once gave. |
| Ssr.RewriteElementIdempotent | src/lib/ssr.js:111-117 | Rewriting an element twice gives what rewriting once gave. |
| Ssr.RewriteIdempotent | src/lib/ssr.js:111-117 | Rewriting a page twice gives what rewriting once gave. |
| Ssr.NoCacheHeaders | src/lib/ssr.js:120-123 | No-cache and `X-CMS-Injected: true` are set, `ETag` is removed, and every other header is kept. |
| Ssr.NoCacheHeadersIdempotent | src/lib/ssr.js:120-123 | Applying the header changes twice gives what applying them once gave. |
| Ssr.InjectContent | src/lib/ssr.js:92-130 | Injection fails exactly when a stored document is not JSON. With neither document truthy the response is unchanged. Otherwise status and text are kept, headers get the no-cache treatment, and HTML is rewritten with the merged content. |
| Ssr.InjectTwice | src/lib/ssr.js:92-130 | Injecting into an already injected response changes nothing, on pages whose inserted markup is held as text. |
| Ssr.ArrayContentByIndex | src/lib/ssr.js:15-20 | With array content, `data-cms="<i>"` gets item `i`. |
| Rss.FirstFrom | src/worker.js:43 | A found occurrence lies at or after the start and within the text. |
| Rss.FirstFromSpec | src/worker.js:43 | It is the leftmost occurrence, and none is found only when there is none. |
| Rss.Between | src/worker.js:43 | `open([\s\S]*?)close` captures a range after the opening tag that ends before a closing tag. |
| Rss.BetweenFirst | src/worker.js:43 | The capture ends at the nearest closing tag after the first opening tag. |
| Rss.BetweenSpec | src/worker.js:43 | A capture is delimited by the two tags with no closing tag inside. |
| Rss.Capture | src/worker.js:47-50 | `open(.*?)close` captures a range after an opening tag. |
| Rss.CaptureSpec | src/worker.js:47-50 | A capture is delimited by the two tags with no closing tag or line break inside. |
| Rss.CaptureNone | src/worker.js:47-50 | Without an opening tag there is no match. |
| Rss.Blocks | src/worker.js:42-52 | The global `<item>` loop stops after the limit. |
| Rss.Items | src/worker.js:42-52 | The proxy returns at most two items. |
| Rss.ParseItem | src/worker.js:46-51 | The CDATA title, else the plain title, then link and date; `Rss.ParseItemXml` states the round trip. |
| Rss.ParseItemXml | src/worker.js:46-51 | An item written from plain fields parses back to the same title, link and date. |
| Rss.FeedRoundTrip | src/worker.js:42-52 | A feed written from plain items gives back its first two items. |
| Rss.ItemsJson | src/worker.js:54 | One JSON entry per item. |
| Rss.FeedKey | src/worker.js:28-29 | The `feed` parameter, or the key `"null"` when absent; `Rss.HandleRss` states the 400 for an unknown one. |
| Rss.HandleRss | src/worker.js:26-64 | An unknown feed gets 400. A failed fetch gets 500 with its message. The reply is 200 exactly for a fetched known feed, with at most two items and an hour of caching. |
| Rss.ProxyRoundTrip | src/worker.js:26-64 | A known feed serving plain items yields its first two items as JSON. |
| Worker.Static | src/worker.js:125-140 | Status is kept. Non-HTML assets and `/admin` paths are returned unchanged, and so is the asset when injection throws. Otherwise the asset gets the injection. |
| Worker.Content | src/worker.js:96-98 | Only an admitted `PUT` or `POST` changes the store, and the bucket never changes. |
| Worker.Images | src/worker.js:101-106 | Only an admitted `POST` or `DELETE` changes the bucket, and the store never changes. |
| Worker.RouteOf | src/worker.js:74-140 | The first test of the worker a request passes; `Worker.ContentRouted`, `Worker.ImagesRouted`, `Worker.PublicImageRouted`, `Worker.AdminRouted` and `Worker.PreflightFirst` state it. |
| Worker.Dispatch | src/worker.js:74-140 | The handler of each route; `Worker.Fetch` and `Worker.WritesNeedAdmission` state what it writes. |
| Worker.Fetch | src/worker.js:69-141 | Only the content route with `PUT`/`POST` writes the store, and only the image route with `POST`/`DELETE` writes the bucket. |
| Worker.WritesNeedAdmission | src/worker.js:96-106 | Every change to stored state needs the gate's admission. |
| Worker.ContentRouted | src/worker.js:96 | A non-`OPTIONS` request under `/api/content` reaches the content API. |
| Worker.ImagesRouted | src/worker.js:101 | A non-`OPTIONS` request under `/api/images` reaches the image API. |
| Worker.PublicImageRouted | src/worker.js:109 | A request under `/cms-images/` is served publicly. |
| Worker.AdminRouted | src/worker.js:118 | `/admin` and `/admin/…` reach the admin application. |
| Worker.PreflightFirst | src/worker.js:74-76 | `OPTIONS` gets the 204 preflight on every path and changes nothing. |
| Worker.GetChangesNothing | src/worker.js:69-141 | A `GET` changes neither store nor bucket. |
| Worker.ContentNeedsToken | src/worker.js:96-98 | Without a `Bearer` header the content API answers 401 and changes nothing. |
| Worker.UnboundBucket | src/worker.js:101-115 | Without a bucket the image routes answer 503 before any token check. |
| Worker.PublicImageServed | src/worker.js:109-115 | A public image needs no token: it is the stored image under the rest of the path. |
| Worker.AdmittedContent | src/worker.js:96-98 | An admitted caller gets the content API's answer, and its writes are applied. |
| Worker.FetchContent | src/worker.js:96-98 | A content path is handled by the gated content API. |
| Worker.ContentAdmitted | src/worker.js:96-98 | Through `fetch`, an admitted content request gets the API's answer and writes. |
| Worker.AdmittedImages | src/worker.js:101-106 | With a bucket, an admitted caller gets the image API's answer and change. |
| Worker.FetchImages | src/worker.js:101-106 | An image path is handled by the gated image API. |
| Worker.ImagesAdmitted | src/worker.js:101-106 | Through `fetch`, an admitted image request gets the API's answer and change. |
| Worker.UploadThenPublic | src/worker.js:101-115 | After an upload through `fetch`, the image is served publicly under its key, with its bytes and type. |
| Worker.AdminIndex | src/worker.js:118-123 | The admin area always gets the application's index page. |
| Worker.PlainStatic | src/worker.js:125-140 | A page with no stored content is served as the asset. |
| Worker.FeedThroughWorker | src/worker.js:81-83 | The feed proxy answers without a token with the feed's first two items. |
| Carousel.VisibleCards | js/carousel.js:69-74 | One to three cards are visible, depending on width. |
| Carousel.VisibleCardsMonotone | js/carousel.js:69-74 | A wider container never shows fewer cards. |
| Carousel.MaxIndex | js/carousel.js:76-79 | At the last index the window ends exactly on the last card. It is 0 when every card fits. |
| Carousel.Init | js/carousel.js:3-19 | A carousel runs exactly when it has a track and cards, and it starts at the first card. |
| Carousel.Next | js/carousel.js:81-86 | `next` stays in range and steps forward modulo the number of windows; from an index past the last window it goes to 0. |
| Carousel.Prev | js/carousel.js:88-93 | `prev` steps backward modulo the number of windows, and from out of range back by one. |
| Carousel.GoTo | js/carousel.js:95-99 | `goTo` moves to the requested window, clamped to the last. |
| Carousel.PrevAfterNext | js/carousel.js:81-93 | `prev` after `next` returns to the same window. |
| Carousel.NextAfterPrev | js/carousel.js:81-93 | `next` after `prev` returns to the same window. |
| Carousel.NextTimes | js/carousel.js:115-118 | Autoplay ticks change only the index. |
| Carousel.NextTimesIndex | js/carousel.js:115-118 | `k` ticks advance the index by `k` modulo the number of windows. |
| Carousel.NextCycle | js/carousel.js:115-118 | As many ticks as there are windows bring the carousel back to where it was. |
| Carousel.Dots | js/carousel.js:109-113 | A dot is active exactly when it is the current index. |
| Carousel.OneActiveDot | js/carousel.js:109-113 | Exactly one dot is active when the index names a dot, and none otherwise. |
| Carousel.TouchStart | js/carousel.js:43-46 | Touch start records where the finger came down. |
| Carousel.TouchMove | js/carousel.js:48-50 | The recorded travel is the distance from the touch-down point. |
| Carousel.TouchEnd | js/carousel.js:52-62 | More than 50 px right goes back and more than 50 px left goes forward; the travel is then reset. |
| Carousel.Swipe | js/carousel.js:40-62 | A complete long drag left advances, a long drag right goes back, and a short one changes nothing. |
| Carousel.TapAfterSwipe | js/carousel.js:40-62 | A tap after a finished swipe does not move. |
| Carousel.RunStaysInRange | js/carousel.js:81-99 | At a fixed width, no sequence of clicks, ticks and swipes leaves the index out of range. |
| Accordion.Close | js/accordion.js:15-21 | Closing removes `active` and resets the panel height. |
| Accordion.CloseAll | js/accordion.js:15-21 | Every item of the accordion is closed. |
| Accordion.Click | js/accordion.js:11-27 | After a click at most one item is open. Clicking the open item closes all; clicking a closed one opens only it to its full height. It throws exactly when that item has no panel. |
| Accordion.ClickTwiceCloses | js/accordion.js:11-27 | A second click on the item just opened closes the accordion. |
| Accordion.ReopenAfterClose | js/accordion.js:11-27 | Clicking the open item twice reopens exactly that item. |
| Accordion.ClickOn | js/accordion.js:4-11 | A click changes only its own accordion, and only if the item's handler was installed. |
| Accordion.ClickKeepsTidy | js/accordion.js:11-27 | Clicks keep every accordion at most one open item. |
| Accordion.WiredUpToMissingTrigger | js/accordion.js:7-11 | Items after the first item without a trigger never get handlers. |
| Forms.IsValidEmail | js/forms.js:70-72 | An accepted address has exactly one `@` and no white space. |
| Forms.IsValidEmailMatchesPattern | js/forms.js:70-72 | Acceptance equals the pattern `^[^\s@]+@[^\s@]+\.[^\s@]+$`. |
| Forms.ShowMessage | js/forms.js:74-78 | A present element gets the text and the class `form-message <kind>`. A missing one is left alone. |
| Forms.SubmitNewsletter | js/forms.js:8-23 | A missing input throws. The trimmed address is checked, and a valid one clears the input and shows success. |
| Forms.NewsletterTrims | js/forms.js:13-15 | An address padded with white space is accepted. |
| Forms.FirstEmail | js/forms.js:45 | The first e-mail field of the form, if any. |
| Forms.Checked | js/forms.js:36-49 | Only borders change. A failing field gets the error border, and a required field that passes gets none. |
| Forms.SubmitContact | js/forms.js:29-59 | The form is reset and success shown exactly when no field fails. |
| Forms.RefusedIffFlagged | js/forms.js:36-54 | Submission is refused exactly when some field is flagged. |
| Forms.OptionalEmailChecked | js/forms.js:45-49 | An invalid e-mail field blocks submission even when not required. |
| Forms.OnInput | js/forms.js:63-67 | Typing clears the error border. |

## Left out

- Network, storage and crypto calls are not executed. The key-value store
  and the bucket are maps. JSON text, ISO dates, HMAC-SHA-256, PBKDF2 and
  the feed fetch are opaque `Runtime` parameters, and clocks are parameters.
- Promises, concurrency and the order of the two parallel reads in
  injection are not modelled; neither read writes.
- JSON numbers are integers. Floating point, `NaN` and `Infinity` are not
  modelled.
- `debugSSR` (src/lib/ssr.js:136) is not part of this model.
- Console logging is not modelled.
- The HTML rewriter's streaming, and HTML parsing itself, are not modelled.
  A page is a sequence of elements with attributes and inner content.
- `setInnerContent(…, { html: true })` inserts markup. The model records the
  text it is given and does not re-parse it.
- Ssr.InjectTwice: holds for the model's pages only. In the source, markup
  inserted by a first pass is parsed by a second one, so markers inside it
  are then filled: with content `{"a": "<span data-cms=\"b\"></span>",
  "b": "X"}` a `<div data-cms="a">` holds an empty span after one pass and
  a span holding `X` after two.
- The other front-end scripts (counter, main, resources, payments) are not
  part of this model.
- Carousel pixel offsets (`updatePosition`), autoplay timers, hover pause
  and the dot click wiring are not modelled. Widths and touch positions are
  integers.
- `form.reset()` restoring default values is recorded as a flag, without
  the defaults.
- Common.LowerChar: folds Latin-1 capitals only. `toLowerCase` beyond
  U+00FF (for example `Ł`) is not modelled, so `Auth.Login`, `Auth.AllowList`
  and `Auth.HandleHashPassword` treat such letters as already lower-case.
- Rss.HandleRss: the feed lookup uses own keys only. Inherited properties
  such as `?feed=constructor` are not modelled. The source finds a function
  there, its fetch throws, and it answers 500 instead of 400.
- Ssr.RewriteElementMeetsTable: marker lookups use the merged content's own
  keys only. Inherited names such as `data-cms="toString"` are not modelled.
- Ssr.Fields: a string spreads one entry per character. The source spreads
  one per UTF-16 code unit, so a character above U+FFFF gives two entries
  there.
- Jwt.VerifyJwt: an `exp` claim that is a number or a boolean is compared as
  the source does. A string, array or object `exp`, which the source coerces
  to a number, is treated as never expiring. Such claims need the secret to
  be signed.
- ContentApi.GetHistory: a history key whose last piece is not a run of
  digits has timestamp 0 here, and the reply is 200. In the source,
  `parseInt` reads the leading digits (`12x` gives 12), and a piece with
  none gives `NaN`, for which `new Date(NaN).toISOString()` throws a
  `RangeError`, so the whole history request fails. A timestamp beyond the
  range of `Date` throws the same way. Keys this code writes always end in
  the decimal `Date.now()`, so neither case arises from its own writes. The
  store's listing cursor beyond the first thousand keys is not followed;
  the source does not follow it either.
- ContentApi.ListPages: the spread of `...page` into each summary is
  modelled as the catalogue entry itself.
- ImageApi.ListImages: the `uploaded` field is the ISO rendering of the
  stored time. Other object metadata is not modelled.

## Findings

| source | as written | input that shows it | evidently intended | confidence | as-written member | corrected member |
|---|---|---|---|---|---|---|
| src/lib/jwt.js:36 | The claims text is encoded with `btoa`, one byte per Latin-1 character, but `verifyJWT` decodes it with `TextDecoder` as UTF-8 (line 58). | The address `josé@x.fr`: the signed claims contain `é` as the byte `0xE9`. Verification reads it back as U+FFFD, so the gate finds `jos�@x.fr`, not a listed address, and answers 403. An address beyond Latin-1 (`ł@x.fr`) makes `btoa` throw during login. | The claims text is encoded with `TextEncoder` before base64url, so every claims text survives the round trip. | not executed | Jwt.AsWrittenAltersLatin1Claims | Jwt.CorrectedKeepsClaims |

The login itself (`Auth.Login`) keeps the signer as written
(`Jwt.SignJwtAsWritten`). `Jwt.AsciiSignersAgree` shows that it issues the
same token as the corrected `Jwt.SignJwt` whenever the claims text is
ASCII. The end-to-end property `Auth.LoginThenGate` is proved for that case.

=== FILE: accordion.dfy ===
/** The accordions of accordion.js: a click on an item's trigger closes
    every item of its accordion and, if the item was closed, opens it,
    letting its content grow to its full height. */
module Accordion {
  import opened Common

  /** An item's content panel: its inline `max-height` (`None` is `null`,
      the stylesheet's collapsed height) and the height of what it holds. */
  datatype Panel = Panel(maxHeight: Option<nat>, scrollHeight: nat)

  /** An accordion item: whether it carries the `active` class, whether it
      has a trigger, and its content panel if it has one. */
  datatype Item = Item(active: bool, hasTrigger: bool, panel: Option<Panel>)

  /** A page: its accordions in document order, each a list of items. */
  type Page = seq<seq<Item>>

  /** The result of one click: the items afterwards, and whether the
      handler threw part way (an opened item without a content panel). */
  datatype Clicked = Clicked(items: seq<Item>, threw: bool)

  predicate AtMostOneActive(items: seq<Item>) {
    forall j, k :: 0 <= j < |items| && 0 <= k < |items| && items[j].active && items[k].active ==> j == k
  }

  predicate NoneActive(items: seq<Item>) {
    forall j :: 0 <= j < |items| ==> !items[j].active
  }

  /** Closing one item: no `active` class, and a panel back to `null`. */
  function Close(it: Item): (c: Item)
    ensures !c.active && c.hasTrigger == it.hasTrigger
    ensures c.panel.Some? <==> it.panel.Some?
    ensures c.panel.Some? ==> c.panel.value == Panel(None, it.panel.value.scrollHeight)
  {
    it.(active := false, panel := match it.panel
      case Some(p) => Some(p.(maxHeight := None))
      case None => None)
  }

  function CloseAll(items: seq<Item>): (r: seq<Item>)
    ensures |r| == |items|
    ensures forall j :: 0 <= j < |items| ==> r[j] == Close(items[j])
  {
    seq(|items|, j requires 0 <= j < |items| => Close(items[j]))
  }

  /** The click handler of item `i`: close all, then, if `i` was closed,
      mark it active and open its panel to the height of what it holds.
      Without a panel the handler throws once the class is set. */
  function Click(items: seq<Item>, i: nat): (r: Clicked)
    requires i < |items|
    ensures |r.items| == |items|
    ensures AtMostOneActive(r.items)
    ensures items[i].active ==> NoneActive(r.items) && !r.threw
    ensures !items[i].active ==> r.items[i].active && (forall j :: 0 <= j < |items| && j != i ==> !r.items[j].active)
    ensures r.threw <==> !items[i].active && items[i].panel.None?
    ensures forall j :: 0 <= j < |items| && (j != i || items[i].active) ==> r.items[j] == Close(items[j])
    ensures !items[i].active && items[i].panel.Some? ==>
      r.items[i].panel == Some(Panel(Some(items[i].panel.value.scrollHeight), items[i].panel.value.scrollHeight))
    ensures forall j :: 0 <= j < |items| ==> r.items[j].hasTrigger == items[j].hasTrigger
  {
    var closed := CloseAll(items);
    if items[i].active then Clicked(closed, false)
    else
      var marked := closed[i].(active := true);
      match items[i].panel
      case None => Clicked(closed[i := marked], true)
      case Some(p) => Clicked(closed[i := marked.(panel := Some(Panel(Some(p.scrollHeight), p.scrollHeight)))], false)
  }

  /** A second click on the item just opened closes the whole accordion. */
  lemma ClickTwiceCloses(items: seq<Item>, i: nat)
    requires i < |items| && !items[i].active
    ensures NoneActive(Click(Click(items, i).items, i).items)
  {
  }

  /** Clicking the open item of an accordion and then clicking it again
      reopens exactly that item. */
  lemma ReopenAfterClose(items: seq<Item>, i: nat)
    requires i < |items| && items[i].active && items[i].panel.Some?
    ensures var again := Click(Click(items, i).items, i);
      && again.items[i].active && !again.threw
      && again.items[i].panel == Some(Panel(Some(items[i].panel.value.scrollHeight), items[i].panel.value.scrollHeight))
  {
    var first := Click(items, i);
    assert first.items[i] == Close(items[i]);
  }

  // ---- The page ----

  /** Whether item `j` of accordion `a` got its click handler: the set-up
      walks every accordion's items in document order and stops at the
      first item without a trigger, whose `addEventListener` throws. */
  predicate Wired(page: Page, a: nat, j: nat)
    requires a < |page| && j < |page[a]|
  {
    && (forall b, k :: 0 <= b < a && 0 <= k < |page[b]| ==> page[b][k].hasTrigger)
    && (forall k :: 0 <= k <= j ==> page[a][k].hasTrigger)
  }

  /** A click on item `j` of accordion `a`: only that accordion changes,
      and only if the item's handler was installed. */
  function ClickOn(page: Page, a: nat, j: nat): (r: Page)
    requires a < |page| && j < |page[a]|
    ensures |r| == |page|
    ensures forall b :: 0 <= b < |page| && b != a ==> r[b] == page[b]
    ensures !Wired(page, a, j) ==> r == page
    ensures Wired(page, a, j) ==> r[a] == Click(page[a], j).items
  {
    if Wired(page, a, j) then page[a := Click(page[a], j).items] else page
  }

  /** Every accordion of a page has at most one open item. */
  predicate Tidy(page: Page) {
    forall a :: 0 <= a < |page| ==> AtMostOneActive(page[a])
  }

  /** A click keeps every accordion of a tidy page tidy. */
  lemma ClickKeepsTidy(page: Page, a: nat, j: nat)
    requires a < |page| && j < |page[a]| && Tidy(page)
    ensures Tidy(ClickOn(page, a, j))
  {
  }

  /** Items past the first one without a trigger never respond; those
      before it, in earlier accordions or earlier in the same one, do. */
  lemma WiredUpToMissingTrigger(page: Page, a: nat, j: nat, b: nat, k: nat)
    requires a < |page| && j < |page[a]| && !page[a][j].hasTrigger
    requires b < |page| && k < |page[b]|
    ensures (b > a || (b == a && k >= j)) ==> !Wired(page, b, k)
  {
    if b > a || (b == a && k >= j) {
      if b > a {
        assert !page[a][j].hasTrigger;
      } else {
        assert !page[b][j].hasTrigger;
      }
    }
  }
}

=== FILE: auth.dfy ===
/** Login, password-hash provisioning and the bearer-token gate of
    auth.js. Environment variables are a map from name to text; a missing
    variable reads as the empty string, which every check treats as
    absent. */
module Auth {
  import opened Common
  import opened Js
  import opened Http
  import opened Platform
  import Jwt
  import Utf8
  import Base64

  type Vars = map<string, string>

  function Var(vars: Vars, name: string): string
  {
    if name in vars then vars[name] else ""
  }

  /** `env.JWT_SECRET`, which `TextEncoder` turns into "" when unset. */
  function Secret(vars: Vars): string { Var(vars, "JWT_SECRET") }

  /** `s.trim().toLowerCase()`: no white space at either end and no
      Latin-1 capital left. */
  function Normalize(s: string): (r: string)
    ensures r == [] <==> AllSpace(s)
    ensures r == [] || (!IsJsSpace(r[0]) && !IsJsSpace(r[|r| - 1]))
    ensures forall i :: 0 <= i < |r| ==> !IsLatin1Capital(r[i])
  {
    LowerTrimShape(s);
    Lower(Trim(s))
  }

  /** Normalising an address twice gives what normalising it once gave, so
      the allow-list and the login agree on a stored address. */
  lemma NormalizeIdempotent(s: string)
    ensures Normalize(Normalize(s)) == Normalize(s)
  {
    var t := Trim(s);
    var n := Lower(t);
    if n != [] {
      LowerCharSpace(t[0]);
      LowerCharSpace(t[|t| - 1]);
    }
    TrimTrimmed(n);
    LowerIdempotent(t);
  }

  /** `(env.ADMIN_USERS || '').split(',').map(e => e.trim().toLowerCase())`. */
  function AllowList(vars: Vars): (r: seq<string>)
    ensures |r| == |Split(Var(vars, "ADMIN_USERS"), ',')|
    ensures forall i :: 0 <= i < |r| ==> r[i] == Normalize(Split(Var(vars, "ADMIN_USERS"), ',')[i])
  {
    var pieces := Split(Var(vars, "ADMIN_USERS"), ',');
    seq(|pieces|, i requires 0 <= i < |pieces| => Normalize(pieces[i]))
  }

  /** `.replace(/[^a-z0-9]/g, '_')`: the pattern works on UTF-16 code units,
      so a character outside the Basic Multilingual Plane becomes two. */
  function Underscored(s: string): (r: string)
    ensures |r| == Utf16Length(s)
  {
    if |s| == 0 then ""
    else
      var c := s[|s| - 1];
      var last := if ('a' <= c <= 'z') || ('0' <= c <= '9') then [c] else if c as int > 0xFFFF then "__" else "_";
      Underscored(s[..|s| - 1]) + last
  }

  /** The name part of an address, as the secret's name carries it:
      `email.split('@')[0].replace(/[^a-z0-9]/g, '_').toUpperCase()`. */
  function UserKey(email: string): string
  {
    Upper(Underscored(Split(email, '@')[0]))
  }

  predicate IsKeyChar(c: char) { ('A' <= c <= 'Z') || ('0' <= c <= '9') || c == '_' }

  /** A user key is made of upper-case letters, digits and `_` only, one
      per UTF-16 unit of the name part. */
  lemma {:induction false} UserKeyShape(email: string)
    ensures |UserKey(email)| == Utf16Length(Split(email, '@')[0])
    ensures forall i :: 0 <= i < |UserKey(email)| ==> IsKeyChar(UserKey(email)[i])
  {
    UnderscoredShape(Split(email, '@')[0]);
  }

  lemma {:induction false} UnderscoredShape(s: string)
    ensures forall i :: 0 <= i < |Underscored(s)| ==> var c := Underscored(s)[i]; ('a' <= c <= 'z') || ('0' <= c <= '9') || c == '_'
    decreases |s|
  {
    if |s| > 0 {
      UnderscoredShape(s[..|s| - 1]);
    }
  }

  /** The secret slot depends on the name part only: administrators who
      share a name part under different domains share one slot. */
  lemma UserKeyIgnoresDomain(name: string, domain1: string, domain2: string)
    requires '@' !in name
    ensures UserKey(name + "@" + domain1) == UserKey(name + "@" + domain2) == UserKey(name)
  {
    NamePart(name, domain1);
    NamePart(name, domain2);
  }

  lemma NamePart(name: string, domain: string)
    requires '@' !in name
    ensures Split(name + "@" + domain, '@')[0] == name
  {
    var s := name + "@" + domain;
    assert s[|name|] == '@';
    assert s[..|name|] == name;
    var i := IndexOf(s, '@');
    assert forall j :: 0 <= j < |name| ==> s[j] == name[j];
    assert i == |name|;
  }

  /** The variable holding an administrator's password hash. */
  function SecretName(email: string): string { "ADMIN_PASSWORD_HASH_" + UserKey(email) }

  /** The PBKDF2 salt: the site prefix and the normalised address. */
  function Salt(email: string): string { "aixleaders_" + email }

  const Unauthorised := "Identifiants incorrects"

  /** How the two endpoints read `{ email, password }` from the body. */
  datatype Credentials =
    | NotJson               // `request.json()` rejected
    | Throws                // destructuring `null`, or `trim` on a non-string
    | Missing               // a falsy email or password
    | Given(email: string, password: Json)

  function ReadCredentials(body: Option<Json>): (c: Credentials)
    ensures c.Given? ==> c.email != "" && Truthy(c.password)
  {
    if body.None? then NotJson
    else if body.value == JNull then Throws
    else
      var email, password := Get(body.value, "email"), Get(body.value, "password");
      if !TruthyOpt(email) || !TruthyOpt(password) then Missing
      else if !email.value.JStr? then Throws
      else Given(email.value.s, password.value)
  }

  /** The reply of a successful login: the token and the normalised address. */
  function LoginReply(token: string, email: string): Response
  {
    JsonResponse(JObj(map["token" := JStr(token), "email" := JStr(email)]), 200)
  }

  /** The claims text of the token issued to `email` at `nowMs`. */
  function TokenText(rt: Runtime, email: string, nowMs: int): string
  {
    rt.stringify(Jwt.Claims(map["email" := JStr(email)], Jwt.Seconds(nowMs), Jwt.DefaultTtl))
  }

  /** The checks of `handleLogin` once the credentials are read: the
      allow-list, the stored hash, the password, then a token for the
      normalised address from `signJWT`, which throws for an empty secret
      or a claims text beyond Latin-1. Every refusal says the same thing,
      so the reply does not reveal which check failed. */
  function Login(rt: Runtime, vars: Vars, raw: string, password: Json, nowMs: int): (r: Outcome)
    ensures r.Served? ==> r.resp.status in {200, 401}
    ensures r.Served? && r.resp.status == 401 ==> r.resp == ErrorResponse(Unauthorised, 401)
    ensures var email := Normalize(raw);
      var checked :=
        && email in AllowList(vars)
        && Var(vars, SecretName(email)) != ""
        && rt.pbkdf2(password, Salt(email)) == Var(vars, SecretName(email));
      && (r.Served? && r.resp.status == 200 <==> checked && Secret(vars) != "" && Base64.IsLatin1(TokenText(rt, email, nowMs)))
      && (r.Threw? <==> checked && (Secret(vars) == "" || !Base64.IsLatin1(TokenText(rt, email, nowMs))))
    ensures r.Served? && r.resp.status == 200 ==>
      var email := Normalize(raw);
      r.resp == LoginReply(Jwt.SignJwtAsWritten(rt, map["email" := JStr(email)], Secret(vars), nowMs, Jwt.DefaultTtl).value, email)
  {
    var email := Normalize(raw);
    if email !in AllowList(vars) then Served(ErrorResponse(Unauthorised, 401))
    else
      var stored := Var(vars, SecretName(email));
      if stored == "" then Served(ErrorResponse(Unauthorised, 401))
      else if rt.pbkdf2(password, Salt(email)) != stored then Served(ErrorResponse(Unauthorised, 401))
      else match Jwt.SignJwtAsWritten(rt, map["email" := JStr(email)], Secret(vars), nowMs, Jwt.DefaultTtl)
        case None => Threw
        case Some(token) => Served(LoginReply(token, email))
  }

  /** Credentials that pass every check and a signable claims text log in. */
  lemma LoginAccepts(rt: Runtime, vars: Vars, raw: string, password: Json, nowMs: int)
    requires var email := Normalize(raw);
      && email in AllowList(vars)
      && Var(vars, SecretName(email)) == rt.pbkdf2(password, Salt(email)) != ""
      && Secret(vars) != ""
      && Base64.IsLatin1(TokenText(rt, email, nowMs))
    ensures Login(rt, vars, raw, password, nowMs).Served?
    ensures Login(rt, vars, raw, password, nowMs).resp.status == 200
  {
  }

  /** `handleLogin`: the method, then the body, then `Login`. */
  function HandleLogin(rt: Runtime, vars: Vars, req: Request, nowMs: int): (r: Outcome)
    ensures req.verb != "POST" ==> r == Served(ErrorResponse("Method not allowed", 405))
    ensures req.verb == "POST" ==> match ReadCredentials(req.json)
      case NotJson => r == Served(ErrorResponse("Invalid JSON", 400))
      case Throws => r == Threw
      case Missing => r == Served(ErrorResponse("Email et mot de passe requis", 400))
      case Given(raw, password) => r == Login(rt, vars, raw, password, nowMs)
  {
    if req.verb != "POST" then Served(ErrorResponse("Method not allowed", 405))
    else match ReadCredentials(req.json)
      case NotJson => Served(ErrorResponse("Invalid JSON", 400))
      case Throws => Threw
      case Missing => Served(ErrorResponse("Email et mot de passe requis", 400))
      case Given(raw, password) => Login(rt, vars, raw, password, nowMs)
  }

  /** `handleHashPassword`: the hash of the password under the address's
      salt, and the name of the variable to store it in. */
  function HandleHashPassword(rt: Runtime, req: Request): (r: Outcome)
    ensures req.verb != "POST" ==> r == Served(ErrorResponse("Method not allowed", 405))
    ensures req.verb == "POST" && ReadCredentials(req.json).NotJson? ==> r == Served(ErrorResponse("Invalid JSON", 400))
    ensures req.verb == "POST" && ReadCredentials(req.json).Throws? ==> r == Threw
    ensures req.verb == "POST" && ReadCredentials(req.json).Missing? ==>
      r == Served(ErrorResponse("Email et mot de passe requis", 400))
    ensures req.verb == "POST" && ReadCredentials(req.json).Given? ==> r.Served? && r.resp.status == 200
    ensures r.Served? && r.resp.status == 200 ==>
      var c := ReadCredentials(req.json);
      && req.verb == "POST" && c.Given?
      && r.resp == JsonResponse(JObj(map[
           "email" := JStr(Normalize(c.email)),
           "hash" := JStr(rt.pbkdf2(c.password, Salt(Normalize(c.email)))),
           "secretName" := JStr(SecretName(Normalize(c.email)))]), 200)
  {
    if req.verb != "POST" then Served(ErrorResponse("Method not allowed", 405))
    else match ReadCredentials(req.json)
      case NotJson => Served(ErrorResponse("Invalid JSON", 400))
      case Throws => Threw
      case Missing => Served(ErrorResponse("Email et mot de passe requis", 400))
      case Given(raw, password) =>
        var email := Normalize(raw);
        Served(JsonResponse(JObj(map[
          "email" := JStr(email),
          "hash" := JStr(rt.pbkdf2(password, Salt(email))),
          "secretName" := JStr(SecretName(email))]), 200))
  }

  /** Storing the hash endpoint's `hash` under its `secretName` lets the
      same credentials log in, once the address is on the allow-list, a
      signing secret is set and the claims text is Latin-1. */
  lemma ProvisionThenLogin(rt: Runtime, vars: Vars, req: Request, nowMs: int)
    requires req.verb == "POST" && ReadCredentials(req.json).Given?
    requires var fields := HandleHashPassword(rt, req).resp.body.data.fields;
      && Var(vars, fields["secretName"].s) == fields["hash"].s != ""
      && fields["email"].s in AllowList(vars)
      && Secret(vars) != ""
      && Base64.IsLatin1(TokenText(rt, fields["email"].s, nowMs))
    ensures HandleLogin(rt, vars, req, nowMs).Served?
    ensures HandleLogin(rt, vars, req, nowMs).resp.status == 200
  {
    HashReplyFields(rt, req);
    var c := ReadCredentials(req.json);
    var email := Normalize(c.email);
    var fields := HandleHashPassword(rt, req).resp.body.data.fields;
    assert fields["email"].s == email && fields["secretName"].s == SecretName(email);
    assert Var(vars, SecretName(email)) == rt.pbkdf2(c.password, Salt(email)) != "";
    LoginAccepts(rt, vars, c.email, c.password, nowMs);
    assert HandleLogin(rt, vars, req, nowMs) == Login(rt, vars, c.email, c.password, nowMs);
  }

  lemma HashReplyFields(rt: Runtime, req: Request)
    requires HandleHashPassword(rt, req).Served? && HandleHashPassword(rt, req).resp.status == 200
    ensures req.verb == "POST" && ReadCredentials(req.json).Given?
    ensures var c := ReadCredentials(req.json);
      var email := Normalize(c.email);
      var fields := HandleHashPassword(rt, req).resp.body.data.fields;
      && fields["email"] == JStr(email)
      && fields["secretName"] == JStr(SecretName(email))
      && fields["hash"] == JStr(rt.pbkdf2(c.password, Salt(email)))
  {
    assert "email"[0] != "hash"[0] && "hash"[0] != "secretName"[0] && "secretName"[0] != "email"[0];
  }

  // ---- withAuth ----

  datatype Gate = Denied(resp: Response) | Admitted(email: string)

  /** The token of an `Authorization: Bearer <token>` header. */
  function BearerToken(headers: map<string, string>): (t: Option<string>)
    ensures t.Some? <==> StartsWith(HeaderOr(headers, "authorization"), "Bearer ")
    ensures t.Some? ==> HeaderOr(headers, "authorization") == "Bearer " + t.value
  {
    var auth := HeaderOr(headers, "authorization");
    if StartsWith(auth, "Bearer ") then
      assert auth == auth[..7] + auth[7..];
      Some(auth[7..])
    else None
  }

  /** The address the claims name, when they name one as a string. */
  function ClaimedEmail(claims: Json): (e: Option<string>)
    ensures e.Some? <==> Get(claims, "email").Some? && Get(claims, "email").value.JStr?
    ensures e.Some? ==> Get(claims, "email") == Some(JStr(e.value))
  {
    match Get(claims, "email")
    case Some(JStr(s)) => Some(s)
    case _ => None
  }

  /** The address valid claims admit: a string `email` claim on the list. */
  predicate Allows(v: Jwt.Verified, allowed: seq<string>)
  {
    v.Valid? && Get(v.claims, "email").Some? && Get(v.claims, "email").value.JStr?
    && Get(v.claims, "email").value.s in allowed
  }

  /** What `withAuth` decides once the token is checked: a rejected token
      is unauthorised, a valid one naming an address on the allow-list
      admits it, any other valid one is forbidden. */
  function Admission(v: Jwt.Verified, allowed: seq<string>): (g: Gate)
    ensures g.Admitted? <==> Allows(v, allowed)
    ensures g.Admitted? ==> Get(v.claims, "email") == Some(JStr(g.email)) && g.email in allowed
    ensures g.Denied? ==> g.resp == if v.Invalid? then ErrorResponse("Token invalide ou expire", 401)
      else ErrorResponse("Acces interdit", 403)
  {
    match v
    case Invalid(_) => Denied(ErrorResponse("Token invalide ou expire", 401))
    case Valid(claims) =>
      match ClaimedEmail(claims)
      case Some(e) => if e in allowed then Admitted(e) else Denied(ErrorResponse("Acces interdit", 403))
      case None => Denied(ErrorResponse("Acces interdit", 403))
  }

  /** `withAuth`: without a `Bearer` header the request is unauthorised;
      otherwise the token is verified with the signing secret and judged
      against the allow-list. */
  function WithAuth(rt: Runtime, vars: Vars, headers: map<string, string>, nowMs: int): (g: Gate)
    ensures BearerToken(headers).None? ==> g == Denied(ErrorResponse("Non autorise", 401))
    ensures g.Admitted? <==> (BearerToken(headers).Some? &&
      Allows(Jwt.VerifyJwt(rt, BearerToken(headers).value, Secret(vars), nowMs), AllowList(vars)))
    ensures g.Admitted? ==> (g.email in AllowList(vars) && BearerToken(headers).Some? &&
      Get(Jwt.VerifyJwt(rt, BearerToken(headers).value, Secret(vars), nowMs).claims, "email") == Some(JStr(g.email)))
    ensures g.Denied? ==> (g.resp.status == 403 <==> (BearerToken(headers).Some? &&
      Jwt.VerifyJwt(rt, BearerToken(headers).value, Secret(vars), nowMs).Valid?))
    ensures g.Denied? ==> g.resp.status in {401, 403}
  {
    match BearerToken(headers)
    case None => Denied(ErrorResponse("Non autorise", 401))
    case Some(token) => Admission(Jwt.VerifyJwt(rt, token, Secret(vars), nowMs), AllowList(vars))
  }

  /** A header carrying a token that verifies and names an address on the
      allow-list is admitted as that address. */
  lemma BearerAdmits(rt: Runtime, vars: Vars, token: string, nowMs: int, email: string)
    requires Jwt.VerifyJwt(rt, token, Secret(vars), nowMs).Valid?
    requires Get(Jwt.VerifyJwt(rt, token, Secret(vars), nowMs).claims, "email") == Some(JStr(email))
    requires email in AllowList(vars)
    ensures WithAuth(rt, vars, map["authorization" := "Bearer " + token], nowMs) == Admitted(email)
  {
    var headers := map["authorization" := "Bearer " + token];
    assert ("Bearer " + token)[..7] == "Bearer ";
    assert ("Bearer " + token)[7..] == token;
    assert BearerToken(headers) == Some(token);
    assert ClaimedEmail(Jwt.VerifyJwt(rt, token, Secret(vars), nowMs).claims) == Some(email);
  }

  /** What a successful login promises: the address is on the allow-list,
      the claims text is Latin-1 and the token is the one `signJWT` issues
      for it. */
  lemma LoginToken(rt: Runtime, vars: Vars, raw: string, password: Json, nowMs: int, token: string)
    requires Login(rt, vars, raw, password, nowMs) == Served(LoginReply(token, Normalize(raw)))
    ensures Secret(vars) != "" && Normalize(raw) in AllowList(vars)
    ensures Base64.IsLatin1(TokenText(rt, Normalize(raw), nowMs))
    ensures Jwt.SignJwtAsWritten(rt, map["email" := JStr(Normalize(raw))], Secret(vars), nowMs, Jwt.DefaultTtl) == Some(token)
  {
    var email := Normalize(raw);
    var signed := Jwt.SignJwtAsWritten(rt, map["email" := JStr(email)], Secret(vars), nowMs, Jwt.DefaultTtl);
    assert signed.Some? && Login(rt, vars, raw, password, nowMs) == Served(LoginReply(signed.value, email));
    ReplyNamesToken(signed.value, token, email);
  }

  lemma ReplyNamesToken(a: string, b: string, email: string)
    requires LoginReply(a, email) == LoginReply(b, email)
    ensures a == b
  {
    assert LoginReply(a, email).body.data.fields["token"] == JStr(a);
  }

  lemma ClaimsKeepEmail(email: string, now: int)
    ensures Get(Jwt.Claims(map["email" := JStr(email)], now, Jwt.DefaultTtl), "email") == Some(JStr(email))
  {
    var c := Jwt.Claims(map["email" := JStr(email)], now, Jwt.DefaultTtl);
    assert "email"[1] != "iat"[1] && "email"[1] != "exp"[1];
    assert c.fields["email"] == JStr(email);
  }

  /** A token the corrected signer issues for an address on the allow-list
      admits it until the second its expiry names. */
  lemma IssuedTokenAdmits(rt: Runtime, vars: Vars, email: string, nowMs: int, laterMs: int)
    requires Secret(vars) != "" && email in AllowList(vars)
    requires var c := Jwt.Claims(map["email" := JStr(email)], Jwt.Seconds(nowMs), Jwt.DefaultTtl);
      var text := rt.stringify(c);
      |text| > 0 && text[0] == '{' && rt.parse(text) == Some(c)
    requires Jwt.Seconds(laterMs) <= Jwt.Seconds(nowMs) + Jwt.DefaultTtl
    ensures var token := Jwt.SignJwt(rt, map["email" := JStr(email)], Secret(vars), nowMs, Jwt.DefaultTtl).value;
      WithAuth(rt, vars, map["authorization" := "Bearer " + token], laterMs) == Admitted(email)
  {
    var payload := map["email" := JStr(email)];
    var token := Jwt.SignJwt(rt, payload, Secret(vars), nowMs, Jwt.DefaultTtl).value;
    var c := Jwt.Claims(payload, Jwt.Seconds(nowMs), Jwt.DefaultTtl);
    assert Jwt.VerifyJwt(rt, token, Secret(vars), laterMs) == Jwt.Valid(c) by {
      Jwt.SignThenVerify(rt, payload, Secret(vars), nowMs, Jwt.DefaultTtl, laterMs);
    }
    ClaimsKeepEmail(email, Jwt.Seconds(nowMs));
    BearerAdmits(rt, vars, token, laterMs, email);
  }

  /** The token a successful login returns admits that address until it
      expires a day later, as long as the allow-list still names it and
      the claims text is ASCII; for other Latin-1 claims the as-written
      signer alters the text the token carries. */
  lemma LoginThenGate(rt: Runtime, vars: Vars, raw: string, password: Json, nowMs: int, token: string, laterMs: int)
    requires Login(rt, vars, raw, password, nowMs) == Served(LoginReply(token, Normalize(raw)))
    requires Utf8.IsAscii(TokenText(rt, Normalize(raw), nowMs))
    requires var c := Jwt.Claims(map["email" := JStr(Normalize(raw))], Jwt.Seconds(nowMs), Jwt.DefaultTtl);
      var text := rt.stringify(c);
      |text| > 0 && text[0] == '{' && rt.parse(text) == Some(c)
    requires Jwt.Seconds(laterMs) <= Jwt.Seconds(nowMs) + Jwt.DefaultTtl
    ensures WithAuth(rt, vars, map["authorization" := "Bearer " + token], laterMs) == Admitted(Normalize(raw))
  {
    LoginToken(rt, vars, raw, password, nowMs, token);
    Jwt.AsciiSignersAgree(rt, map["email" := JStr(Normalize(raw))], Secret(vars), nowMs, Jwt.DefaultTtl);
    IssuedTokenAdmits(rt, vars, Normalize(raw), nowMs, laterMs);
  }
}

=== FILE: base64.dfy ===
/** The base64url helpers of jwt.js. Encoding goes through the platform's
    `btoa`, which sees its argument as Latin-1 text; decoding goes through
    `atob`, the forgiving-base64 decoder of the WHATWG Infra standard
    (section 4.7). Both are modelled on sextets: 6-bit values 0..63. */
module Base64 {
  import opened Common

  /** The standard alphabet of section 4 of RFC 4648. */
  function SextetChar(v: int): (c: char)
    requires 0 <= v < 64
  {
    if v < 26 then ('A' as int + v) as char
    else if v < 52 then ('a' as int + v - 26) as char
    else if v < 62 then ('0' as int + v - 52) as char
    else if v == 62 then '+'
    else '/'
  }

  /** The inverse of `SextetChar`; `None` outside the alphabet. */
  function SextetValue(c: char): (v: Option<int>)
    ensures v.Some? ==> 0 <= v.value < 64 && SextetChar(v.value) == c
  {
    if 'A' <= c <= 'Z' then Some(c as int - 'A' as int)
    else if 'a' <= c <= 'z' then Some(c as int - 'a' as int + 26)
    else if '0' <= c <= '9' then Some(c as int - '0' as int + 52)
    else if c == '+' then Some(62)
    else if c == '/' then Some(63)
    else None
  }

  lemma SextetRoundTrip(v: int)
    requires 0 <= v < 64
    ensures SextetValue(SextetChar(v)) == Some(v)
  {
  }

  predicate IsSextets(vs: seq<int>) {
    forall i :: 0 <= i < |vs| ==> 0 <= vs[i] < 64
  }

  // ---- Encoding ----

  /** The sextets of `b`, three bytes to four sextets, with a final group
      of one or two bytes giving two or three sextets (the unpadded form). */
  function EncodeSextets(b: seq<byte>): (vs: seq<int>)
    ensures IsSextets(vs)
    ensures |vs| == 4 * (|b| / 3) + (if |b| % 3 == 0 then 0 else |b| % 3 + 1)
  {
    if |b| == 0 then []
    else if |b| == 1 then
      [b[0] as int / 4, (b[0] as int % 4) * 16]
    else if |b| == 2 then
      [b[0] as int / 4, (b[0] as int % 4) * 16 + b[1] as int / 16, (b[1] as int % 16) * 4]
    else
      [b[0] as int / 4, (b[0] as int % 4) * 16 + b[1] as int / 16, (b[1] as int % 16) * 4 + b[2] as int / 64, b[2] as int % 64]
      + EncodeSextets(b[3..])
  }

  function SextetString(vs: seq<int>): (s: string)
    requires IsSextets(vs)
    ensures |s| == |vs|
  {
    seq(|vs|, i requires 0 <= i < |vs| => SextetChar(vs[i]))
  }

  /** The `=` padding that completes the last group of four characters. */
  function Padding(n: nat): string
  {
    if n % 3 == 1 then "==" else if n % 3 == 2 then "=" else ""
  }

  predicate IsLatin1(s: string) {
    forall i :: 0 <= i < |s| ==> s[i] as int < 256
  }

  /** The bytes a Latin-1 string stands for, one per character. */
  function Latin1Bytes(s: string): (b: seq<byte>)
    requires IsLatin1(s)
    ensures |b| == |s|
  {
    seq(|s|, i requires 0 <= i < |s| => s[i] as int as byte)
  }

  /** `String.fromCharCode(...bytes)`. */
  function BytesAsLatin1(b: seq<byte>): (s: string)
    ensures IsLatin1(s) && Latin1Bytes(s) == b
  {
    seq(|b|, i requires 0 <= i < |b| => b[i] as int as char)
  }

  /** `btoa(s)`: padded standard base64 of the Latin-1 bytes of `s`; it
      throws (here `None`) when a character is above U+00FF. */
  function Btoa(s: string): (r: Option<string>)
    ensures r.Some? <==> IsLatin1(s)
  {
    if IsLatin1(s) then
      var b := Latin1Bytes(s);
      Some(SextetString(EncodeSextets(b)) + Padding(|b|))
    else None
  }

  function ToUrlChar(c: char): char { if c == '+' then '-' else if c == '/' then '_' else c }
  function FromUrlChar(c: char): char { if c == '-' then '+' else if c == '_' then '/' else c }

  function ToUrl(s: string): (r: string)
    ensures |r| == |s|
  {
    seq(|s|, i requires 0 <= i < |s| => ToUrlChar(s[i]))
  }

  function FromUrl(s: string): (r: string)
    ensures |r| == |s|
  {
    seq(|s|, i requires 0 <= i < |s| => FromUrlChar(s[i]))
  }

  /** `.replace(/=+$/, '')`: drops the maximal run of trailing `=`. */
  function StripTrailingEq(s: string): (r: string)
    ensures |r| <= |s| && r == s[..|r|]
    ensures r == [] || r[|r| - 1] != '='
    ensures forall i :: |r| <= i < |s| ==> s[i] == '='
  {
    if |s| > 0 && s[|s| - 1] == '=' then StripTrailingEq(s[..|s| - 1]) else s
  }

  /** The characters of the base64url alphabet of section 5 of RFC 4648. */
  predicate IsUrlChar(c: char) {
    ('A' <= c <= 'Z') || ('a' <= c <= 'z') || ('0' <= c <= '9') || c == '-' || c == '_'
  }

  predicate IsUrlText(s: string) {
    forall i :: 0 <= i < |s| ==> IsUrlChar(s[i])
  }

  /** The unpadded base64url text of `b`. */
  function UrlText(b: seq<byte>): (s: string)
    ensures IsUrlText(s)
  {
    ToUrl(SextetString(EncodeSextets(b)))
  }

  /** `base64urlEncode(text)`: `btoa`, then `+` to `-`, `/` to `_`, and
      the padding dropped. It fails exactly when `btoa` does. */
  function UrlEncode(s: string): (r: Option<string>)
    ensures r.Some? <==> IsLatin1(s)
    ensures r.Some? ==> r.value == UrlText(Latin1Bytes(s))
  {
    match Btoa(s)
    case None => None
    case Some(t) =>
      var b := Latin1Bytes(s);
      var core := SextetString(EncodeSextets(b));
      assert ToUrl(t) == ToUrl(core) + Padding(|b|);
      StripAfterUrlText(ToUrl(core), Padding(|b|));
      Some(StripTrailingEq(ToUrl(t)))
  }

  lemma StripAfterUrlText(core: string, pad: string)
    requires IsUrlText(core)
    requires forall i :: 0 <= i < |pad| ==> pad[i] == '='
    ensures StripTrailingEq(core + pad) == core
    decreases |pad|
  {
    if |pad| > 0 {
      assert (core + pad)[..|core + pad| - 1] == core + pad[..|pad| - 1];
      StripAfterUrlText(core, pad[..|pad| - 1]);
    } else {
      assert core + pad == core;
    }
  }

  /** `base64urlEncode(arrayBuffer)`: the bytes become a Latin-1 string
      first, so `btoa` cannot fail. */
  function UrlEncodeBytes(b: seq<byte>): (s: string)
    ensures IsUrlText(s) && s == UrlText(b)
  {
    UrlEncode(BytesAsLatin1(b)).value
  }

  // ---- Decoding ----

  /** ASCII white space as the forgiving-base64 decoder removes it. */
  predicate IsAsciiSpace(c: char) {
    c == '\t' || c == '\n' || c == '\U{C}' || c == '\r' || c == ' '
  }

  function RemoveAsciiSpace(s: string): (r: string)
    ensures forall i :: 0 <= i < |r| ==> !IsAsciiSpace(r[i])
  {
    if |s| == 0 then []
    else (if IsAsciiSpace(s[0]) then [] else [s[0]]) + RemoveAsciiSpace(s[1..])
  }

  /** The bytes of a sequence of sextets: four to three, with a final
      group of two or three giving one or two bytes and the surplus low
      bits dropped. */
  function DecodeSextets(vs: seq<int>): (b: seq<byte>)
    requires IsSextets(vs) && |vs| % 4 != 1
  {
    if |vs| == 0 then []
    else if |vs| == 2 then
      [(vs[0] * 4 + vs[1] / 16) as byte]
    else if |vs| == 3 then
      [(vs[0] * 4 + vs[1] / 16) as byte, ((vs[1] % 16) * 16 + vs[2] / 4) as byte]
    else
      [(vs[0] * 4 + vs[1] / 16) as byte, ((vs[1] % 16) * 16 + vs[2] / 4) as byte, ((vs[2] % 4) * 64 + vs[3]) as byte]
      + DecodeSextets(vs[4..])
  }

  predicate InAlphabet(s: string) {
    forall i :: 0 <= i < |s| ==> SextetValue(s[i]).Some?
  }

  function SextetsOf(s: string): (vs: seq<int>)
    requires InAlphabet(s)
    ensures |vs| == |s| && IsSextets(vs)
  {
    seq(|s|, i requires 0 <= i < |s| => SextetValue(s[i]).value)
  }

  /** Step 2 of forgiving-base64 decode: when the length is a multiple of
      four, one or two final `=` are removed. */
  function DropPadding(t: string): string
  {
    if |t| % 4 == 0 && EndsWith(t, "==") then t[..|t| - 2]
    else if |t| % 4 == 0 && EndsWith(t, "=") then t[..|t| - 1]
    else t
  }

  /** `atob(s)` as bytes: `None` where it throws. */
  function Atob(s: string): (r: Option<seq<byte>>)
    ensures r.Some? <==> |DropPadding(RemoveAsciiSpace(s))| % 4 != 1 && InAlphabet(DropPadding(RemoveAsciiSpace(s)))
  {
    var t := DropPadding(RemoveAsciiSpace(s));
    if |t| % 4 == 1 || !InAlphabet(t) then None
    else Some(DecodeSextets(SextetsOf(t)))
  }

  /** `'='.repeat(n)`. */
  function Equals(n: nat): (r: string)
    ensures |r| == n && forall i :: 0 <= i < n ==> r[i] == '='
  {
    if n == 0 then "" else "=" + Equals(n - 1)
  }

  /** How many `=` the padding loop `while (str.length % 4) str += '='`
      appends to a text of `len` characters. */
  function PadCount(len: nat): (n: nat)
    ensures n < 4 && (len + n) % 4 == 0
  {
    if len % 4 == 0 then 0 else 4 - len % 4
  }

  /** `base64urlDecode(s)`: `-` to `+`, `_` to `/`, `=` appended up to a
      multiple of four, then `atob`. */
  function UrlDecode(s: string): Option<seq<byte>>
  {
    var t := FromUrl(s);
    Atob(t + Equals(PadCount(|t|)))
  }

  // ---- The round trip ----

  lemma {:induction false} DecodeEncodeSextets(b: seq<byte>)
    ensures DecodeSextets(EncodeSextets(b)) == b
    decreases |b|
  {
    if |b| >= 3 {
      var vs := EncodeSextets(b);
      DecodeEncodeSextets(b[3..]);
      assert vs[4..] == EncodeSextets(b[3..]);
      var b0, b1, b2 := b[0] as int, b[1] as int, b[2] as int;
      assert vs[0] * 4 + vs[1] / 16 == b0 by {
        assert vs[1] / 16 == b0 % 4;
      }
      assert (vs[1] % 16) * 16 + vs[2] / 4 == b1 by {
        assert vs[1] % 16 == b1 / 16;
        assert vs[2] / 4 == b1 % 16;
      }
      assert (vs[2] % 4) * 64 + vs[3] == b2 by {
        assert vs[2] % 4 == b2 / 64;
      }
      assert b == b[..3] + b[3..];
    } else if |b| == 2 {
      var vs := EncodeSextets(b);
      var b0, b1 := b[0] as int, b[1] as int;
      assert vs[1] / 16 == b0 % 4;
      assert vs[1] % 16 == b1 / 16;
      assert vs[2] / 4 == b1 % 16;
    } else if |b| == 1 {
      var vs := EncodeSextets(b);
      assert vs[1] / 16 == b[0] as int % 4;
    }
  }

  lemma SextetsOfString(vs: seq<int>)
    requires IsSextets(vs)
    ensures InAlphabet(SextetString(vs)) && SextetsOf(SextetString(vs)) == vs
  {
    forall i | 0 <= i < |vs| ensures SextetValue(SextetString(vs)[i]) == Some(vs[i]) {
      SextetRoundTrip(vs[i]);
    }
  }

  lemma UrlCharsBack(core: string)
    requires InAlphabet(core)
    ensures FromUrl(ToUrl(core)) == core
  {
    var t := FromUrl(ToUrl(core));
    forall i | 0 <= i < |core| ensures t[i] == core[i] {
      assert core[i] != '-' && core[i] != '_';
    }
  }

  lemma DropNoPadding(core: string)
    requires |core| % 4 == 0 && (core == [] || core[|core| - 1] != '=')
    ensures DropPadding(core) == core
  {
    if |core| > 0 {
      assert !EndsWith(core, "=") by { assert core[|core| - 1..][0] == core[|core| - 1]; }
    }
  }

  lemma DropOnePadding(core: string)
    requires |core| % 4 == 3 && core[|core| - 1] != '='
    ensures DropPadding(core + "=") == core
  {
    var padded := core + "=";
    assert !EndsWith(padded, "==") by { assert padded[|padded| - 2..][0] == core[|core| - 1]; }
    assert padded[|padded| - 1..] == "=";
    assert padded[..|padded| - 1] == core;
  }

  lemma DropTwoPadding(core: string)
    requires |core| % 4 == 2
    ensures DropPadding(core + "==") == core
  {
    var padded := core + "==";
    assert padded[|padded| - 2..] == "==";
    assert padded[..|padded| - 2] == core;
  }

  /** The padding `base64urlDecode` appends is exactly what `atob` strips
      again, for a core whose length leaves no remainder of one. */
  lemma DropAddedPadding(core: string)
    requires InAlphabet(core) && |core| % 4 != 1
    ensures DropPadding(core + Equals(PadCount(|core|))) == core
  {
    if core != [] {
      AlphabetNotSpace(core[|core| - 1]);
    }
    DropPaddingOf(core);
  }

  lemma DropPaddingOf(core: string)
    requires |core| % 4 != 1 && (core == [] || core[|core| - 1] != '=')
    ensures DropPadding(core + Equals(PadCount(|core|))) == core
  {
    var r := |core| % 4;
    if r == 0 {
      assert core + Equals(0) == core;
      DropNoPadding(core);
    } else if r == 3 {
      assert Equals(1) == "=";
      DropOnePadding(core);
    } else {
      assert Equals(2) == "==";
      DropTwoPadding(core);
    }
  }

  lemma AlphabetNotSpace(c: char)
    requires SextetValue(c).Some?
    ensures !IsAsciiSpace(c) && c != '='
  {
  }

  /** `atob` decodes a padded core of alphabet characters. */
  lemma AtobPaddedCore(core: string)
    requires InAlphabet(core) && |core| % 4 != 1
    ensures Atob(core + Equals(PadCount(|core|))) == Some(DecodeSextets(SextetsOf(core)))
  {
    var pad := Equals(PadCount(|core|));
    var padded := core + pad;
    forall i | 0 <= i < |padded| ensures !IsAsciiSpace(padded[i]) {
      if i < |core| {
        assert padded[i] == core[i];
        AlphabetNotSpace(core[i]);
      } else {
        assert padded[i] == pad[i - |core|] == '=';
      }
    }
    NoSpaceKept(padded);
    DropAddedPadding(core);
  }

  lemma EncodedLength(b: seq<byte>)
    ensures |EncodeSextets(b)| % 4 != 1
  {
    var q := |b| / 3;
    assert |EncodeSextets(b)| == 4 * q + (if |b| % 3 == 0 then 0 else |b| % 3 + 1);
  }

  /** Decoding the base64url text of any bytes gives those bytes back. */
  lemma UrlRoundTrip(b: seq<byte>)
    ensures UrlDecode(UrlText(b)) == Some(b)
  {
    var vs := EncodeSextets(b);
    var core := SextetString(vs);
    EncodedLength(b);
    SextetsOfString(vs);
    UrlCharsBack(core);
    AtobPaddedCore(core);
    DecodeEncodeSextets(b);
  }

  lemma NoSpaceKept(s: string)
    requires forall i :: 0 <= i < |s| ==> !IsAsciiSpace(s[i])
    ensures RemoveAsciiSpace(s) == s
  {
  }

  /** `base64urlEncode` of a Latin-1 string decodes back to its bytes. */
  lemma UrlEncodeRoundTrip(s: string)
    requires IsLatin1(s)
    ensures UrlEncode(s).Some? && UrlDecode(UrlEncode(s).value) == Some(Latin1Bytes(s))
  {
    UrlRoundTrip(Latin1Bytes(s));
  }
}

=== FILE: carousel.dfy ===
/** The testimonial carousel of carousel.js: an index into the cards that
    the buttons, the dots, the autoplay tick and horizontal swipes move.
    How many cards fit side by side depends on the container's width,
    which the script reads afresh on every move, so every move takes the
    width at that moment. */
module Carousel {
  import opened Common

  /** A swipe shorter than this many pixels is ignored. */
  const SwipeThreshold := 50

  /** `getVisibleCards`: one card on a phone, two on a tablet, three wider. */
  function VisibleCards(width: int): (n: nat)
    ensures 1 <= n <= 3
  {
    if width < 768 then 1 else if width < 1024 then 2 else 3
  }

  /** A wider container never shows fewer cards. */
  lemma VisibleCardsMonotone(w1: int, w2: int)
    requires w1 <= w2
    ensures VisibleCards(w1) <= VisibleCards(w2)
  {
  }

  /** `getMaxIndex`: the first card of the last full window, or 0 when all
      cards fit. At that index the window ends exactly on the last card. */
  function MaxIndex(cards: nat, width: int): (m: nat)
    ensures cards >= VisibleCards(width) ==> m + VisibleCards(width) == cards
    ensures cards <= VisibleCards(width) ==> m == 0
    ensures cards > 0 ==> m < cards
  {
    var visible := VisibleCards(width);
    if cards > visible then cards - visible else 0
  }

  /** The finger's horizontal travel: where it touched down and how far it
      has moved since. */
  datatype Touch = Touch(startX: int, diffX: int)

  /** A live carousel: how many cards and dots it has, which card leads
      the window, and the swipe in progress. */
  datatype Carousel = Carousel(cards: nat, dots: nat, index: nat, touch: Touch)

  /** The constructor: a container without a track or without cards gets
      no behaviour at all; otherwise the first card leads. */
  function Init(hasTrack: bool, cards: nat, dots: nat): (c: Option<Carousel>)
    ensures c.Some? <==> hasTrack && cards > 0
    ensures c.Some? ==> c.value.index == 0 && c.value.cards == cards && c.value.dots == dots
    ensures c.Some? ==> InRange(c.value, 0)
  {
    if !hasTrack || cards == 0 then None else Some(Carousel(cards, dots, 0, Touch(0, 0)))
  }

  /** The index shows a full window at this width. */
  predicate InRange(c: Carousel, width: int) {
    c.index <= MaxIndex(c.cards, width)
  }

  /** `next`: past the last window it wraps to the first. From a window in
      range that is a step forward modulo the number of windows. */
  function Next(c: Carousel, width: int): (d: Carousel)
    ensures d == c.(index := d.index)
    ensures InRange(d, width)
    ensures InRange(c, width) ==> d.index == (c.index + 1) % (MaxIndex(c.cards, width) + 1)
    ensures !InRange(c, width) ==> d.index == 0
  {
    var max := MaxIndex(c.cards, width);
    c.(index := if c.index >= max then 0 else c.index + 1)
  }

  /** `prev`: before the first window it wraps to the last. From a window
      in range that is a step backward modulo the number of windows; from
      further out it only steps back by one. */
  function Prev(c: Carousel, width: int): (d: Carousel)
    ensures d == c.(index := d.index)
    ensures c.index <= MaxIndex(c.cards, width) + 1 ==> InRange(d, width)
    ensures InRange(c, width) ==>
      d.index == (c.index + MaxIndex(c.cards, width)) % (MaxIndex(c.cards, width) + 1)
    ensures c.index > MaxIndex(c.cards, width) ==> d.index + 1 == c.index
  {
    var max := MaxIndex(c.cards, width);
    c.(index := if c.index <= 0 then max else c.index - 1)
  }

  /** `goTo`: the requested window, or the last one if it asks for more. */
  function GoTo(c: Carousel, i: nat, width: int): (d: Carousel)
    ensures d == c.(index := d.index)
    ensures InRange(d, width)
    ensures i <= MaxIndex(c.cards, width) ==> d.index == i
    ensures i > MaxIndex(c.cards, width) ==> d.index == MaxIndex(c.cards, width)
  {
    var max := MaxIndex(c.cards, width);
    c.(index := if i < max then i else max)
  }

  /** Within one width, going forward then back returns to the same window. */
  lemma PrevAfterNext(c: Carousel, width: int)
    requires InRange(c, width)
    ensures Prev(Next(c, width), width) == c
  {
    var max := MaxIndex(c.cards, width);
    if c.index < max {
      assert Next(c, width).index == c.index + 1;
    }
  }

  /** Within one width, going back then forward returns to the same window. */
  lemma NextAfterPrev(c: Carousel, width: int)
    requires InRange(c, width)
    ensures Next(Prev(c, width), width) == c
  {
    var max := MaxIndex(c.cards, width);
    if c.index > 0 {
      assert Prev(c, width).index == c.index - 1;
    }
  }

  /** `k` autoplay ticks or clicks on the next button. */
  function NextTimes(c: Carousel, k: nat, width: int): (d: Carousel)
    ensures d == c.(index := d.index)
  {
    if k == 0 then c else Next(NextTimes(c, k - 1, width), width)
  }

  /** `k` steps forward add `k` modulo the number of windows. */
  lemma {:induction false} NextTimesIndex(c: Carousel, k: nat, width: int)
    requires InRange(c, width)
    ensures NextTimes(c, k, width).index == (c.index + k) % (MaxIndex(c.cards, width) + 1)
  {
    var n := MaxIndex(c.cards, width) + 1;
    if k > 0 {
      NextTimesIndex(c, k - 1, width);
      var before := NextTimes(c, k - 1, width);
      assert before.index == (c.index + k - 1) % n;
      ModSucc(c.index + k - 1, n);
    }
  }

  lemma ModSucc(a: nat, n: nat)
    requires n > 0
    ensures (a % n + 1) % n == (a + 1) % n
  {
    var q, r := a / n, a % n;
    if r + 1 < n {
      ModUnique(a + 1, n, q, r + 1);
      ModUnique(r + 1, n, 0, r + 1);
    } else {
      ModUnique(a + 1, n, q + 1, 0);
      ModUnique(r + 1, n, 1, 0);
    }
  }

  /** The remainder is the only one below `n` that completes a quotient. */
  lemma ModUnique(a: int, n: int, q: int, r: int)
    requires n > 0 && 0 <= r < n && a == q * n + r
    ensures a % n == r
  {
    var q0, r0 := a / n, a % n;
    var d := q0 - q;
    assert d * n == r - r0 by {
      assert q0 * n + r0 == q * n + r;
      assert d * n == q0 * n - q * n;
    }
    if d > 0 {
      MulAtLeast(d, n);
    } else if d < 0 {
      MulAtLeast(-d, n);
    }
  }

  lemma {:induction false} MulAtLeast(d: nat, n: nat)
    requires d >= 1
    ensures d * n >= n
  {
    if d > 1 {
      MulAtLeast(d - 1, n);
      assert d * n == (d - 1) * n + n;
    }
  }

  /** Autoplay cycles: as many ticks as there are windows bring back the
      window it started from. */
  lemma NextCycle(c: Carousel, width: int)
    requires InRange(c, width)
    ensures NextTimes(c, MaxIndex(c.cards, width) + 1, width) == c
  {
    var n := MaxIndex(c.cards, width) + 1;
    NextTimesIndex(c, n, width);
    ModUnique(c.index + n, n, 1, c.index);
  }

  // ---- Dots ----

  /** `updateDots`: which dots carry the `active` class. */
  function Dots(c: Carousel): (active: seq<bool>)
    ensures |active| == c.dots
    ensures forall i :: 0 <= i < c.dots ==> (active[i] <==> i == c.index)
  {
    seq(c.dots, i requires 0 <= i < c.dots => i == c.index)
  }

  /** The number of set flags. */
  function CountActive(s: seq<bool>): nat
  {
    if s == [] then 0 else CountActive(s[..|s| - 1]) + (if s[|s| - 1] then 1 else 0)
  }

  lemma {:induction false} CountActiveOne(s: seq<bool>, j: nat)
    requires j < |s| && s[j]
    requires forall i :: 0 <= i < |s| && i != j ==> !s[i]
    ensures CountActive(s) == 1
  {
    if j < |s| - 1 {
      CountActiveOne(s[..|s| - 1], j);
    } else {
      CountActiveNone(s[..|s| - 1]);
    }
  }

  lemma {:induction false} CountActiveNone(s: seq<bool>)
    requires forall i :: 0 <= i < |s| ==> !s[i]
    ensures CountActive(s) == 0
  {
    if s != [] {
      CountActiveNone(s[..|s| - 1]);
    }
  }

  /** Exactly one dot is active when the index names a dot, none otherwise. */
  lemma OneActiveDot(c: Carousel)
    ensures CountActive(Dots(c)) == if c.index < c.dots then 1 else 0
  {
    if c.index < c.dots {
      CountActiveOne(Dots(c), c.index);
    } else {
      CountActiveNone(Dots(c));
    }
  }

  // ---- Swipes ----

  /** `touchstart`: remember where the finger came down. */
  function TouchStart(c: Carousel, x: int): (d: Carousel)
    ensures d == c.(touch := d.touch) && d.touch.startX == x && d.touch.diffX == c.touch.diffX
  {
    c.(touch := c.touch.(startX := x))
  }

  /** `touchmove`: the travel since the finger came down. */
  function TouchMove(c: Carousel, x: int): (d: Carousel)
    ensures d == c.(touch := d.touch) && d.touch.startX == c.touch.startX
    ensures d.touch.startX + d.touch.diffX == x
  {
    c.(touch := c.touch.(diffX := x - c.touch.startX))
  }

  /** `touchend`: a travel beyond the threshold to the right shows the
      previous window, to the left the next; the travel is then forgotten. */
  function TouchEnd(c: Carousel, width: int): (d: Carousel)
    ensures d.touch == c.touch.(diffX := 0)
    ensures c.touch.diffX > SwipeThreshold ==> d.index == Prev(c, width).index
    ensures c.touch.diffX < -SwipeThreshold ==> d.index == Next(c, width).index
    ensures -SwipeThreshold <= c.touch.diffX <= SwipeThreshold ==> d.index == c.index
    ensures d.cards == c.cards && d.dots == c.dots
  {
    var diff := c.touch.diffX;
    var moved := if diff > SwipeThreshold || diff < -SwipeThreshold then
        (if diff > 0 then Prev(c, width) else Next(c, width))
      else c;
    moved.(touch := moved.touch.(diffX := 0))
  }

  /** A complete swipe from `x0` to `x1` at one width: a long drag left
      advances, a long drag right goes back, a short one changes nothing. */
  lemma Swipe(c: Carousel, x0: int, x1: int, width: int)
    ensures var d := TouchEnd(TouchMove(TouchStart(c, x0), x1), width);
      && (x1 - x0 < -SwipeThreshold ==> d.index == Next(c, width).index)
      && (x1 - x0 > SwipeThreshold ==> d.index == Prev(c, width).index)
      && (-SwipeThreshold <= x1 - x0 <= SwipeThreshold ==> d.index == c.index)
      && d.touch == Touch(x0, 0)
  {
  }

  /** A tap with no movement after a finished swipe does not move. */
  lemma TapAfterSwipe(c: Carousel, x0: int, x1: int, x2: int, width: int)
    ensures var d := TouchEnd(TouchMove(TouchStart(c, x0), x1), width);
      TouchEnd(TouchStart(d, x2), width).index == d.index
  {
  }

  // ---- Every interaction at one width ----

  datatype Event =
    | PrevClick | NextClick | DotClick(i: nat) | Tick
    | Down(x: int) | Drag(x: int) | Up

  /** The carousel after one user or timer event. */
  function Step(c: Carousel, e: Event, width: int): Carousel
  {
    match e
    case PrevClick => Prev(c, width)
    case NextClick => Next(c, width)
    case DotClick(i) => GoTo(c, i, width)
    case Tick => Next(c, width)
    case Down(x) => TouchStart(c, x)
    case Drag(x) => TouchMove(c, x)
    case Up => TouchEnd(c, width)
  }

  function Run(c: Carousel, events: seq<Event>, width: int): Carousel
    decreases |events|
  {
    if events == [] then c else Run(Step(c, events[0], width), events[1..], width)
  }

  /** While the width stays put, every window the carousel shows is full:
      no sequence of clicks, ticks and swipes leaves the index out of range. */
  lemma {:induction false} RunStaysInRange(c: Carousel, events: seq<Event>, width: int)
    requires InRange(c, width)
    ensures InRange(Run(c, events, width), width)
    ensures Run(c, events, width).cards == c.cards && Run(c, events, width).dots == c.dots
    decreases |events|
  {
    if events != [] {
      var d := Step(c, events[0], width);
      assert InRange(d, width) && d.cards == c.cards && d.dots == c.dots;
      RunStaysInRange(d, events[1..], width);
    }
  }
}

=== FILE: common.dfy ===
/** Values and string operations shared by every module: an optional value,
    bytes, and the few JavaScript string methods the server and the
    front-end scripts rely on (`trim`, `split`, `startsWith`, `includes`,
    Latin-1 case mapping, decimal rendering). */
module Common {

  datatype Option<+T> = None | Some(value: T)

  newtype byte = x: int | 0 <= x < 256

  /** The white space and line terminators of ECMAScript; `String.prototype.trim`
      strips exactly these, and the regular-expression class `\s` matches them. */
  predicate IsJsSpace(c: char) {
    || c == '\t' || c == '\n' || c == '\U{B}' || c == '\U{C}' || c == '\r'
    || c == ' ' || c == '\U{A0}' || c == '\U{1680}'
    || ('\U{2000}' <= c <= '\U{200A}')
    || c == '\U{2028}' || c == '\U{2029}' || c == '\U{202F}' || c == '\U{205F}'
    || c == '\U{3000}' || c == '\U{FEFF}'
  }

  predicate AllSpace(s: string) {
    forall i :: 0 <= i < |s| ==> IsJsSpace(s[i])
  }

  function TrimStart(s: string): (r: string)
    ensures |r| <= |s| && r == s[|s| - |r|..]
    ensures AllSpace(s[..|s| - |r|])
    ensures r == [] || !IsJsSpace(r[0])
  {
    if |s| > 0 && IsJsSpace(s[0]) then
      var r := TrimStart(s[1..]);
      SpaceBefore(s, r);
      r
    else s
  }

  function TrimEnd(s: string): (r: string)
    ensures |r| <= |s| && r == s[..|r|]
    ensures AllSpace(s[|r|..])
    ensures r == [] || !IsJsSpace(r[|r| - 1])
  {
    if |s| > 0 && IsJsSpace(s[|s| - 1]) then
      var r := TrimEnd(s[..|s| - 1]);
      SpaceAfter(s, r);
      r
    else s
  }

  lemma SpaceBefore(s: string, r: string)
    requires |s| > 0 && IsJsSpace(s[0])
    requires |r| <= |s| - 1 && r == s[1..][|s| - 1 - |r|..] && AllSpace(s[1..][..|s| - 1 - |r|])
    ensures r == s[|s| - |r|..] && AllSpace(s[..|s| - |r|])
  {
    var n := |s| - |r|;
    assert s[1..][n - 1..] == s[n..];
    forall i | 0 <= i < n ensures IsJsSpace(s[..n][i]) {
      if i > 0 {
        assert s[..n][i] == s[1..][..n - 1][i - 1];
      }
    }
  }

  lemma SpaceAfter(s: string, r: string)
    requires |s| > 0 && IsJsSpace(s[|s| - 1])
    requires |r| <= |s| - 1 && r == s[..|s| - 1][..|r|] && AllSpace(s[..|s| - 1][|r|..])
    ensures r == s[..|r|] && AllSpace(s[|r|..])
  {
    var n := |r|;
    assert s[..|s| - 1][..n] == s[..n];
    forall i | 0 <= i < |s| - n ensures IsJsSpace(s[n..][i]) {
      if i < |s| - 1 - n {
        assert s[n..][i] == s[..|s| - 1][n..][i];
      }
    }
  }

  /** `s.trim()`: the longest infix of `s` that neither starts nor ends with
      white space, obtained by removing only white space. */
  function Trim(s: string): (r: string)
    ensures exists i :: OccursAt(s, r, i) && AllSpace(s[..i]) && AllSpace(s[i + |r|..])
    ensures r == [] || (!IsJsSpace(r[0]) && !IsJsSpace(r[|r| - 1]))
    ensures r == [] <==> AllSpace(s)
  {
    var t := TrimStart(s);
    var r := TrimEnd(t);
    TrimBoth(s, t, r);
    r
  }

  lemma TrimBoth(s: string, t: string, r: string)
    requires |t| <= |s| && t == s[|s| - |t|..] && AllSpace(s[..|s| - |t|]) && (t == [] || !IsJsSpace(t[0]))
    requires |r| <= |t| && r == t[..|r|] && AllSpace(t[|r|..])
    ensures OccursAt(s, r, |s| - |t|)
    ensures AllSpace(s[..|s| - |t|]) && AllSpace(s[|s| - |t| + |r|..])
    ensures r != [] ==> r[0] == s[|s| - |t|]
    ensures r == [] ==> AllSpace(s)
  {
    assert r == s[|s| - |t|..|s| - |t| + |r|];
    assert s[|s| - |t| + |r|..] == t[|r|..];
    if r == [] {
      forall i | 0 <= i < |s| ensures IsJsSpace(s[i]) {
        assert s[i] == s[..|s| - |t|][i];
      }
    }
  }

  /** The capital letters of Latin-1: `A`-`Z` and `À`-`Þ` except `×`. */
  predicate IsLatin1Capital(c: char) {
    ('A' <= c <= 'Z') || ('\U{C0}' <= c <= '\U{DE}' && c != '\U{D7}')
  }

  /** A string that neither starts nor ends with white space is its own
      trimmed form. */
  lemma TrimTrimmed(s: string)
    requires s == [] || (!IsJsSpace(s[0]) && !IsJsSpace(s[|s| - 1]))
    ensures Trim(s) == s
  {
    assert TrimStart(s) == s;
  }

  /** `toLowerCase` on one character, for the Latin-1 range: a capital
      becomes its small letter, 32 code points further on; characters of
      other scripts are kept as they are. */
  function LowerChar(c: char): (d: char)
    ensures 'A' <= c <= 'Z' ==> 'a' <= d <= 'z'
    ensures IsLatin1Capital(c) ==> d as int == c as int + 32 && !IsLatin1Capital(d)
    ensures !IsLatin1Capital(c) ==> d == c
  {
    if IsLatin1Capital(c) then (c as int + 32) as char else c
  }

  /** Lower-casing neither makes nor removes white space. */
  lemma LowerCharSpace(c: char)
    ensures IsJsSpace(LowerChar(c)) <==> IsJsSpace(c)
  {
  }

  function UpperChar(c: char): (d: char)
    ensures 'a' <= c <= 'z' ==> 'A' <= d <= 'Z'
    ensures !('a' <= c <= 'z') ==> d == c
  {
    if 'a' <= c <= 'z' then (c as int - 32) as char else c
  }

  function Lower(s: string): (r: string)
    ensures |r| == |s|
    ensures forall i :: 0 <= i < |s| ==> r[i] == LowerChar(s[i])
  {
    seq(|s|, i requires 0 <= i < |s| => LowerChar(s[i]))
  }
  /** Lower-casing keeps white space where it was and leaves no Latin-1
      capital. */
  lemma LowerKeepsShape(t: string)
    ensures Lower(t) == [] <==> t == []
    ensures t != [] ==> (IsJsSpace(Lower(t)[0]) <==> IsJsSpace(t[0]))
    ensures t != [] ==> (IsJsSpace(Lower(t)[|t| - 1]) <==> IsJsSpace(t[|t| - 1]))
    ensures forall i :: 0 <= i < |t| ==> !IsLatin1Capital(Lower(t)[i])
  {
    if t != [] {
      LowerCharSpace(t[0]);
      LowerCharSpace(t[|t| - 1]);
    }
  }

  /** The shape of `s.trim().toLowerCase()`. */
  lemma LowerTrimShape(s: string)
    ensures Lower(Trim(s)) == [] <==> AllSpace(s)
    ensures var r := Lower(Trim(s)); r == [] || (!IsJsSpace(r[0]) && !IsJsSpace(r[|r| - 1]))
    ensures forall i :: 0 <= i < |Trim(s)| ==> !IsLatin1Capital(Lower(Trim(s))[i])
  {
    LowerKeepsShape(Trim(s));
  }

  /** Lower-casing twice changes nothing more. */
  lemma LowerIdempotent(s: string)
    ensures Lower(Lower(s)) == Lower(s)
  {
  }


  function Upper(s: string): (r: string)
    ensures |r| == |s|
    ensures forall i :: 0 <= i < |s| ==> r[i] == UpperChar(s[i])
  {
    seq(|s|, i requires 0 <= i < |s| => UpperChar(s[i]))
  }

  predicate StartsWith(s: string, prefix: string) {
    |prefix| <= |s| && s[..|prefix|] == prefix
  }

  predicate EndsWith(s: string, suffix: string) {
    |suffix| <= |s| && s[|s| - |suffix|..] == suffix
  }

  /** `sub` occurs in `s` starting at position `i`. */
  predicate OccursAt(s: string, sub: string, i: int) {
    0 <= i <= |s| - |sub| && s[i..i + |sub|] == sub
  }

  /** `s.includes(sub)`. */
  predicate Contains(s: string, sub: string) {
    exists i :: 0 <= i <= |s| - |sub| && OccursAt(s, sub, i)
  }

  /** `s.replace(sub, '')`: removes the first occurrence of `sub`, if any. */
  function RemoveFirst(s: string, sub: string): (r: string)
    ensures StartsWith(s, sub) ==> r == s[|sub|..]
    decreases |s|
  {
    if StartsWith(s, sub) then s[|sub|..]
    else if |s| == 0 then s
    else [s[0]] + RemoveFirst(s[1..], sub)
  }

  /** Position of the first occurrence of `c` in `s`. */
  function IndexOf(s: string, c: char): (i: nat)
    requires c in s
    ensures i < |s| && s[i] == c && c !in s[..i]
  {
    if s[0] == c then 0 else 1 + IndexOf(s[1..], c)
  }

  /** Joins `parts` with the separator `c` (`parts.join(c)`). */
  function Join(parts: seq<string>, c: char): string
  {
    if |parts| == 0 then ""
    else if |parts| == 1 then parts[0]
    else parts[0] + [c] + Join(parts[1..], c)
  }

  /** `s.split(c)` for a one-character separator: the pieces between the
      occurrences of `c`, so there is always one more piece than there are
      separators, and joining them back gives `s`. */
  function Split(s: string, c: char): (parts: seq<string>)
    ensures |parts| >= 1
    ensures forall i :: 0 <= i < |parts| ==> c !in parts[i]
    decreases |s|
  {
    if c !in s then [s]
    else
      var i := IndexOf(s, c);
      [s[..i]] + Split(s[i + 1..], c)
  }

  /** Joining the pieces of a split gives the text back. */
  lemma {:induction false} JoinSplit(s: string, c: char)
    ensures Join(Split(s, c), c) == s
    decreases |s|
  {
    if c in s {
      var i := IndexOf(s, c);
      var rest := Split(s[i + 1..], c);
      JoinSplit(s[i + 1..], c);
      var parts := Split(s, c);
      assert parts == [s[..i]] + rest;
      assert parts[1..] == rest;
      assert Join(parts, c) == s[..i] + [c] + Join(rest, c);
      assert s == s[..i] + [c] + s[i + 1..];
    }
  }

  /** Splitting undoes joining, provided no piece contains the separator. */
  lemma {:induction false} SplitJoin(parts: seq<string>, c: char)
    requires |parts| >= 1
    requires forall i :: 0 <= i < |parts| ==> c !in parts[i]
    ensures Split(Join(parts, c), c) == parts
    decreases |parts|
  {
    if |parts| == 1 {
    } else {
      var s := Join(parts, c);
      SplitJoin(parts[1..], c);
      assert s == parts[0] + [c] + Join(parts[1..], c);
      assert s[|parts[0]|] == c;
      assert s[..|parts[0]|] == parts[0];
      assert c in s;
      assert IndexOf(s, c) == |parts[0]|;
      assert s[|parts[0]| + 1..] == Join(parts[1..], c);
    }
  }

  /** The piece after the last separator (`s.split(c).pop()`). */
  function LastPiece(s: string, c: char): (r: string)
    ensures c !in r
  {
    var parts := Split(s, c);
    parts[|parts| - 1]
  }

  lemma {:induction false} JoinAppend(parts: seq<string>, c: char, tail: string)
    requires |parts| >= 1
    ensures Join(parts + [tail], c) == Join(parts, c) + [c] + tail
    decreases |parts|
  {
    if |parts| > 1 {
      JoinAppend(parts[1..], c, tail);
      assert (parts + [tail])[1..] == parts[1..] + [tail];
    }
  }

  /** The last piece of `prefix + [c] + tail` is `tail` when `tail` has no separator. */
  lemma LastPieceOfAppend(prefix: string, c: char, tail: string)
    requires c !in tail
    ensures LastPiece(prefix + [c] + tail, c) == tail
  {
    var ps := Split(prefix, c);
    JoinSplit(prefix, c);
    JoinAppend(ps, c, tail);
    SplitJoin(ps + [tail], c);
  }

  // ---- Decimal numbers ----

  /** The characters a regular expression's `.` does not match. */
  predicate IsLineTerminator(c: char) {
    c == '\n' || c == '\r' || c == '\U{2028}' || c == '\U{2029}'
  }

  predicate NoBreak(s: string) {
    forall i :: 0 <= i < |s| ==> !IsLineTerminator(s[i])
  }

  predicate IsDigit(c: char) { '0' <= c <= '9' }

  predicate IsDigits(s: string) {
    |s| > 0 && forall i :: 0 <= i < |s| ==> IsDigit(s[i])
  }

  function DigitChar(d: nat): (c: char)
    requires d < 10
    ensures IsDigit(c)
  {
    ('0' as int + d) as char
  }

  /** `String(n)` for a natural number: its decimal digits without leading zeros. */
  function Decimal(n: nat): (r: string)
    ensures IsDigits(r)
    ensures r[0] == '0' ==> n == 0
  {
    if n < 10 then [DigitChar(n)] else Decimal(n / 10) + [DigitChar(n % 10)]
  }

  function DigitOf(c: char): (d: nat)
    requires IsDigit(c)
    ensures d < 10
  {
    c as int - '0' as int
  }

  /** The value of a run of decimal digits (`parseInt(s, 10)` on such a run). */
  function DigitsValue(s: string): nat
    requires forall i :: 0 <= i < |s| ==> IsDigit(s[i])
  {
    if |s| == 0 then 0
    else DigitsValue(s[..|s| - 1]) * 10 + DigitOf(s[|s| - 1])
  }

  lemma {:induction false} DecimalRoundTrip(n: nat)
    ensures DigitsValue(Decimal(n)) == n
  {
    if n >= 10 {
      var s := Decimal(n);
      DecimalRoundTrip(n / 10);
      assert s[..|s| - 1] == Decimal(n / 10);
    }
  }

  /** Distinct numbers have distinct decimal renderings. */
  lemma DecimalInjective(m: nat, n: nat)
    requires Decimal(m) == Decimal(n)
    ensures m == n
  {
    DecimalRoundTrip(m);
    DecimalRoundTrip(n);
  }

  /** `String(n)` for any integer. */
  function IntString(n: int): string
  {
    if n < 0 then "-" + Decimal(-n) else Decimal(n)
  }

  /** Length in UTF-16 code units, the unit JavaScript strings and their
      regular expressions (without the `u` flag) work in. */
  function Utf16Length(s: string): nat
  {
    if |s| == 0 then 0 else Utf16Length(s[..|s| - 1]) + (if s[|s| - 1] as int > 0xFFFF then 2 else 1)
  }
}

=== FILE: content_api.dfy ===
/** The versioned content store of content-api.js over the key-value
    namespace, seen as a map from key to text. Every operation is a pure
    function of the store that returns its reply together with the ordered
    list of writes it issues; the store afterwards is `ApplyPuts` of those
    writes. Keys: `content:{id}` holds a page's content document,
    `meta:{id}` its metadata, and `history:{id}:{ms}` a snapshot that
    expires after 30 days. */
module ContentApi {
  import opened Common
  import opened Js
  import opened Http
  import opened Platform
  import Ordering

  type Kv = map<string, string>

  /** Expiry attached to a write: none, or `expirationTtl` in seconds. */
  datatype Ttl = Forever | ExpiresAfter(seconds: nat)

  datatype KvPut = KvPut(key: string, value: string, ttl: Ttl)

  /** A reply and the writes issued to produce it, in order. */
  datatype Step = Step(out: Outcome, puts: seq<KvPut>)

  /** Thirty days, the retention of a history snapshot. */
  const HistoryTtl: nat := 60 * 60 * 24 * 30

  /** Most versions a history listing returns. */
  const HistoryLimit: nat := 20

  /** Most keys one `list` call of the key-value store returns; the
      history listing reads that first page only. */
  const KvListLimit: nat := 1000

  // ---- The store ----

  predicate Written(puts: seq<KvPut>, k: string) {
    exists i :: 0 <= i < |puts| && puts[i].key == k
  }

  /** The value of the last write to `k`. */
  function LastValue(puts: seq<KvPut>, k: string): string
    requires Written(puts, k)
  {
    var last := puts[|puts| - 1];
    if last.key == k then last.value else LastValue(puts[..|puts| - 1], k)
  }

  /** The store after the writes, issued one after the other: a written
      key holds its last written value, and every other key is untouched. */
  function ApplyPuts(kv: Kv, puts: seq<KvPut>): (r: Kv)
    ensures forall k :: k in r <==> k in kv || Written(puts, k)
    ensures forall k :: Written(puts, k) ==> r[k] == LastValue(puts, k)
    ensures forall k :: k in kv && !Written(puts, k) ==> r[k] == kv[k]
  {
    if |puts| == 0 then kv
    else
      var init := puts[..|puts| - 1];
      var last := puts[|puts| - 1];
      assert forall k :: Written(puts, k) <==> Written(init, k) || last.key == k by {
        forall k ensures Written(puts, k) ==> Written(init, k) || last.key == k {
          if Written(puts, k) {
            var i :| 0 <= i < |puts| && puts[i].key == k;
            if i < |puts| - 1 {
              assert init[i].key == k;
            }
          }
        }
        forall k | Written(init, k) ensures Written(puts, k) {
          var i :| 0 <= i < |init| && init[i].key == k;
          assert puts[i].key == k;
        }
      }
      ApplyPuts(kv, init)[last.key := last.value]
  }

  // ---- The page catalogue ----

  /** A catalogue entry; `caption` is the source's `label`. */
  datatype Page = Page(id: string, caption: string, file: Option<string>)

  /** The managed pages, in catalogue order; `_shared` is the pseudo-page
      holding header, footer and newsletter content. */
  const Pages: seq<Page> := [
    Page("index", "Accueil", Some("index.html")),
    Page("qui-sommes-nous", "Qui sommes-nous", Some("qui-sommes-nous.html")),
    Page("a-propos", "A propos", Some("a-propos.html")),
    Page("ressources", "Ressources", Some("ressources.html")),
    Page("entreprises", "Studio IA", Some("entreprises.html")),
    Page("event-ia", "Event IA", Some("event-ia.html")),
    Page("contact", "Contact", Some("contact.html")),
    Page("merci", "Merci", Some("merci.html")),
    Page("programmes/ai-leadership", "AI Leadership Program", Some("programmes/ai-leadership.html")),
    Page("programmes/ai-governance", "AI Governance Program", Some("programmes/ai-governance.html")),
    Page("programmes/sprints", "Sprints", Some("programmes/sprints.html")),
    Page("programmes/masterclass", "Masterclass", Some("programmes/masterclass.html")),
    Page("_shared", "Contenu partagé (header, footer, newsletter)", None)
  ]

  predicate IsCatalogId(id: string) {
    exists i :: 0 <= i < |Pages| && Pages[i].id == id
  }

  function ContentKey(id: string): string { "content:" + id }
  function MetaKey(id: string): string { "meta:" + id }
  function HistoryPrefix(id: string): string { "history:" + id + ":" }
  function HistoryKey(id: string, stamp: string): string { HistoryPrefix(id) + stamp }

  /** The three key families never collide: they differ in their first character. */
  lemma KeyFamiliesDistinct(a: string, b: string, stamp: string)
    ensures ContentKey(a) != MetaKey(b)
    ensures ContentKey(a) != HistoryKey(b, stamp)
    ensures MetaKey(a) != HistoryKey(b, stamp)
  {
    assert ContentKey(a)[0] == 'c' && MetaKey(b)[0] == 'm' && HistoryKey(b, stamp)[0] == 'h';
    assert MetaKey(a)[0] == 'm';
  }

  /** `KV.get(key, 'text')` tested for truthiness: a value that is present and non-empty. */
  function StoredText(kv: Kv, key: string): Option<string>
  {
    if key in kv && kv[key] != "" then Some(kv[key]) else None
  }

  /** `KV.get(key, 'json')`: absent, a parsed document, or a throw. */
  datatype Read = Missing | Parsed(doc: Json) | Unparseable

  function ReadJson(rt: Runtime, kv: Kv, key: string): Read
  {
    if key !in kv then Missing
    else match rt.parse(kv[key])
      case Some(j) => Parsed(j)
      case None => Unparseable
  }

  /** The value of `x` when `x` was read truthy, as `if (!x)` and `x || {}` see it. */
  predicate ReadTruthy(r: Read) {
    r.Parsed? && Truthy(r.doc)
  }

  /** The metadata document written with each content write. */
  function MetaDoc(rt: Runtime, now: int, user: string, restoredFrom: Option<string>): Json
  {
    var base := map["lastModified" := JStr(rt.isoDate(now)), "modifiedBy" := JStr(user)];
    match restoredFrom
    case None => JObj(base)
    case Some(ts) => JObj(base["restoredFrom" := JStr(ts)])
  }

  /** The snapshot write that precedes an overwrite of `content:{id}`: the
      current text under `history:{id}:{now}`, only when there is one. */
  function Snapshot(kv: Kv, id: string, now: nat): (puts: seq<KvPut>)
    ensures |puts| <= 1
    ensures puts != [] <==> StoredText(kv, ContentKey(id)).Some?
    ensures puts != [] ==> puts[0] == KvPut(HistoryKey(id, Decimal(now)), kv[ContentKey(id)], ExpiresAfter(HistoryTtl))
  {
    match StoredText(kv, ContentKey(id))
    case Some(previous) => [KvPut(HistoryKey(id, Decimal(now)), previous, ExpiresAfter(HistoryTtl))]
    case None => []
  }

  // ---- listPages ----

  datatype PageSummary = PageSummary(page: Page, lastModified: Json, modifiedBy: Json)

  /** `meta?.name || null`. */
  function MetaField(meta: Read, name: string): Json
  {
    if meta.Parsed? && meta.doc != JNull && TruthyOpt(Get(meta.doc, name)) then Get(meta.doc, name).value else JNull
  }

  function Summaries(rt: Runtime, kv: Kv, pages: seq<Page>): (r: Option<seq<PageSummary>>)
    ensures r.None? <==> exists i :: 0 <= i < |pages| && ReadJson(rt, kv, MetaKey(pages[i].id)).Unparseable?
    ensures r.Some? ==> |r.value| == |pages| && forall i :: 0 <= i < |pages| ==> r.value[i].page == pages[i]
    ensures r.Some? ==> forall i :: 0 <= i < |pages| && MetaKey(pages[i].id) !in kv ==>
      r.value[i].lastModified == JNull && r.value[i].modifiedBy == JNull
    ensures r.Some? ==> forall i :: 0 <= i < |pages| ==>
      var meta := ReadJson(rt, kv, MetaKey(pages[i].id));
      r.value[i].lastModified == MetaField(meta, "lastModified") && r.value[i].modifiedBy == MetaField(meta, "modifiedBy")
  {
    if |pages| == 0 then Some([])
    else
      var meta := ReadJson(rt, kv, MetaKey(pages[0].id));
      var rest := Summaries(rt, kv, pages[1..]);
      assert forall i :: 1 <= i < |pages| ==> pages[i] == pages[1..][i - 1];
      if meta.Unparseable? then None
      else if rest.None? then None
      else Some([PageSummary(pages[0], MetaField(meta, "lastModified"), MetaField(meta, "modifiedBy"))] + rest.value)
  }

  /** `listPages`: one entry per catalogue page, in catalogue order, with
      `null` modification fields where no metadata is stored; `None` when
      a stored metadata value is not JSON (the read throws). */
  function ListPages(rt: Runtime, kv: Kv): (r: Option<seq<PageSummary>>)
    ensures r.Some? ==> |r.value| == |Pages| && forall i :: 0 <= i < |Pages| ==> r.value[i].page == Pages[i]
    ensures r.Some? ==> forall i :: 0 <= i < |Pages| && MetaKey(Pages[i].id) !in kv ==>
      r.value[i].lastModified == JNull && r.value[i].modifiedBy == JNull
    ensures r.None? <==> exists i :: 0 <= i < |Pages| && ReadJson(rt, kv, MetaKey(Pages[i].id)).Unparseable?
    ensures r.Some? ==> forall i :: 0 <= i < |Pages| ==>
      var meta := ReadJson(rt, kv, MetaKey(Pages[i].id));
      r.value[i].lastModified == MetaField(meta, "lastModified") && r.value[i].modifiedBy == MetaField(meta, "modifiedBy")
  {
    Summaries(rt, kv, Pages)
  }

  lemma MetaKeysDistinct(a: string, b: string)
    requires a != b
    ensures MetaKey(a) != MetaKey(b)
  {
    assert MetaKey(a)[5..] == a && MetaKey(b)[5..] == b;
  }

  function PageJson(s: PageSummary): Json
  {
    JObj(map[
      "id" := JStr(s.page.id),
      "label" := JStr(s.page.caption),
      "file" := (match s.page.file case Some(f) => JStr(f) case None => JNull),
      "lastModified" := s.lastModified,
      "modifiedBy" := s.modifiedBy])
  }

  // ---- getContent ----

  /** `getContent`: the stored document, or `{}` when there is none (or it
      is falsy); an absent page is never an error. */
  function GetContent(rt: Runtime, kv: Kv, pageId: string): (r: Outcome)
    ensures ReadJson(rt, kv, ContentKey(pageId)).Unparseable? <==> r.Threw?
    ensures r.Served? ==> r.resp.status == 200
    ensures ContentKey(pageId) !in kv ==>
      r == Served(JsonResponse(JObj(map["pageId" := JStr(pageId), "content" := JObj(map[])]), 200))
    ensures var read := ReadJson(rt, kv, ContentKey(pageId));
      read.Parsed? ==>
        r == Served(JsonResponse(JObj(map["pageId" := JStr(pageId),
          "content" := if Truthy(read.doc) then read.doc else JObj(map[])]), 200))
  {
    match ReadJson(rt, kv, ContentKey(pageId))
    case Unparseable => Threw
    case Missing => Served(JsonResponse(JObj(map["pageId" := JStr(pageId), "content" := JObj(map[])]), 200))
    case Parsed(doc) =>
      var content := if Truthy(doc) then doc else JObj(map[]);
      Served(JsonResponse(JObj(map["pageId" := JStr(pageId), "content" := content]), 200))
  }

  // ---- putContent ----

  /** The `content` field of a request body that passes every check of
      `putContent`: a JSON body, not `null`, whose `content` is an object
      or an array. */
  predicate AcceptedBody(body: Option<Json>) {
    && body.Some? && body.value.JObj?
    && "content" in body.value.fields
    && IsObjectLike(body.value.fields["content"])
  }

  const ContentRequired := "Le champ \"content\" est requis et doit etre un objet"

  /** `putContent`: validate, snapshot the previous text, then replace the
      content and the metadata wholesale. */
  function PutContent(rt: Runtime, kv: Kv, pageId: string, body: Option<Json>, user: string, now: nat): (r: Step)
    ensures !IsCatalogId(pageId) ==> r == Step(Served(ErrorResponse("Page inconnue: " + pageId, 400)), [])
    ensures IsCatalogId(pageId) && body.None? ==> r == Step(Served(ErrorResponse("JSON invalide", 400)), [])
    ensures IsCatalogId(pageId) && body == Some(JNull) ==> r == Step(Threw, [])
    ensures IsCatalogId(pageId) && body.Some? && !body.value.JNull? && !AcceptedBody(body) ==>
      r == Step(Served(ErrorResponse(ContentRequired, 400)), [])
    ensures r.puts != [] <==> IsCatalogId(pageId) && AcceptedBody(body)
    ensures r.out.Served? && r.out.resp.status == 200 <==> r.puts != []
    ensures r.puts != [] ==>
      var content := body.value.fields["content"];
      && |r.puts| >= 2
      && r.puts[|r.puts| - 2] == KvPut(ContentKey(pageId), rt.stringify(content), Forever)
      && r.puts[|r.puts| - 1] == KvPut(MetaKey(pageId), rt.stringify(MetaDoc(rt, now, user, None)), Forever)
      && r.puts[..|r.puts| - 2] == Snapshot(kv, pageId, now)
  {
    if !IsCatalogId(pageId) then
      Step(Served(ErrorResponse("Page inconnue: " + pageId, 400)), [])
    else if body.None? then
      Step(Served(ErrorResponse("JSON invalide", 400)), [])
    else if body.value.JNull? then
      // destructuring `const { content } = null` throws
      Step(Threw, [])
    else
      var content := Get(body.value, "content");
      if !TruthyOpt(content) || !IsObjectLike(content.value) then
        Step(Served(ErrorResponse(ContentRequired, 400)), [])
      else
        var writes := Snapshot(kv, pageId, now) + [
          KvPut(ContentKey(pageId), rt.stringify(content.value), Forever),
          KvPut(MetaKey(pageId), rt.stringify(MetaDoc(rt, now, user, None)), Forever)];
        Step(Served(JsonResponse(JObj(map["success" := JBool(true), "pageId" := JStr(pageId)]), 200)), writes)
  }

  /** The store after an accepted `putContent`: the content and metadata
      are replaced, the metadata has no `restoredFrom`, the previous text
      (if any) survives as a 30-day snapshot written first, and nothing
      else changes. */
  lemma PutContentEffect(rt: Runtime, kv: Kv, pageId: string, body: Option<Json>, user: string, now: nat)
    requires IsCatalogId(pageId) && AcceptedBody(body)
    ensures var r := PutContent(rt, kv, pageId, body, user, now);
      var kv' := ApplyPuts(kv, r.puts);
      var hk := HistoryKey(pageId, Decimal(now));
      && kv'[ContentKey(pageId)] == rt.stringify(body.value.fields["content"])
      && kv'[MetaKey(pageId)] == rt.stringify(MetaDoc(rt, now, user, None))
      && (StoredText(kv, ContentKey(pageId)).Some? ==>
            && r.puts[0] == KvPut(hk, kv[ContentKey(pageId)], ExpiresAfter(HistoryTtl))
            && hk in kv' && kv'[hk] == kv[ContentKey(pageId)])
      && (StoredText(kv, ContentKey(pageId)).None? ==> |r.puts| == 2)
      && (forall k ::
            (k != ContentKey(pageId) && k != MetaKey(pageId) && (k != hk || StoredText(kv, ContentKey(pageId)).None?))
            ==> (k in kv' <==> k in kv) && (k in kv ==> kv'[k] == kv[k]))
  {
    var r := PutContent(rt, kv, pageId, body, user, now);
    var n := |r.puts|;
    KeyFamiliesDistinct(pageId, pageId, Decimal(now));
    assert r.puts == r.puts[..n - 2] + [r.puts[n - 2], r.puts[n - 1]];
    SnapshotThenPair(kv, r.puts[..n - 2], r.puts[n - 2], r.puts[n - 1]);
  }

  /** Writes of an optional snapshot followed by two writes to other keys:
      each written key holds its value and every other key is untouched. */
  lemma SnapshotThenPair(kv: Kv, snap: seq<KvPut>, c: KvPut, m: KvPut)
    requires |snap| <= 1 && c.key != m.key
    requires snap != [] ==> snap[0].key != c.key && snap[0].key != m.key
    ensures var kv' := ApplyPuts(kv, snap + [c, m]);
      && c.key in kv' && kv'[c.key] == c.value
      && m.key in kv' && kv'[m.key] == m.value
      && (snap != [] ==> snap[0].key in kv' && kv'[snap[0].key] == snap[0].value)
      && forall k :: k != c.key && k != m.key && (snap == [] || k != snap[0].key)
           ==> (k in kv' <==> k in kv) && (k in kv ==> kv'[k] == kv[k])
  {
    var puts := snap + [c, m];
    var n := |puts|;
    assert puts[n - 1] == m;
    assert puts[..n - 1] == snap + [c];
    assert Written(puts, c.key) by { assert puts[n - 2] == c; }
    assert LastValue(puts, c.key) == LastValue(snap + [c], c.key);
    if snap != [] {
      var h := snap[0].key;
      assert Written(puts, h) by { assert puts[0] == snap[0]; }
      assert LastValue(puts, h) == LastValue(snap + [c], h);
      assert (snap + [c])[..1] == snap;
      assert LastValue(snap + [c], h) == LastValue(snap, h);
    }
    forall k | k != c.key && k != m.key && (snap == [] || k != snap[0].key)
      ensures !Written(puts, k)
    {
      forall i | 0 <= i < n ensures puts[i].key != k {
        if i < |snap| { assert puts[i] == snap[0]; }
      }
    }
  }

  /** Reading back after an accepted `putContent` yields the saved
      document, provided the JSON text conversions invert each other on it. */
  lemma PutThenGet(rt: Runtime, kv: Kv, pageId: string, body: Option<Json>, user: string, now: nat)
    requires IsCatalogId(pageId) && AcceptedBody(body)
    requires rt.parse(rt.stringify(body.value.fields["content"])) == Some(body.value.fields["content"])
    ensures var kv' := ApplyPuts(kv, PutContent(rt, kv, pageId, body, user, now).puts);
      GetContent(rt, kv', pageId) ==
        Served(JsonResponse(JObj(map["pageId" := JStr(pageId), "content" := body.value.fields["content"]]), 200))
  {
    PutContentEffect(rt, kv, pageId, body, user, now);
  }

  /** After a save, the listing reports the save's date and author for
      that page (`null` for an empty one, as `|| null` reads it), and
      every other page's entry is as it was. */
  lemma SaveThenList(rt: Runtime, kv: Kv, pageId: string, body: Option<Json>, user: string, now: nat)
    requires IsCatalogId(pageId) && AcceptedBody(body) && ListPages(rt, kv).Some?
    requires rt.parse(rt.stringify(MetaDoc(rt, now, user, None))) == Some(MetaDoc(rt, now, user, None))
    ensures var kv' := ApplyPuts(kv, PutContent(rt, kv, pageId, body, user, now).puts);
      var listed := ListPages(rt, kv');
      && listed.Some?
      && forall i :: 0 <= i < |Pages| ==>
        if Pages[i].id == pageId then
          && listed.value[i].lastModified == (if rt.isoDate(now) != "" then JStr(rt.isoDate(now)) else JNull)
          && listed.value[i].modifiedBy == (if user != "" then JStr(user) else JNull)
        else listed.value[i] == ListPages(rt, kv).value[i]
  {
    var kv' := ApplyPuts(kv, PutContent(rt, kv, pageId, body, user, now).puts);
    SaveMetaReads(rt, kv, pageId, body, user, now);
    MetaDocFields(rt, now, user);
    ListingAfterMetaWrite(rt, kv, kv', pageId, MetaDoc(rt, now, user, None));
  }

  lemma MetaDocFields(rt: Runtime, now: int, user: string)
    ensures MetaField(Parsed(MetaDoc(rt, now, user, None)), "lastModified") ==
      (if rt.isoDate(now) != "" then JStr(rt.isoDate(now)) else JNull)
    ensures MetaField(Parsed(MetaDoc(rt, now, user, None)), "modifiedBy") == (if user != "" then JStr(user) else JNull)
  {
  }

  /** The listing after one page's metadata changes: that page's entry
      reads the new document, the others are as they were. */
  lemma ListingAfterMetaWrite(rt: Runtime, kv: Kv, kv': Kv, pageId: string, doc: Json)
    requires ListPages(rt, kv).Some?
    requires ReadJson(rt, kv', MetaKey(pageId)) == Parsed(doc)
    requires forall id :: id != pageId ==> ReadJson(rt, kv', MetaKey(id)) == ReadJson(rt, kv, MetaKey(id))
    ensures var listed := ListPages(rt, kv');
      && listed.Some?
      && forall i :: 0 <= i < |Pages| ==>
        if Pages[i].id == pageId then
          listed.value[i].lastModified == MetaField(Parsed(doc), "lastModified")
          && listed.value[i].modifiedBy == MetaField(Parsed(doc), "modifiedBy")
        else listed.value[i] == ListPages(rt, kv).value[i]
  {
    var listed := ListPages(rt, kv');
    assert forall i :: 0 <= i < |Pages| ==> !ReadJson(rt, kv', MetaKey(Pages[i].id)).Unparseable?;
    forall i | 0 <= i < |Pages| && Pages[i].id != pageId
      ensures listed.value[i] == ListPages(rt, kv).value[i]
    {
      assert ReadJson(rt, kv', MetaKey(Pages[i].id)) == ReadJson(rt, kv, MetaKey(Pages[i].id));
    }
  }

  /** What a save does to the metadata reads: its own page's metadata is
      the new document's text, every other page's reads as before. */
  lemma SaveMetaReads(rt: Runtime, kv: Kv, pageId: string, body: Option<Json>, user: string, now: nat)
    requires IsCatalogId(pageId) && AcceptedBody(body)
    ensures var kv' := ApplyPuts(kv, PutContent(rt, kv, pageId, body, user, now).puts);
      && MetaKey(pageId) in kv' && kv'[MetaKey(pageId)] == rt.stringify(MetaDoc(rt, now, user, None))
      && forall id :: id != pageId ==> ReadJson(rt, kv', MetaKey(id)) == ReadJson(rt, kv, MetaKey(id))
  {
    var puts := PutContent(rt, kv, pageId, body, user, now).puts;
    var n := |puts|;
    assert puts == puts[..n - 2] + [puts[n - 2], puts[n - 1]];
    PairMetaReads(rt, kv, pageId, now, puts[..n - 2], puts[n - 2], puts[n - 1]);
  }

  lemma PairMetaReads(rt: Runtime, kv: Kv, pageId: string, now: nat, snap: seq<KvPut>, c: KvPut, m: KvPut)
    requires snap == Snapshot(kv, pageId, now)
    requires c.key == ContentKey(pageId) && m.key == MetaKey(pageId)
    ensures var kv' := ApplyPuts(kv, snap + [c, m]);
      && m.key in kv' && kv'[m.key] == m.value
      && forall id :: id != pageId ==> ReadJson(rt, kv', MetaKey(id)) == ReadJson(rt, kv, MetaKey(id))
  {
    KeyFamiliesDistinct(pageId, pageId, Decimal(now));
    SnapshotThenPair(kv, snap, c, m);
    var kv' := ApplyPuts(kv, snap + [c, m]);
    forall id | id != pageId
      ensures ReadJson(rt, kv', MetaKey(id)) == ReadJson(rt, kv, MetaKey(id))
    {
      KeyFamiliesDistinct(pageId, id, Decimal(now));
      KeyFamiliesDistinct(id, pageId, Decimal(now));
      MetaKeysDistinct(id, pageId);
      var k := MetaKey(id);
      assert k != c.key && k != m.key && (snap == [] || k != snap[0].key);
      assert (k in kv' <==> k in kv) && (k in kv ==> kv'[k] == kv[k]);
    }
  }

  // ---- getHistory ----

  datatype Version = Version(key: string, timestamp: nat)

  /** `parseInt(key.split(':').pop())`, for keys whose last piece is a
      decimal number (every key this code writes); other keys read as 0. */
  function Timestamp(key: string): nat
  {
    var p := LastPiece(key, ':');
    if IsDigits(p) then DigitsValue(p) else 0
  }

  /** The timestamp read back from a history key is the time it was
      written with. */
  lemma TimestampOfKey(id: string, now: nat)
    ensures Timestamp(HistoryKey(id, Decimal(now))) == now
  {
    var d := Decimal(now);
    assert HistoryKey(id, d) == ("history:" + id) + [':'] + d;
    LastPieceOfAppend("history:" + id, ':', d);
    DecimalRoundTrip(now);
  }

  /** The listing order of versions: newest first; equal timestamps keep
      the store's lexicographic listing order (the sort is stable). */
  predicate NewerFirst(a: string, b: string)
  {
    Timestamp(a) > Timestamp(b) || (Timestamp(a) == Timestamp(b) && Ordering.LexLess(a, b))
  }

  lemma NewerFirstIsStrictTotal(s: set<string>)
    ensures Ordering.StrictTotalOn(NewerFirst, s)
  {
    forall a | a in s ensures !NewerFirst(a, a) {
      Ordering.LexIrreflexive(a);
    }
    forall a, b, c | a in s && b in s && c in s && NewerFirst(a, b) && NewerFirst(b, c)
      ensures NewerFirst(a, c)
    {
      if Timestamp(a) == Timestamp(b) == Timestamp(c) {
        Ordering.LexTransitive(a, b, c);
      }
    }
    forall a, b | a in s && b in s && a != b ensures NewerFirst(a, b) || NewerFirst(b, a) {
      Ordering.LexTotal(a, b);
    }
  }

  function HistoryKeys(kv: Kv, pageId: string): set<string>
  {
    set k | k in kv && StartsWith(k, HistoryPrefix(pageId))
  }

  /** `list({ prefix })`: the first page of keys under the prefix, in
      lexicographic order; later pages are never requested. */
  function ListedHistory(kv: Kv, pageId: string): (keys: set<string>)
    ensures keys <= HistoryKeys(kv, pageId)
    ensures |keys| == if KvListLimit < |HistoryKeys(kv, pageId)| then KvListLimit else |HistoryKeys(kv, pageId)|
    ensures forall k, j :: k in HistoryKeys(kv, pageId) && k !in keys && j in keys ==> Ordering.LexLess(j, k)
  {
    var page := Ordering.Listing(HistoryKeys(kv, pageId), KvListLimit);
    Ordering.DistinctCount(page);
    var keys := set i | 0 <= i < |page| :: page[i];
    assert forall j :: j in keys ==> j in page;
    keys
  }

  /** With at most a thousand snapshots of the page, the listing holds
      them all. */
  lemma FewSnapshotsListedWhole(kv: Kv, pageId: string)
    requires |HistoryKeys(kv, pageId)| <= KvListLimit
    ensures ListedHistory(kv, pageId) == HistoryKeys(kv, pageId)
  {
    var all := HistoryKeys(kv, pageId);
    var listed := ListedHistory(kv, pageId);
    if listed != all {
      assert listed < all;
      Ordering.ProperSubsetCard(listed, all);
    }
  }

  function Versions(keys: seq<string>): (vs: seq<Version>)
    ensures |vs| == |keys|
    ensures forall i :: 0 <= i < |keys| ==> vs[i] == Version(keys[i], Timestamp(keys[i]))
  {
    seq(|keys|, i requires 0 <= i < |keys| => Version(keys[i], Timestamp(keys[i])))
  }

  /** The versions of keys listed in `NewerFirst` order keep that order,
      name distinct keys, and come before every key of `keys` left out. */
  lemma VersionsInOrder(keys: set<string>, sorted: seq<string>)
    requires forall i :: 0 <= i < |sorted| ==> sorted[i] in keys
    requires forall i, j :: 0 <= i < j < |sorted| ==> NewerFirst(sorted[i], sorted[j])
    requires forall x :: x in keys && x !in sorted ==> forall i :: 0 <= i < |sorted| ==> NewerFirst(sorted[i], x)
    ensures var vs := Versions(sorted);
      && (forall i :: 0 <= i < |vs| ==> vs[i].key in keys && vs[i].timestamp == Timestamp(vs[i].key))
      && (forall i, j :: 0 <= i < j < |vs| ==> vs[i].timestamp >= vs[j].timestamp && vs[i].key != vs[j].key)
      && (forall i, j :: 0 <= i < j < |vs| ==> NewerFirst(vs[i].key, vs[j].key))
      && (forall k :: k in keys && (forall i :: 0 <= i < |vs| ==> vs[i].key != k) ==>
            forall i :: 0 <= i < |vs| ==> vs[i].timestamp >= Timestamp(k) && NewerFirst(vs[i].key, k))
  {
    var vs := Versions(sorted);
    forall i, j | 0 <= i < j < |vs| ensures vs[i].timestamp >= vs[j].timestamp && vs[i].key != vs[j].key {
      assert NewerFirst(sorted[i], sorted[j]);
      Ordering.LexIrreflexive(sorted[i]);
    }
    forall k | k in keys && (forall i :: 0 <= i < |vs| ==> vs[i].key != k)
      ensures forall i :: 0 <= i < |vs| ==> vs[i].timestamp >= Timestamp(k) && NewerFirst(vs[i].key, k)
    {
      assert k !in sorted;
    }
  }

  /** `getHistory`: the versions on the listed page of `history:{id}:`
      keys, newest first, at most twenty, and none left out of the page
      that is newer than one kept. Equal timestamps are broken by key
      order, both among the versions kept and against those left out, so
      the result is fixed by the listed keys. */
  function GetHistory(kv: Kv, pageId: string): (vs: seq<Version>)
    ensures var listed := ListedHistory(kv, pageId);
      |vs| == if |listed| < HistoryLimit then |listed| else HistoryLimit
    ensures forall i :: 0 <= i < |vs| ==>
      && vs[i].key in ListedHistory(kv, pageId) && vs[i].key in kv && StartsWith(vs[i].key, HistoryPrefix(pageId))
      && vs[i].timestamp == Timestamp(vs[i].key)
    ensures forall i, j :: 0 <= i < j < |vs| ==> vs[i].timestamp >= vs[j].timestamp && vs[i].key != vs[j].key
    ensures forall i, j :: 0 <= i < j < |vs| ==> NewerFirst(vs[i].key, vs[j].key)
    ensures forall k :: k in ListedHistory(kv, pageId) && (forall i :: 0 <= i < |vs| ==> vs[i].key != k) ==>
      forall i :: 0 <= i < |vs| ==> vs[i].timestamp >= Timestamp(k) && NewerFirst(vs[i].key, k)
  {
    var keys := ListedHistory(kv, pageId);
    NewerFirstIsStrictTotal(keys);
    var sorted := Ordering.TakeFirst(keys, NewerFirst, HistoryLimit);
    HistoryOfSorted(kv, pageId, sorted);
    Versions(sorted)
  }

  /** The facts `getHistory` promises, for any newest-first prefix of the
      listed keys. */
  lemma HistoryOfSorted(kv: Kv, pageId: string, sorted: seq<string>)
    requires var listed := ListedHistory(kv, pageId);
      && |sorted| == (if HistoryLimit < |listed| then HistoryLimit else |listed|)
      && (forall i :: 0 <= i < |sorted| ==> sorted[i] in listed)
      && (forall i, j :: 0 <= i < j < |sorted| ==> NewerFirst(sorted[i], sorted[j]))
      && (forall x :: x in listed && x !in sorted ==> forall i :: 0 <= i < |sorted| ==> NewerFirst(sorted[i], x))
    ensures var vs := Versions(sorted); var listed := ListedHistory(kv, pageId);
      && |vs| == (if |listed| < HistoryLimit then |listed| else HistoryLimit)
      && (forall i :: 0 <= i < |vs| ==>
        && vs[i].key in ListedHistory(kv, pageId) && vs[i].key in kv && StartsWith(vs[i].key, HistoryPrefix(pageId))
        && vs[i].timestamp == Timestamp(vs[i].key))
      && (forall i, j :: 0 <= i < j < |vs| ==> vs[i].timestamp >= vs[j].timestamp && vs[i].key != vs[j].key)
      && (forall i, j :: 0 <= i < j < |vs| ==> NewerFirst(vs[i].key, vs[j].key))
      && (forall k :: k in ListedHistory(kv, pageId) && (forall i :: 0 <= i < |vs| ==> vs[i].key != k) ==>
        forall i :: 0 <= i < |vs| ==> vs[i].timestamp >= Timestamp(k) && NewerFirst(vs[i].key, k))
  {
    var listed := ListedHistory(kv, pageId);
    VersionsInOrder(listed, sorted);
    forall i | 0 <= i < |sorted| ensures sorted[i] in kv && StartsWith(sorted[i], HistoryPrefix(pageId)) {
      assert sorted[i] in HistoryKeys(kv, pageId);
    }
  }

  /** With at most a thousand snapshots, no snapshot of the page that is
      left out of the history is newer than one listed. */
  lemma HistoryNewestOfAll(kv: Kv, pageId: string, k: string)
    requires |HistoryKeys(kv, pageId)| <= KvListLimit
    requires k in kv && StartsWith(k, HistoryPrefix(pageId))
    requires forall i :: 0 <= i < |GetHistory(kv, pageId)| ==> GetHistory(kv, pageId)[i].key != k
    ensures forall i :: 0 <= i < |GetHistory(kv, pageId)| ==> GetHistory(kv, pageId)[i].timestamp >= Timestamp(k)
  {
    FewSnapshotsListedWhole(kv, pageId);
  }

  function VersionJson(rt: Runtime, v: Version): Json
  {
    JObj(map["key" := JStr(v.key), "timestamp" := JNum(v.timestamp), "date" := JStr(rt.isoDate(v.timestamp))])
  }

  // ---- restoreVersion ----

  /** `restoreVersion`: 404 without any write when no snapshot is stored
      at that exact key; otherwise snapshot the live text (so the restore
      can itself be undone), copy the snapshot back verbatim and record
      `restoredFrom` in the metadata. */
  function RestoreVersion(rt: Runtime, kv: Kv, pageId: string, stamp: string, user: string, now: nat): (r: Step)
    ensures StoredText(kv, HistoryKey(pageId, stamp)).None? ==>
      r.puts == [] && r.out.Served? && r.out.resp.status == 404
    ensures StoredText(kv, HistoryKey(pageId, stamp)).Some? ==>
      && r.out.Served? && r.out.resp.status == 200
      && |r.puts| >= 2
      && r.puts[..|r.puts| - 2] == Snapshot(kv, pageId, now)
      && r.puts[|r.puts| - 2] == KvPut(ContentKey(pageId), kv[HistoryKey(pageId, stamp)], Forever)
      && r.puts[|r.puts| - 1] == KvPut(MetaKey(pageId), rt.stringify(MetaDoc(rt, now, user, Some(stamp))), Forever)
  {
    match StoredText(kv, HistoryKey(pageId, stamp))
    case None => Step(Served(ErrorResponse("Version introuvable", 404)), [])
    case Some(payload) =>
      var writes := Snapshot(kv, pageId, now) + [
        KvPut(ContentKey(pageId), payload, Forever),
        KvPut(MetaKey(pageId), rt.stringify(MetaDoc(rt, now, user, Some(stamp))), Forever)];
      Step(Served(JsonResponse(JObj(map["success" := JBool(true), "pageId" := JStr(pageId), "restoredFrom" := JStr(stamp)]), 200)), writes)
  }

  /** After a restore the live text is the snapshot's text, verbatim, and
      the text that was live before sits in a fresh snapshot. */
  lemma RestoreEffect(rt: Runtime, kv: Kv, pageId: string, stamp: string, user: string, now: nat)
    requires StoredText(kv, HistoryKey(pageId, stamp)).Some?
    ensures var kv' := ApplyPuts(kv, RestoreVersion(rt, kv, pageId, stamp, user, now).puts);
      var hk := HistoryKey(pageId, Decimal(now));
      && kv'[ContentKey(pageId)] == kv[HistoryKey(pageId, stamp)]
      && kv'[MetaKey(pageId)] == rt.stringify(MetaDoc(rt, now, user, Some(stamp)))
      && (StoredText(kv, ContentKey(pageId)).Some? ==> hk in kv' && kv'[hk] == kv[ContentKey(pageId)])
      && (forall k ::
            (k != ContentKey(pageId) && k != MetaKey(pageId) && (k != hk || StoredText(kv, ContentKey(pageId)).None?))
            ==> (k in kv' <==> k in kv) && (k in kv ==> kv'[k] == kv[k]))
  {
    var puts := RestoreVersion(rt, kv, pageId, stamp, user, now).puts;
    var n := |puts|;
    KeyFamiliesDistinct(pageId, pageId, Decimal(now));
    assert puts == puts[..n - 2] + [puts[n - 2], puts[n - 1]];
    SnapshotThenPair(kv, puts[..n - 2], puts[n - 2], puts[n - 1]);
  }

  /** Undo: saving over existing content and then restoring the snapshot
      that save made brings the previous text back. */
  lemma RestoreUndoesPut(rt: Runtime, kv: Kv, pageId: string, body: Option<Json>, user: string, t1: nat, t2: nat)
    requires IsCatalogId(pageId) && AcceptedBody(body)
    requires StoredText(kv, ContentKey(pageId)).Some?
    ensures var kv1 := ApplyPuts(kv, PutContent(rt, kv, pageId, body, user, t1).puts);
      var r := RestoreVersion(rt, kv1, pageId, Decimal(t1), user, t2);
      r.out.Served? && r.out.resp.status == 200 &&
      ApplyPuts(kv1, r.puts)[ContentKey(pageId)] == kv[ContentKey(pageId)]
  {
    PutContentEffect(rt, kv, pageId, body, user, t1);
    var kv1 := ApplyPuts(kv, PutContent(rt, kv, pageId, body, user, t1).puts);
    assert StoredText(kv1, HistoryKey(pageId, Decimal(t1))).Some?;
    RestoreEffect(rt, kv1, pageId, Decimal(t1), user, t2);
  }

  // ---- handleContentAPI ----

  /** `/^\/(.+)\/history$/`: the page id of a history path. */
  function MatchHistory(p: string): (id: Option<string>)
    ensures id.Some? ==> p == "/" + id.value + "/history" && id.value != "" && NoBreak(id.value)
  {
    if |p| >= 10 && p[0] == '/' && EndsWith(p, "/history") && NoBreak(p[1..|p| - 8]) then
      Some(p[1..|p| - 8])
    else None
  }

  /** Every history path matches, with its page id. */
  lemma HistoryPathMatches(id: string)
    requires id != "" && NoBreak(id)
    ensures MatchHistory("/" + id + "/history") == Some(id)
  {
    var p := "/" + id + "/history";
    assert p[1..|p| - 8] == id;
    assert p[|p| - 8..] == "/history";
  }

  /** The longest run of digits that ends `s`. */
  function TrailingDigits(s: string): (d: string)
    ensures EndsWith(s, d) && (d == [] || IsDigits(d))
    ensures |d| < |s| ==> !IsDigit(s[|s| - |d| - 1])
  {
    if |s| > 0 && IsDigit(s[|s| - 1]) then
      var d := TrailingDigits(s[..|s| - 1]);
      assert s[..|s| - 1][|s| - 1 - |d|..] == s[|s| - 1 - |d|..|s| - 1];
      d + [s[|s| - 1]]
    else []
  }

  /** `/^\/(.+)\/restore\/(\d+)$/`: the page id and timestamp of a restore
      path. The digits are the whole trailing run, since the character
      before them must be the `/` of `/restore/`. */
  function MatchRestore(p: string): (m: Option<(string, string)>)
    ensures m.Some? ==>
      p == "/" + m.value.0 + "/restore/" + m.value.1 && m.value.0 != "" && NoBreak(m.value.0) && IsDigits(m.value.1)
  {
    var d := TrailingDigits(p);
    var rest := p[..|p| - |d|];
    if d != [] && |rest| >= 11 && rest[0] == '/' && EndsWith(rest, "/restore/") && NoBreak(rest[1..|rest| - 9]) then
      assert p == rest + d;
      assert rest == "/" + rest[1..|rest| - 9] + "/restore/";
      Some((rest[1..|rest| - 9], d))
    else None
  }

  /** Every restore path matches, with its page id and timestamp. */
  lemma RestorePathMatches(id: string, stamp: string)
    requires id != "" && NoBreak(id) && IsDigits(stamp)
    ensures MatchRestore("/" + id + "/restore/" + stamp) == Some((id, stamp))
  {
    var rest := "/" + id + "/restore/";
    var p := rest + stamp;
    assert "/" + id + "/restore/" + stamp == p;
    TrailingDigitsOf(rest, stamp);
    assert p[..|p| - |stamp|] == rest;
    assert rest[1..|rest| - 9] == id;
    assert rest[|rest| - 9..] == "/restore/";
  }

  /** The trailing digits of a text ending in a non-digit and then `d`. */
  lemma {:induction false} TrailingDigitsOf(rest: string, d: string)
    requires |rest| > 0 && !IsDigit(rest[|rest| - 1]) && (d == [] || IsDigits(d))
    ensures TrailingDigits(rest + d) == d
    decreases |d|
  {
    if d == [] {
      assert rest + d == rest;
    } else {
      var init := d[..|d| - 1];
      assert (rest + d)[..|rest + d| - 1] == rest + init;
      TrailingDigitsOf(rest, init);
      assert init + [d[|d| - 1]] == d;
    }
  }

  function PagesJson(pages: seq<PageSummary>): (r: seq<Json>)
    ensures |r| == |pages| && forall i :: 0 <= i < |pages| ==> r[i] == PageJson(pages[i])
  {
    if pages == [] then [] else [PageJson(pages[0])] + PagesJson(pages[1..])
  }

  function VersionsJson(rt: Runtime, vs: seq<Version>): (r: seq<Json>)
    ensures |r| == |vs| && forall i :: 0 <= i < |vs| ==> r[i] == VersionJson(rt, vs[i])
  {
    if vs == [] then [] else [VersionJson(rt, vs[0])] + VersionsJson(rt, vs[1..])
  }

  /** `handleContentAPI`, reached once the gate has admitted `user`. */
  function Handle(rt: Runtime, kv: Kv, req: Request, user: string, now: nat): (r: Step)
    ensures r.puts != [] ==> req.verb == "PUT" || req.verb == "POST"
  {
    var p := RemoveFirst(req.path, "/api/content");
    if p == "" || p == "/" then
      if req.verb != "GET" then Step(Served(ErrorResponse("Method not allowed", 405)), [])
      else match ListPages(rt, kv)
        case None => Step(Threw, [])
        case Some(pages) =>
          Step(Served(JsonResponse(JObj(map["pages" := JArr(PagesJson(pages))]), 200)), [])
    else if MatchHistory(p).Some? then
      if req.verb != "GET" then Step(Served(ErrorResponse("Method not allowed", 405)), [])
      else
        var id := MatchHistory(p).value;
        var vs := GetHistory(kv, id);
        Step(Served(JsonResponse(JObj(map["pageId" := JStr(id),
          "versions" := JArr(VersionsJson(rt, vs))]), 200)), [])
    else if MatchRestore(p).Some? then
      if req.verb != "POST" then Step(Served(ErrorResponse("Method not allowed", 405)), [])
      else
        var m := MatchRestore(p).value;
        RestoreVersion(rt, kv, m.0, m.1, user, now)
    else
      var pageId := p[1..];
      if req.verb == "GET" then Step(GetContent(rt, kv, pageId), [])
      else if req.verb == "PUT" then PutContent(rt, kv, pageId, req.json, user, now)
      else Step(Served(ErrorResponse("Method not allowed", 405)), [])
  }

  /** The path `handleContentAPI` matches on: the request path without
      its `/api/content` prefix. */
  lemma ApiPath(path: string, rest: string)
    requires path == "/api/content" + rest
    ensures RemoveFirst(path, "/api/content") == rest
  {
    assert StartsWith(path, "/api/content");
  }

  /** The collection path lists the pages on `GET` (a metadata document
      that is not JSON makes the request throw) and refuses every other
      method with 405. */
  lemma ListRoute(rt: Runtime, kv: Kv, req: Request, user: string, now: nat)
    requires req.path == "/api/content" || req.path == "/api/content/"
    ensures req.verb == "GET" && ListPages(rt, kv).None? ==> Handle(rt, kv, req, user, now) == Step(Threw, [])
    ensures req.verb == "GET" && ListPages(rt, kv).Some? ==>
      Handle(rt, kv, req, user, now) ==
        Step(Served(JsonResponse(JObj(map["pages" := JArr(PagesJson(ListPages(rt, kv).value))]), 200)), [])
    ensures req.verb != "GET" ==>
      Handle(rt, kv, req, user, now) == Step(Served(ErrorResponse("Method not allowed", 405)), [])
  {
    if req.path == "/api/content" {
      ApiPath(req.path, "");
    } else {
      ApiPath(req.path, "/");
    }
  }

  /** `GET /api/content/<id>/history` lists the page's versions and
      writes nothing; every other method gets 405. */
  lemma HistoryRoute(rt: Runtime, kv: Kv, req: Request, user: string, now: nat, id: string)
    requires req.path == "/api/content/" + id + "/history"
    requires id != "" && NoBreak(id)
    ensures req.verb == "GET" ==>
      Handle(rt, kv, req, user, now) == Step(Served(JsonResponse(JObj(map["pageId" := JStr(id),
        "versions" := JArr(VersionsJson(rt, GetHistory(kv, id)))]), 200)), [])
    ensures req.verb != "GET" ==>
      Handle(rt, kv, req, user, now) == Step(Served(ErrorResponse("Method not allowed", 405)), [])
  {
    ApiPath(req.path, "/" + id + "/history");
    HistoryPathShape(id);
  }

  lemma HistoryPathShape(id: string)
    requires id != "" && NoBreak(id)
    ensures var p := "/" + id + "/history";
      p != "" && p != "/" && MatchHistory(p) == Some(id)
  {
    HistoryPathMatches(id);
  }

  /** `POST /api/content/<id>/restore/<digits>` is the restore of that
      snapshot; every other method gets 405 and writes nothing. */
  lemma RestoreRoute(rt: Runtime, kv: Kv, req: Request, user: string, now: nat, id: string, stamp: string)
    requires req.path == "/api/content/" + id + "/restore/" + stamp
    requires id != "" && NoBreak(id) && IsDigits(stamp)
    ensures req.verb == "POST" ==> Handle(rt, kv, req, user, now) == RestoreVersion(rt, kv, id, stamp, user, now)
    ensures req.verb != "POST" ==>
      Handle(rt, kv, req, user, now) == Step(Served(ErrorResponse("Method not allowed", 405)), [])
  {
    ApiPath(req.path, "/" + id + "/restore/" + stamp);
    RestorePathShape(id, stamp);
  }

  lemma RestorePathShape(id: string, stamp: string)
    requires id != "" && NoBreak(id) && IsDigits(stamp)
    ensures var p := "/" + id + "/restore/" + stamp;
      p != "" && p != "/" && MatchHistory(p).None? && MatchRestore(p) == Some((id, stamp))
  {
    var p := "/" + id + "/restore/" + stamp;
    assert p[|p| - 1] == stamp[|stamp| - 1];
    RestorePathMatches(id, stamp);
  }

  /** A catalogue page's own path reads its content on `GET`, saves it on
      `PUT`, and refuses every other method. */
  lemma PageRoute(rt: Runtime, kv: Kv, req: Request, user: string, now: nat, id: string)
    requires req.path == "/api/content/" + id && IsCatalogId(id)
    ensures req.verb == "GET" ==> Handle(rt, kv, req, user, now) == Step(GetContent(rt, kv, id), [])
    ensures req.verb == "PUT" ==> Handle(rt, kv, req, user, now) == PutContent(rt, kv, id, req.json, user, now)
    ensures req.verb != "GET" && req.verb != "PUT" ==>
      Handle(rt, kv, req, user, now) == Step(Served(ErrorResponse("Method not allowed", 405)), [])
  {
    ApiPath(req.path, "/" + id);
    CatalogIdsArePlain(id);
    PlainPagePath(id);
  }

  /** Any other id, catalogue or not, is served by the page branch: `GET`
      reads `content:<id>`, `PUT` goes to `putContent` (which refuses an
      unknown id with 400), and every other method gets 405. */
  lemma AnyPageRoute(rt: Runtime, kv: Kv, req: Request, user: string, now: nat, id: string)
    requires req.path == "/api/content/" + id && id != ""
    requires MatchHistory("/" + id).None? && MatchRestore("/" + id).None?
    ensures req.verb == "GET" ==> Handle(rt, kv, req, user, now) == Step(GetContent(rt, kv, id), [])
    ensures req.verb == "PUT" ==> Handle(rt, kv, req, user, now) == PutContent(rt, kv, id, req.json, user, now)
    ensures req.verb != "GET" && req.verb != "PUT" ==>
      Handle(rt, kv, req, user, now) == Step(Served(ErrorResponse("Method not allowed", 405)), [])
  {
    ApiPath(req.path, "/" + id);
    PagePathShape(id);
  }

  lemma PagePathShape(id: string)
    requires id != ""
    ensures var p := "/" + id; p != "" && p != "/" && p[1..] == id
  {
    assert ("/" + id)[1..] == id;
  }

  /** The path of an id ending in a letter other than the `y` of
      `/history` is neither a history nor a restore path. */
  lemma PlainPagePath(id: string)
    requires id != [] && 'a' <= id[|id| - 1] <= 'z' && id[|id| - 1] != 'y'
    ensures var p := "/" + id;
      && p != "" && p != "/" && p[1..] == id
      && MatchHistory(p).None? && MatchRestore(p).None?
  {
    var p := "/" + id;
    assert p[|p| - 1] == id[|id| - 1];
    assert p[1..] == id;
  }

  /** Catalogue ids are not empty and end in a letter other than `y`. */
  lemma CatalogIdsArePlain(id: string)
    requires IsCatalogId(id)
    ensures id != [] && 'a' <= id[|id| - 1] <= 'z' && id[|id| - 1] != 'y'
  {
    var i :| 0 <= i < |Pages| && Pages[i].id == id;
  }
}

=== FILE: forms.dfy ===
/** The newsletter and contact forms of forms.js: the e-mail pattern, the
    two submit handlers and the message line they write to. A form is the
    list of its fields in document order; the message line is optional,
    as the script looks it up and tolerates its absence. */
module Forms {
  import opened Common

  // ---- isValidEmail ----

  /** A character `[^\s@]` accepts: neither white space nor `@`. */
  predicate Plain(c: char) {
    !IsJsSpace(c) && c != '@'
  }

  predicate AllPlain(s: string) {
    forall i :: 0 <= i < |s| ==> Plain(s[i])
  }

  /** `/^[^\s@]+@[^\s@]+\.[^\s@]+$/` read literally: an `@` at `i` and a
      `.` at `j` splitting the text into three non-empty plain runs. The
      middle and last runs may hold further dots. */
  predicate MatchesPattern(s: string) {
    exists i, j :: 0 < i && i + 1 < j && j + 1 < |s| && s[i] == '@' && s[j] == '.'
      && AllPlain(s[..i]) && AllPlain(s[i + 1..j]) && AllPlain(s[j + 1..])
  }

  /** A dot with something on either side of it. */
  predicate InnerDot(d: string) {
    |d| >= 2 && '.' in d[1..] && 1 + IndexOf(d[1..], '.') < |d| - 1
  }

  /** `isValidEmail`: one pass over the text. The first `@` must have a
      plain run before it; after it, a plain run with a dot that is
      neither its first nor its last character. */
  function IsValidEmail(s: string): (b: bool)
    ensures b ==> '@' in s && !('@' in s[IndexOf(s, '@') + 1..])
    ensures b ==> forall i :: 0 <= i < |s| ==> !IsJsSpace(s[i])
  {
    if '@' !in s then false
    else
      var p := IndexOf(s, '@');
      var d := s[p + 1..];
      var b := 0 < p && AllPlain(s[..p]) && AllPlain(d) && InnerDot(d);
      if b then
        assert forall i :: 0 <= i < |s| ==> !IsJsSpace(s[i]) by {
          forall i | 0 <= i < |s| ensures !IsJsSpace(s[i]) {
            if i < p { assert s[i] == s[..p][i]; }
            else if i > p { assert s[i] == d[i - p - 1]; }
          }
        }
        assert '@' !in d by {
          forall k | 0 <= k < |d| ensures d[k] != '@' { assert Plain(d[k]); }
        }
        true
      else false
  }

  /** The scan accepts exactly what the pattern matches. */
  lemma IsValidEmailMatchesPattern(s: string)
    ensures IsValidEmail(s) <==> MatchesPattern(s)
  {
    if IsValidEmail(s) {
      ScanMatches(s);
    }
    if MatchesPattern(s) {
      var i, j :| 0 < i && i + 1 < j && j + 1 < |s| && s[i] == '@' && s[j] == '.'
        && AllPlain(s[..i]) && AllPlain(s[i + 1..j]) && AllPlain(s[j + 1..]);
      PatternScans(s, i, j);
    }
  }

  lemma ScanMatches(s: string)
    requires IsValidEmail(s)
    ensures MatchesPattern(s)
  {
    var p := IndexOf(s, '@');
    var d := s[p + 1..];
    var q := 1 + IndexOf(d[1..], '.');
    assert d[q] == '.';
    var j := p + 1 + q;
    assert s[j] == '.';
    assert s[p + 1..j] == d[..q];
    assert s[j + 1..] == d[q + 1..];
    AllPlainSlice(d, 0, q);
    AllPlainSlice(d, q + 1, |d|);
    assert d[q + 1..|d|] == d[q + 1..];
  }

  /** The first occurrence of `c` is the one no earlier `c` precedes. */
  lemma IndexOfFirst(s: string, c: char, i: nat)
    requires i < |s| && s[i] == c && c !in s[..i]
    ensures IndexOf(s, c) == i
  {
  }

  lemma AllPlainSlice(s: string, a: nat, b: nat)
    requires a <= b <= |s| && AllPlain(s)
    ensures AllPlain(s[a..b])
  {
    forall k | 0 <= k < b - a ensures Plain(s[a..b][k]) {
      assert s[a..b][k] == s[a + k];
    }
  }

  lemma PatternScans(s: string, i: nat, j: nat)
    requires 0 < i && i + 1 < j && j + 1 < |s| && s[i] == '@' && s[j] == '.'
    requires AllPlain(s[..i]) && AllPlain(s[i + 1..j]) && AllPlain(s[j + 1..])
    ensures IsValidEmail(s)
  {
    assert '@' !in s[..i] by {
      forall k | 0 <= k < i ensures s[..i][k] != '@' { assert Plain(s[..i][k]); }
    }
    IndexOfFirst(s, '@', i);
    var d := s[i + 1..];
    var q := j - i - 1;
    assert d == s[i + 1..j] + ['.'] + s[j + 1..];
    assert AllPlain(d) by {
      forall k | 0 <= k < |d| ensures Plain(d[k]) {
        if k < q { assert d[k] == s[i + 1..j][k]; }
        else if k > q { assert d[k] == s[j + 1..][k - q - 1]; }
      }
    }
    assert d[1..][q - 1] == '.';
  }

  // ---- showMessage ----

  /** The message line: its text and its class list. */
  datatype Message = Message(text: string, className: string)

  /** `showMessage`: nothing without a message line; otherwise the text
      and a class saying whether it reports an error or a success. */
  function ShowMessage(el: Option<Message>, text: string, kind: string): (r: Option<Message>)
    ensures r.Some? <==> el.Some?
    ensures r.Some? ==> r.value.text == text && r.value.className == "form-message " + kind
  {
    match el
    case None => None
    case Some(_) => Some(Message(text, "form-message " + kind))
  }

  // ---- The newsletter form ----

  const NewsletterError := "Veuillez entrer une adresse email valide."
  const NewsletterWelcome := "Bienvenue ! Vérifiez votre boîte mail."

  /** A newsletter submission: the e-mail input's value afterwards and the
      message line, or a throw when the form has no e-mail input. */
  datatype Newsletter = Newsletter(input: string, message: Option<Message>) | NewsletterThrew

  /** The newsletter's submit handler: the trimmed input must be a valid
      address; on success the input is emptied, otherwise left as typed. */
  function SubmitNewsletter(input: Option<string>, message: Option<Message>): (r: Newsletter)
    ensures r.NewsletterThrew? <==> input.None?
    ensures input.Some? && IsValidEmail(Trim(input.value)) ==>
      r == Newsletter("", ShowMessage(message, NewsletterWelcome, "success"))
    ensures input.Some? && !IsValidEmail(Trim(input.value)) ==>
      r == Newsletter(input.value, ShowMessage(message, NewsletterError, "error"))
  {
    match input
    case None => NewsletterThrew
    case Some(value) =>
      if !IsValidEmail(Trim(value)) then Newsletter(value, ShowMessage(message, NewsletterError, "error"))
      else Newsletter("", ShowMessage(message, NewsletterWelcome, "success"))
  }

  /** Surrounding white space does not stop an address from subscribing. */
  lemma NewsletterTrims(local: string, domain: string, tld: string, pad: string)
    requires local != [] && domain != [] && tld != []
    requires AllPlain(local) && AllPlain(domain) && AllPlain(tld) && AllSpace(pad)
    ensures var addr := local + "@" + domain + "." + tld;
      SubmitNewsletter(Some(pad + addr + pad), None) == Newsletter("", None)
  {
    var addr := local + "@" + domain + "." + tld;
    var i, j := |local|, |local| + 1 + |domain|;
    assert addr[i] == '@' && addr[j] == '.';
    assert addr[..i] == local && addr[i + 1..j] == domain && addr[j + 1..] == tld;
    PatternScans(addr, i, j);
    assert !IsJsSpace(addr[0]) && !IsJsSpace(addr[|addr| - 1]) by {
      assert addr[0] == local[0] && addr[|addr| - 1] == tld[|tld| - 1];
    }
    TrimPadded(addr, pad);
  }

  /** Trimming removes white space padding from a text that neither starts
      nor ends with white space. */
  lemma TrimPadded(s: string, pad: string)
    requires s != [] && !IsJsSpace(s[0]) && !IsJsSpace(s[|s| - 1]) && AllSpace(pad)
    ensures Trim(pad + s + pad) == s
  {
    var t := pad + s + pad;
    TrimStartPadded(s + pad, pad);
    assert pad + s + pad == pad + (s + pad);
    TrimEndPadded(s, pad);
  }

  lemma {:induction false} TrimStartPadded(s: string, pad: string)
    requires s != [] && !IsJsSpace(s[0]) && AllSpace(pad)
    ensures TrimStart(pad + s) == s
  {
    if pad != [] {
      assert (pad + s)[1..] == pad[1..] + s;
      TrimStartPadded(s, pad[1..]);
    } else {
      assert pad + s == s;
    }
  }

  lemma {:induction false} TrimEndPadded(s: string, pad: string)
    requires s != [] && !IsJsSpace(s[|s| - 1]) && AllSpace(pad)
    ensures TrimEnd(s + pad) == s
  {
    if pad != [] {
      assert (s + pad)[..|s + pad| - 1] == s + pad[..|pad| - 1];
      TrimEndPadded(s, pad[..|pad| - 1]);
    } else {
      assert s + pad == s;
    }
  }

  // ---- The contact form ----

  const ContactError := "Veuillez remplir tous les champs obligatoires."
  const ContactSent := "Message envoyé ! Nous vous répondrons sous 48h."

  /** The border colour that flags a field. */
  const ErrorBorder := "var(--error)"

  /** A contact-form field: its value, whether it carries `required`,
      whether it is an `input[type="email"]`, and its inline border colour. */
  datatype Field = Field(value: string, required: bool, isEmail: bool, border: string)

  /** `querySelector('input[type="email"]')`: the first e-mail input. */
  function FirstEmail(fields: seq<Field>): (k: Option<nat>)
    ensures k.Some? ==> k.value < |fields| && fields[k.value].isEmail
    ensures k.Some? ==> forall j :: 0 <= j < k.value ==> !fields[j].isEmail
    ensures k.None? ==> forall j :: 0 <= j < |fields| ==> !fields[j].isEmail
  {
    if fields == [] then None
    else if fields[0].isEmail then Some(0)
    else match FirstEmail(fields[1..])
      case None => None
      case Some(k) => Some(k + 1)
  }

  /** The field `j` fails the contact form's checks: it is required and
      blank, or it is the e-mail input and its value (untrimmed) is not an
      address. */
  predicate Fails(fields: seq<Field>, j: nat)
    requires j < |fields|
  {
    (fields[j].required && Trim(fields[j].value) == "")
    || (FirstEmail(fields) == Some(j) && !IsValidEmail(fields[j].value))
  }

  /** The border each field shows after the checks: flagged when it fails,
      cleared when it is required and passes, otherwise as it was. */
  function Checked(fields: seq<Field>): (r: seq<Field>)
    ensures |r| == |fields|
    ensures forall j :: 0 <= j < |fields| ==> r[j] == fields[j].(border := r[j].border)
    ensures forall j :: 0 <= j < |fields| ==> (r[j].border == ErrorBorder <==>
      (Fails(fields, j) || (!fields[j].required && fields[j].border == ErrorBorder)))
    ensures forall j :: 0 <= j < |fields| && fields[j].required && !Fails(fields, j) ==> r[j].border == ""
  {
    var email := FirstEmail(fields);
    seq(|fields|, j requires 0 <= j < |fields| =>
      var f := fields[j];
      var b := if f.required then (if Trim(f.value) == "" then ErrorBorder else "") else f.border;
      f.(border := if email == Some(j) && !IsValidEmail(f.value) then ErrorBorder else b))
  }

  /** A contact submission: the fields, the message line, and whether the
      form was reset. */
  datatype Contact = Contact(fields: seq<Field>, message: Option<Message>, reset: bool)

  /** The contact form's submit handler: the form is valid when no field
      fails; then it shows the confirmation and resets, otherwise it asks
      for the missing fields. */
  function SubmitContact(fields: seq<Field>, message: Option<Message>): (r: Contact)
    ensures r.fields == Checked(fields)
    ensures r.reset <==> forall j :: 0 <= j < |fields| ==> !Fails(fields, j)
    ensures r.message == ShowMessage(message, if r.reset then ContactSent else ContactError,
      if r.reset then "success" else "error")
  {
    var valid := forall j :: 0 <= j < |fields| ==> !Fails(fields, j);
    if valid then Contact(Checked(fields), ShowMessage(message, ContactSent, "success"), true)
    else Contact(Checked(fields), ShowMessage(message, ContactError, "error"), false)
  }

  /** The form is refused exactly when one of its checked fields is
      flagged, provided no other field was flagged beforehand. */
  lemma RefusedIffFlagged(fields: seq<Field>, message: Option<Message>)
    requires forall j :: 0 <= j < |fields| && !fields[j].required ==> fields[j].border != ErrorBorder
    ensures var r := SubmitContact(fields, message);
      !r.reset <==> exists j :: 0 <= j < |fields| && r.fields[j].border == ErrorBorder
  {
    var r := SubmitContact(fields, message);
    if !r.reset {
      var j :| 0 <= j < |fields| && Fails(fields, j);
      assert r.fields[j].border == ErrorBorder;
    }
  }

  /** The e-mail input need not be required to be checked: a contact form
      whose only field is an optional e-mail input with a bad address is
      refused. */
  lemma OptionalEmailChecked(value: string, border: string)
    requires !IsValidEmail(value)
    ensures !SubmitContact([Field(value, false, true, border)], None).reset
  {
    assert Fails([Field(value, false, true, border)], 0);
  }

  /** `input` on a styled field: its border colour is cleared. */
  function OnInput(f: Field): (g: Field)
    ensures g.border == "" && g == f.(border := "")
  {
    f.(border := "")
  }
}

=== FILE: http.dfy ===
/** Requests, responses and HTML elements as the worker handles them.
    Header maps are keyed by lower-case names, as the Fetch `Headers`
    class treats names case-insensitively. */
module Http {
  import opened Common
  import opened Js

  /** One HTML element as the rewriter presents it to a handler: its
      attributes and its inner content. */
  datatype Element = Element(attrs: map<string, string>, inner: string)

  /** The `file` entry of a multipart form: absent, a plain string field,
      or an uploaded file with its name, declared type and bytes. */
  datatype FormFile =
    | NoFile
    | StringField(text: string)
    | UploadedFile(name: string, mimeType: string, bytes: seq<byte>)

  /** An inbound request; `verb` is the HTTP method. The body is seen through the three readers the
      handlers use: `request.json()` (`None` when it is not JSON),
      `request.arrayBuffer()`, and `request.formData()` (`None` when it is
      not a multipart form). */
  datatype Request = Request(
    verb: string,
    path: string,
    query: map<string, string>,
    headers: map<string, string>,
    json: Option<Json>,
    raw: seq<byte>,
    form: Option<FormFile>)

  datatype Body =
    | NoBody
    | TextBody(text: string)
    | BytesBody(bytes: seq<byte>)
    | JsonBody(data: Json)
    | HtmlBody(elements: seq<Element>)

  datatype Response = Response(status: int, statusText: string, headers: map<string, string>, body: Body)

  /** What a handler produces: a response, or an exception that escapes
      the worker (which the platform turns into an error page). */
  datatype Outcome = Served(resp: Response) | Threw

  /** `headers.get(name) || ''`. */
  function HeaderOr(headers: map<string, string>, name: string): string
  {
    if name in headers then headers[name] else ""
  }

  /** The cross-origin headers every JSON reply and the preflight carry. */
  const CorsHeaders: map<string, string> := map[
    "access-control-allow-origin" := "*",
    "access-control-allow-methods" := "GET, POST, PUT, DELETE, OPTIONS",
    "access-control-allow-headers" := "Content-Type, Authorization"]

  /** `jsonResponse(data, status)` of auth.js. */
  function JsonResponse(data: Json, status: int): (r: Response)
    ensures r.status == status && r.body == JsonBody(data)
    ensures "content-type" in r.headers && r.headers["content-type"] == "application/json"
    ensures forall h :: h in CorsHeaders ==> h in r.headers && r.headers[h] == CorsHeaders[h]
  {
    Response(status, "", CorsHeaders["content-type" := "application/json"], JsonBody(data))
  }

  /** `jsonResponse({ error: message }, status)`. */
  function ErrorResponse(message: string, status: int): Response
  {
    JsonResponse(JObj(map["error" := JStr(message)]), status)
  }
}

=== FILE: image_api.dfy ===
/** The image store of image-api.js: uploads into a blob bucket, the
    listing, deletion, public serving and the `/api/images` router. The
    bucket is a map from key to stored object; every operation returns its
    reply together with the bucket it leaves behind. */
module ImageApi {
  import opened Common
  import opened Js
  import opened Http
  import opened Platform
  import opened Ordering

  /** A stored object: its bytes, the content type recorded with it ("" when
      none was recorded) and its upload time in milliseconds. */
  datatype Blob = Blob(bytes: seq<byte>, contentType: string, uploaded: int)

  type Bucket = map<string, Blob>

  /** A reply and the bucket after the operation. */
  datatype Change = Change(out: Outcome, bucket: Bucket)

  const AllowedTypes: seq<string> := ["image/jpeg", "image/png", "image/webp", "image/svg+xml", "image/gif"]

  /** Five mebibytes. */
  const MaxSize: nat := 5 * 1024 * 1024

  const PublicPrefix := "/cms-images/"

  // ---- File names ----

  predicate IsSafeChar(c: char) {
    ('a' <= c <= 'z') || ('0' <= c <= '9') || c == '.' || c == '_' || c == '-'
  }

  predicate IsSafeName(s: string) {
    forall i :: 0 <= i < |s| ==> IsSafeChar(s[i])
  }

  /** `.replace(/[^a-zA-Z0-9._-]/g, '-').toLowerCase()`. The pattern works
      on UTF-16 code units, so a character outside the Basic Multilingual
      Plane becomes two dashes; after the replacement only ASCII is left,
      so lower-casing touches the ASCII capitals alone. */
  function Sanitize(name: string): (r: string)
    ensures |r| == Utf16Length(name)
    ensures IsSafeName(r)
  {
    if |name| == 0 then ""
    else
      var c := name[|name| - 1];
      var last :=
        if IsSafeChar(c) then [c]
        else if 'A' <= c <= 'Z' then [LowerChar(c)]
        else if c as int > 0xFFFF then "--"
        else "-";
      Sanitize(name[..|name| - 1]) + last
  }

  /** A name already made of safe characters is kept as it is. */
  lemma {:induction false} SanitizeKeepsSafe(name: string)
    requires IsSafeName(name)
    ensures Sanitize(name) == name
    decreases |name|
  {
    if |name| > 0 {
      SanitizeKeepsSafe(name[..|name| - 1]);
      assert name == name[..|name| - 1] + [name[|name| - 1]];
    }
  }

  /** Sanitising twice changes nothing more. */
  lemma SanitizeIdempotent(name: string)
    ensures Sanitize(Sanitize(name)) == Sanitize(name)
  {
    SanitizeKeepsSafe(Sanitize(name));
  }

  /** Every character outside the safe set (capitals aside) becomes a dash,
      whatever it was, so different names can share a sanitised form. */
  lemma SanitizeMerges()
    ensures Sanitize("a b") == Sanitize("a+b") == "a-b"
  {
    assert "a b"[..2] == "a " && "a b"[..2][..1] == "a";
    assert "a+b"[..2] == "a+" && "a+b"[..2][..1] == "a";
  }

  /** The key of an upload: the upload time, a dash, the sanitised name. */
  function ImageKey(now: nat, name: string): string
  {
    Decimal(now) + "-" + Sanitize(name)
  }

  /** The time is the part of the key before its first dash, so uploads at
      different times never share a key. */
  lemma ImageKeysDistinct(t1: nat, n1: string, t2: nat, n2: string)
    requires t1 != t2
    ensures ImageKey(t1, n1) != ImageKey(t2, n2)
  {
    TimeOfKey(t1, n1);
    TimeOfKey(t2, n2);
    if ImageKey(t1, n1) == ImageKey(t2, n2) {
      DecimalInjective(t1, t2);
    }
  }

  lemma TimeOfKey(now: nat, name: string)
    ensures '-' in ImageKey(now, name)
    ensures ImageKey(now, name)[..IndexOf(ImageKey(now, name), '-')] == Decimal(now)
  {
    var d := Decimal(now);
    var k := ImageKey(now, name);
    assert k[|d|] == '-';
    assert k[..|d|] == d;
    assert forall j :: 0 <= j < |d| ==> k[j] == d[j] && IsDigit(d[j]);
    assert IndexOf(k, '-') == |d|;
  }

  // ---- uploadImage ----

  /** The file an upload carries, once the request has been read, or the
      reason there is none. */
  datatype Intake =
    | Refused(resp: Response)
    | Broken                                  // `request.formData()` rejects
    | File(name: string, mimeType: string, bytes: seq<byte>)

  /** `searchParams.get('filename') || 'upload'`, and likewise
      `file.name || 'upload'`. */
  function NameOr(name: string): string
  {
    if name == "" then "upload" else name
  }

  function QueryName(req: Request): string
  {
    NameOr(if "filename" in req.query then req.query["filename"] else "")
  }

  /** The first half of `uploadImage`: which body reader to use and what it
      yields. A multipart form wins when the content type names both. On
      the raw branch the declared type is the whole content-type header. */
  function ReadUpload(req: Request): (i: Intake)
    ensures var ct := HeaderOr(req.headers, "content-type");
      && (i.Broken? <==> Contains(ct, "multipart/form-data") && req.form.None?)
      && (i.Refused? ==> i.resp.status == 400)
      && (i.File? && Contains(ct, "multipart/form-data") ==>
            req.form.Some? && req.form.value.UploadedFile?
            && i == File(NameOr(req.form.value.name), req.form.value.mimeType, req.form.value.bytes))
      && (i.File? && !Contains(ct, "multipart/form-data") ==> i.mimeType == ct && i.mimeType !in AllowedTypes)
      && (Contains(ct, "multipart/form-data") && req.form.Some? && req.form.value.UploadedFile? ==> i.File?)
  {
    var ct := HeaderOr(req.headers, "content-type");
    if !Contains(ct, "multipart/form-data") && !Contains(ct, "application/octet-stream") then
      Refused(ErrorResponse("Content-Type multipart/form-data ou application/octet-stream requis", 400))
    else if Contains(ct, "multipart/form-data") then
      match req.form
      case None => Broken
      case Some(UploadedFile(name, mimeType, bytes)) => File(NameOr(name), mimeType, bytes)
      case Some(_) => Refused(ErrorResponse("Champ \"file\" requis", 400))
    else
      AllowedTypesAreNotRaw(ct);
      File(QueryName(req), ct, req.raw)
  }

  /** The reply to a stored upload. */
  function UploadReply(key: string, size: nat, mimeType: string): Response
  {
    JsonResponse(JObj(map[
      "success" := JBool(true),
      "key" := JStr(key),
      "url" := JStr(PublicPrefix + key),
      "size" := JNum(size),
      "type" := JStr(mimeType)]), 200)
  }

  /** The second half of `uploadImage`: the type and size checks, then the
      store under a fresh key. */
  function Store(bucket: Bucket, name: string, mimeType: string, bytes: seq<byte>, now: nat): (r: Change)
    ensures r.out.Served?
    ensures r.out.resp.status == 200 <==> mimeType in AllowedTypes && |bytes| <= MaxSize
    ensures r.out.resp.status != 200 ==> r.out.resp.status == 400 && r.bucket == bucket
    ensures r.out.resp.status == 200 ==>
      && r.bucket == bucket[ImageKey(now, name) := Blob(bytes, mimeType, now)]
      && r.out.resp == UploadReply(ImageKey(now, name), |bytes|, mimeType)
  {
    if mimeType !in AllowedTypes then
      Change(Served(ErrorResponse("Type non autorise: " + mimeType
        + ". Types acceptes: image/jpeg, image/png, image/webp, image/svg+xml, image/gif", 400)), bucket)
    else if |bytes| > MaxSize then
      Change(Served(ErrorResponse("Fichier trop volumineux (max 5 MB)", 400)), bucket)
    else
      var key := ImageKey(now, name);
      Change(Served(UploadReply(key, |bytes|, mimeType)), bucket[key := Blob(bytes, mimeType, now)])
  }

  /** Whether a request carries an upload that is stored: a multipart form
      whose `file` field is a file of an accepted type and at most five
      mebibytes. */
  predicate Storable(req: Request) {
    && Contains(HeaderOr(req.headers, "content-type"), "multipart/form-data")
    && req.form.Some? && req.form.value.UploadedFile?
    && req.form.value.mimeType in AllowedTypes
    && |req.form.value.bytes| <= MaxSize
  }

  /** `uploadImage`: it throws only when a multipart body cannot be read,
      answers 200 exactly for a storable file, and then adds that one
      object under the time-stamped key; every other answer is a 400 that
      leaves the bucket alone. */
  function Upload(bucket: Bucket, req: Request, now: nat): (r: Change)
    ensures r.out.Threw? <==> Contains(HeaderOr(req.headers, "content-type"), "multipart/form-data") && req.form.None?
    ensures r.out.Served? ==> r.out.resp.status == 200 || r.out.resp.status == 400
    ensures (r.out.Served? && r.out.resp.status == 200) <==> Storable(req)
    ensures !Storable(req) ==> r.bucket == bucket
    ensures Storable(req) ==>
      var f := req.form.value;
      var key := ImageKey(now, NameOr(f.name));
      && r.bucket == bucket[key := Blob(f.bytes, f.mimeType, now)]
      && r.out.resp == UploadReply(key, |f.bytes|, f.mimeType)
  {
    match ReadUpload(req)
    case Refused(resp) => Change(Served(resp), bucket)
    case Broken => Change(Threw, bucket)
    case File(name, mimeType, bytes) => Store(bucket, name, mimeType, bytes, now)
  }

  /** Every accepted type is shorter than `application/octet-stream`, so no
      accepted type contains it. */
  lemma AllowedTypesAreNotRaw(t: string)
    ensures t in AllowedTypes ==> !Contains(t, "application/octet-stream")
  {
  }

  /** The raw branch never stores anything: its declared type is the
      content-type header, which names `application/octet-stream`, and no
      accepted image type does. */
  lemma RawUploadRejected(bucket: Bucket, req: Request, now: nat)
    requires !Contains(HeaderOr(req.headers, "content-type"), "multipart/form-data")
    ensures Upload(bucket, req, now).bucket == bucket
    ensures Upload(bucket, req, now).out.Served?
    ensures Upload(bucket, req, now).out.resp.status == 400
  {
    var ct := HeaderOr(req.headers, "content-type");
    if ct in AllowedTypes {
      AllowedTypesAreNotRaw(ct);
    }
  }

  /** A successful upload names a key under which the bucket now holds
      exactly the bytes and type sent, and no other key changed. */
  lemma UploadEffect(bucket: Bucket, req: Request, now: nat)
    requires Upload(bucket, req, now).out.Served? && Upload(bucket, req, now).out.resp.status == 200
    ensures var f := ReadUpload(req);
      var after := Upload(bucket, req, now).bucket;
      && f.File? && f.mimeType in AllowedTypes && |f.bytes| <= MaxSize
      && ImageKey(now, f.name) in after
      && after[ImageKey(now, f.name)] == Blob(f.bytes, f.mimeType, now)
      && forall k :: k != ImageKey(now, f.name) ==> (k in after <==> k in bucket) && (k in bucket ==> after[k] == bucket[k])
  {
  }

  // ---- listImages, deleteImage, serveImage ----

  /** The bucket's listing limit. */
  const ListLimit: nat := 500

  /** The keys `list({ limit: 500 })` returns: the first 500 in order. */
  function ListedKeys(bucket: Bucket): (keys: seq<string>)
    ensures |keys| == if ListLimit < |bucket| then ListLimit else |bucket|
    ensures forall i :: 0 <= i < |keys| ==> keys[i] in bucket
    ensures forall i, j :: 0 <= i < j < |keys| ==> LexLess(keys[i], keys[j])
    ensures forall k :: k in bucket && k !in keys ==> forall i :: 0 <= i < |keys| ==> LexLess(keys[i], k)
  {
    Listing(bucket.Keys, ListLimit)
  }

  /** One entry of the listing. */
  function ImageJson(rt: Runtime, key: string, b: Blob): Json
  {
    JObj(map[
      "key" := JStr(key),
      "url" := JStr(PublicPrefix + key),
      "size" := JNum(|b.bytes|),
      "uploaded" := JStr(rt.isoDate(b.uploaded))])
  }

  /** `listImages`: one entry per listed key, in listing order. */
  function ListImages(rt: Runtime, bucket: Bucket): (r: Response)
    ensures r.status == 200 && r.body.JsonBody? && r.body.data.JObj?
    ensures "images" in r.body.data.fields && r.body.data.fields["images"].JArr?
    ensures var items := r.body.data.fields["images"].items;
      var keys := ListedKeys(bucket);
      |items| == |keys| && forall i :: 0 <= i < |keys| ==> items[i] == ImageJson(rt, keys[i], bucket[keys[i]])
  {
    var keys := ListedKeys(bucket);
    JsonResponse(JObj(map["images" := JArr(seq(|keys|, i requires 0 <= i < |keys| => ImageJson(rt, keys[i], bucket[keys[i]])))]), 200)
  }

  /** A bucket of at most 500 objects is listed whole. */
  lemma SmallBucketListedWhole(bucket: Bucket, k: string)
    requires |bucket| <= ListLimit && k in bucket
    ensures k in ListedKeys(bucket)
  {
    SmallListingWhole(bucket.Keys, ListLimit, k);
  }

  /** `deleteImage`: the key is gone, whether or not it was there. */
  function DeleteImage(bucket: Bucket, key: string): (r: Change)
    ensures key !in r.bucket
    ensures forall k :: k != key ==> (k in r.bucket <==> k in bucket) && (k in bucket ==> r.bucket[k] == bucket[k])
    ensures r.out == Served(JsonResponse(JObj(map["success" := JBool(true), "deleted" := JStr(key)]), 200))
  {
    Change(Served(JsonResponse(JObj(map["success" := JBool(true), "deleted" := JStr(key)]), 200)), bucket - {key})
  }

  const CacheForever := "public, max-age=31536000, immutable"

  /** `serveImage`: the stored bytes under their recorded type (JPEG when
      none was recorded) and a year-long immutable cache, or a plain-text
      404. */
  function ServeImage(bucket: Bucket, key: string): (r: Response)
    ensures key !in bucket <==> r.status == 404
    ensures key !in bucket ==> r.body == TextBody("Image introuvable")
    ensures key in bucket ==>
      && r.status == 200
      && r.body == BytesBody(bucket[key].bytes)
      && "content-type" in r.headers && "cache-control" in r.headers
      && r.headers["content-type"] == (if bucket[key].contentType == "" then "image/jpeg" else bucket[key].contentType)
      && r.headers["cache-control"] == CacheForever
  {
    if key !in bucket then
      Response(404, "", map["content-type" := "text/plain;charset=UTF-8"], TextBody("Image introuvable"))
    else
      var b := bucket[key];
      Response(200, "", map[
        "content-type" := if b.contentType == "" then "image/jpeg" else b.contentType,
        "cache-control" := CacheForever], BytesBody(b.bytes))
  }

  /** An uploaded image is served back under its key with the bytes and
      type it was sent with. */
  lemma UploadThenServe(bucket: Bucket, req: Request, now: nat)
    requires Upload(bucket, req, now).out.Served? && Upload(bucket, req, now).out.resp.status == 200
    ensures var f := ReadUpload(req);
      var r := ServeImage(Upload(bucket, req, now).bucket, ImageKey(now, f.name));
      r.status == 200 && r.body == BytesBody(f.bytes) && r.headers["content-type"] == f.mimeType
  {
    UploadEffect(bucket, req, now);
  }

  /** A deleted image is no longer served. */
  lemma DeleteThenServe(bucket: Bucket, key: string)
    ensures ServeImage(DeleteImage(bucket, key).bucket, key).status == 404
  {
  }

  // ---- handleImageAPI ----

  /** `handleImageAPI`, reached once the gate has admitted the caller. */
  function HandleImages(rt: Runtime, bucket: Bucket, req: Request, now: nat): (r: Change)
    ensures r.bucket != bucket ==> req.verb == "POST" || req.verb == "DELETE"
    ensures var p := RemoveFirst(req.path, "/api/images");
      !(p == "/upload" && req.verb == "POST") && !((p == "" || p == "/") && req.verb == "GET") && !(|p| > 1 && req.verb == "DELETE") ==>
        r == NotFound(bucket)
  {
    var p := RemoveFirst(req.path, "/api/images");
    if p == "/upload" && req.verb == "POST" then Upload(bucket, req, now)
    else if (p == "" || p == "/") && req.verb == "GET" then Change(Served(ListImages(rt, bucket)), bucket)
    else if |p| > 1 && req.verb == "DELETE" then DeleteImage(bucket, p[1..])
    else NotFound(bucket)
  }

  /** Every other request is refused with 404 and leaves the bucket as it
      was: a method other than GET, POST and DELETE on any path, a POST
      anywhere but `/upload`, a GET below the collection, and a DELETE
      without a key. */
  lemma UnknownImageRoutes(rt: Runtime, bucket: Bucket, req: Request, now: nat, rest: string)
    ensures req.verb !in {"GET", "POST", "DELETE"} ==> HandleImages(rt, bucket, req, now) == NotFound(bucket)
    ensures req.verb == "POST" && req.path == "/api/images" + rest && rest != "/upload" ==>
      HandleImages(rt, bucket, req, now) == NotFound(bucket)
    ensures req.verb == "GET" && req.path == "/api/images/" + rest && rest != "" ==>
      HandleImages(rt, bucket, req, now) == NotFound(bucket)
    ensures req.verb == "DELETE" && (req.path == "/api/images" || req.path == "/api/images/") ==>
      HandleImages(rt, bucket, req, now) == NotFound(bucket)
  {
    if req.path == "/api/images" + rest {
      assert StartsWith(req.path, "/api/images");
      assert req.path[11..] == rest;
    }
    if req.path == "/api/images/" + rest {
      assert StartsWith(req.path, "/api/images");
      assert req.path[11..] == "/" + rest;
    }
    if req.path == "/api/images" || req.path == "/api/images/" {
      assert StartsWith(req.path, "/api/images");
    }
  }

  function NotFound(bucket: Bucket): Change { Change(Served(ErrorResponse("Route non trouvee", 404)), bucket) }

  /** `DELETE /api/images/<key>` removes that key and nothing else. */
  lemma DeleteRoute(rt: Runtime, bucket: Bucket, req: Request, now: nat, key: string)
    requires req.verb == "DELETE" && req.path == "/api/images/" + key && key != ""
    ensures HandleImages(rt, bucket, req, now) == DeleteImage(bucket, key)
  {
    assert StartsWith(req.path, "/api/images");
    assert req.path[11..] == "/" + key;
  }

  /** `POST /api/images/upload` is the upload and `GET /api/images` the
      listing. */
  lemma UploadAndListRoutes(rt: Runtime, bucket: Bucket, req: Request, now: nat)
    ensures req.verb == "POST" && req.path == "/api/images/upload" ==> HandleImages(rt, bucket, req, now) == Upload(bucket, req, now)
    ensures req.verb == "GET" && (req.path == "/api/images" || req.path == "/api/images/") ==>
      HandleImages(rt, bucket, req, now) == Change(Served(ListImages(rt, bucket)), bucket)
  {
    if req.path == "/api/images/upload" {
      assert StartsWith(req.path, "/api/images");
      assert req.path[11..] == "/upload";
    }
    if req.path == "/api/images" || req.path == "/api/images/" {
      assert StartsWith(req.path, "/api/images");
    }
  }
}

=== FILE: js.dfy ===
/** JSON values as the server sees them after `JSON.parse`, with the two
    JavaScript conversions the handlers apply to them: truthiness (`!x`,
    `x || y`) and `String(x)`. Numbers are integers here; no value the
    server handles is fractional. */
module Js {
  import opened Common

  datatype Json =
    | JNull
    | JBool(b: bool)
    | JNum(n: int)
    | JStr(s: string)
    | JArr(items: seq<Json>)
    | JObj(fields: map<string, Json>)

  /** JavaScript truthiness: `null`, `false`, `0` and `""` are falsy; every
      array and object, even an empty one, is truthy. */
  predicate Truthy(j: Json) {
    match j
    case JNull => false
    case JBool(b) => b
    case JNum(n) => n != 0
    case JStr(s) => s != ""
    case JArr(_) => true
    case JObj(_) => true
  }

  /** Truthiness of a possibly `undefined` value (a missing property). */
  predicate TruthyOpt(v: Option<Json>) {
    v.Some? && Truthy(v.value)
  }

  /** `typeof v === 'object'` for a non-null value: arrays count as objects. */
  predicate IsObjectLike(j: Json) {
    j.JArr? || j.JObj?
  }

  /** Property read `j.name` on a value that is not `null`; `None` is `undefined`. */
  function Get(j: Json, name: string): (v: Option<Json>)
    ensures v.Some? ==> j.JObj? && name in j.fields && v.value == j.fields[name]
    ensures j.JObj? && name in j.fields ==> v.Some?
  {
    if j.JObj? && name in j.fields then Some(j.fields[name]) else None
  }

  /** `String(j)`, as `setAttribute` and `setInnerContent` apply it to a
      non-string argument. */
  function ToJsString(j: Json): string
  {
    match j
    case JNull => "null"
    case JBool(b) => if b then "true" else "false"
    case JNum(n) => IntString(n)
    case JStr(s) => s
    case JObj(_) => "[object Object]"
    case JArr(items) => JoinItems(items)
  }

  /** `Array.prototype.join(',')`, in which `null` elements render as "". */
  function JoinItems(items: seq<Json>): string
    decreases items, 0
  {
    if |items| == 0 then ""
    else
      var first := if items[0].JNull? then "" else ToJsString(items[0]);
      if |items| == 1 then first else first + "," + JoinItems(items[1..])
  }
}

=== FILE: jwt.dfy ===
/** HS256 JSON Web Tokens as jwt.js signs and verifies them (RFC 7519 with
    the HMAC-SHA-256 signature of section 3.2 of RFC 7518). A token is
    three base64url segments joined by dots: header, claims, signature. */
module Jwt {
  import opened Common
  import opened Js
  import opened Platform
  import opened Base64
  import Utf8

  const DefaultTtl := 86400

  /** `JSON.stringify({ alg: 'HS256', typ: 'JWT' })`. */
  const HeaderText := "{\"alg\":\"HS256\",\"typ\":\"JWT\"}"

  /** `Math.floor(ms / 1000)`; Dafny's division by a positive divisor
      already rounds toward negative infinity. */
  function Seconds(ms: int): int { ms / 1000 }

  /** `{ ...payload, iat: now, exp: now + ttl }`: the caller's claims with
      the issue and expiry times set last, so they win. */
  function Claims(payload: map<string, Json>, now: int, ttl: int): (c: Json)
    ensures c.JObj? && c.fields.Keys == payload.Keys + {"iat", "exp"}
    ensures c.fields["iat"] == JNum(now) && c.fields["exp"] == JNum(now + ttl)
    ensures forall k :: k in payload && k != "iat" && k != "exp" ==> c.fields[k] == payload[k]
  {
    JObj(payload["iat" := JNum(now)]["exp" := JNum(now + ttl)])
  }

  function HeaderSegment(): (h: string)
    ensures IsUrlText(h)
  {
    assert IsLatin1(HeaderText);
    UrlEncode(HeaderText).value
  }

  /** The MAC of the signing input, keyed with the secret and taken over
      the UTF-8 bytes of `header.payload`. */
  function Mac(rt: Runtime, secret: string, input: string): seq<byte>
  {
    rt.mac(secret, Utf8.Encode(input))
  }

  function Assemble(rt: Runtime, secret: string, header: string, payload: string): string
  {
    var input := header + "." + payload;
    input + "." + UrlEncodeBytes(Mac(rt, secret, input))
  }

  /** `signJWT` as written: the claims text goes through `btoa`, which
      reads it as Latin-1. It throws for a character above U+00FF and, as
      for every HMAC key, for an empty secret. */
  function SignJwtAsWritten(rt: Runtime, payload: map<string, Json>, secret: string, nowMs: int, ttl: int): (r: Option<string>)
    ensures var text := rt.stringify(Claims(payload, Seconds(nowMs), ttl));
      && (r.Some? <==> secret != "" && IsLatin1(text))
      && (r.Some? ==> r.value == Assemble(rt, secret, HeaderSegment(), UrlText(Latin1Bytes(text))))
  {
    var text := rt.stringify(Claims(payload, Seconds(nowMs), ttl));
    match UrlEncode(text)
    case None => None
    case Some(p) => if secret == "" then None else Some(Assemble(rt, secret, HeaderSegment(), p))
  }

  /** `signJWT` with the claims text encoded by `TextEncoder`, the
      counterpart of the `TextDecoder` that `verifyJWT` reads it with. */
  function SignJwt(rt: Runtime, payload: map<string, Json>, secret: string, nowMs: int, ttl: int): (r: Option<string>)
    ensures r.Some? <==> secret != ""
    ensures r.Some? ==> r.value == Assemble(rt, secret, HeaderSegment(),
      UrlText(Utf8.Encode(rt.stringify(Claims(payload, Seconds(nowMs), ttl)))))
  {
    var text := rt.stringify(Claims(payload, Seconds(nowMs), ttl));
    if secret == "" then None else Some(Assemble(rt, secret, HeaderSegment(), UrlEncodeBytes(Utf8.Encode(text))))
  }

  /** On ASCII claims text the two signers issue the same token: `btoa`
      and `TextEncoder` give the same bytes there. */
  lemma AsciiSignersAgree(rt: Runtime, payload: map<string, Json>, secret: string, nowMs: int, ttl: int)
    requires Utf8.IsAscii(rt.stringify(Claims(payload, Seconds(nowMs), ttl)))
    ensures SignJwtAsWritten(rt, payload, secret, nowMs, ttl) == SignJwt(rt, payload, secret, nowMs, ttl)
  {
    var text := rt.stringify(Claims(payload, Seconds(nowMs), ttl));
    assert IsLatin1(text);
    Utf8.AsciiEncode(text);
    assert Latin1Bytes(text) == Utf8.Encode(text);
  }

  datatype JwtError =
    | BadFormat       // not three segments
    | KeyRejected     // the HMAC key cannot be imported from an empty secret
    | BadBase64       // a segment `atob` rejects
    | BadSignature    // the MAC does not match
    | BadJson         // the claims are not JSON
    | NullClaims      // `payload.exp` read on `null`
    | Expired

  datatype Verified = Valid(claims: Json) | Invalid(error: JwtError)

  /** `payload.exp && payload.exp < now`, for the claim types a token
      carries: a number, or a boolean (compared as 0 or 1). */
  predicate ExpiredAt(claims: Json, now: int)
  {
    match Get(claims, "exp")
    case Some(JNum(n)) => n != 0 && n < now
    case Some(JBool(b)) => b && 1 < now
    case _ => false
  }

  /** `verifyJWT`: the checks in the order the source makes them. */
  function VerifyJwt(rt: Runtime, token: string, secret: string, nowMs: int): (r: Verified)
    ensures |Split(token, '.')| != 3 ==> r == Invalid(BadFormat)
    ensures |Split(token, '.')| == 3 && secret == "" ==> r == Invalid(KeyRejected)
    ensures r.Valid? ==> var parts := Split(token, '.');
      && |parts| == 3 && secret != ""
      && UrlDecode(parts[2]) == Some(Mac(rt, secret, parts[0] + "." + parts[1]))
      && UrlDecode(parts[1]).Some?
      && rt.parse(Utf8.Decode(UrlDecode(parts[1]).value)) == Some(r.claims)
      && r.claims != JNull && !ExpiredAt(r.claims, Seconds(nowMs))
    ensures var parts := Split(token, '.');
      |parts| == 3 && secret != "" && UrlDecode(parts[2]).Some? &&
      UrlDecode(parts[2]).value != Mac(rt, secret, parts[0] + "." + parts[1])
      ==> r == Invalid(BadSignature)
    ensures var parts := Split(token, '.');
      |parts| == 3 && secret != ""
      && UrlDecode(parts[2]) == Some(Mac(rt, secret, parts[0] + "." + parts[1]))
      && UrlDecode(parts[1]).Some?
      && rt.parse(Utf8.Decode(UrlDecode(parts[1]).value)).Some?
      && rt.parse(Utf8.Decode(UrlDecode(parts[1]).value)).value != JNull
      && !ExpiredAt(rt.parse(Utf8.Decode(UrlDecode(parts[1]).value)).value, Seconds(nowMs))
      ==> r == Valid(rt.parse(Utf8.Decode(UrlDecode(parts[1]).value)).value)
  {
    var parts := Split(token, '.');
    if |parts| != 3 then Invalid(BadFormat)
    else if secret == "" then Invalid(KeyRejected)
    else match UrlDecode(parts[2])
      case None => Invalid(BadBase64)
      case Some(signature) =>
        if Mac(rt, secret, parts[0] + "." + parts[1]) != signature then Invalid(BadSignature)
        else match UrlDecode(parts[1])
          case None => Invalid(BadBase64)
          case Some(bytes) =>
            match rt.parse(Utf8.Decode(bytes))
            case None => Invalid(BadJson)
            case Some(claims) =>
              if claims == JNull then Invalid(NullClaims)
              else if ExpiredAt(claims, Seconds(nowMs)) then Invalid(Expired)
              else Valid(claims)
  }

  // ---- Tokens split back into their segments ----

  lemma UrlTextHasNoDot(s: string)
    requires IsUrlText(s)
    ensures '.' !in s
  {
  }

  lemma SegmentsOfToken(rt: Runtime, secret: string, header: string, payload: string)
    requires IsUrlText(header) && IsUrlText(payload)
    ensures Split(Assemble(rt, secret, header, payload), '.') ==
      [header, payload, UrlEncodeBytes(Mac(rt, secret, header + "." + payload))]
  {
    var sig := UrlEncodeBytes(Mac(rt, secret, header + "." + payload));
    UrlTextHasNoDot(header);
    UrlTextHasNoDot(payload);
    UrlTextHasNoDot(sig);
    var parts := [header, payload, sig];
    assert parts[1..][1..] == [sig];
    assert Join(parts[1..], '.') == payload + "." + sig;
    assert Join(parts, '.') == Assemble(rt, secret, header, payload);
    SplitJoin(parts, '.');
  }

  /** A token `SignJwt` issued verifies with the same secret, giving back
      the claims it carries, until the second its expiry names; after that
      it is reported expired. */
  lemma SignThenVerify(rt: Runtime, payload: map<string, Json>, secret: string, nowMs: int, ttl: int, laterMs: int)
    requires secret != ""
    requires var c := Claims(payload, Seconds(nowMs), ttl);
      var text := rt.stringify(c);
      |text| > 0 && text[0] == '{' && rt.parse(text) == Some(c)
    ensures var c := Claims(payload, Seconds(nowMs), ttl);
      var r := VerifyJwt(rt, SignJwt(rt, payload, secret, nowMs, ttl).value, secret, laterMs);
      && (Seconds(laterMs) <= Seconds(nowMs) + ttl ==> r == Valid(c))
      && (Seconds(nowMs) + ttl != 0 && Seconds(nowMs) + ttl < Seconds(laterMs) ==> r == Invalid(Expired))
  {
    var c := Claims(payload, Seconds(nowMs), ttl);
    var text := rt.stringify(c);
    var bytes := Utf8.Encode(text);
    var h, p := HeaderSegment(), UrlText(bytes);
    SegmentsOfToken(rt, secret, h, p);
    UrlRoundTrip(Mac(rt, secret, h + "." + p));
    UrlRoundTrip(bytes);
    Utf8.DecodeEncode(text);
  }

  /** The claims text that `verifyJWT` hands to `JSON.parse`. */
  function ClaimsText(token: string): Option<string>
  {
    var parts := Split(token, '.');
    if |parts| != 3 then None
    else match UrlDecode(parts[1])
      case None => None
      case Some(bytes) => Some(Utf8.Decode(bytes))
  }

  /** Latin-1 bytes read back as UTF-8 give the same text exactly when the
      text is ASCII. */
  lemma Latin1ReadAsUtf8(s: string)
    requires IsLatin1(s)
    ensures Utf8.Decode(Latin1Bytes(s)) == s <==> Utf8.IsAscii(s)
  {
    var bytes := Latin1Bytes(s);
    if Utf8.IsAscii(s) {
      Utf8.AsciiEncode(s);
      assert Utf8.Encode(s) == bytes;
      Utf8.DecodeEncode(s);
    } else if Utf8.Decode(bytes) == s {
      var out := Utf8.Run(bytes, Utf8.Idle);
      assert Utf8.Replacement !in out by {
        assert Utf8.Replacement !in s;
        assert out == s || out == [Utf8.ByteOrderMark] + s;
      }
      Utf8.RunLength(bytes, Utf8.Idle);
      assert Utf8.IsAscii(s) by {
        forall i | 0 <= i < |s| ensures s[i] as int < 0x80 {
          assert bytes[i] as int == s[i] as int;
        }
      }
    }
  }

  /** With the source's encoding, a claims text that is Latin-1 but not
      ASCII (an address with an accented letter) reaches `JSON.parse` in
      `verifyJWT` altered: the token no longer carries what was signed. */
  lemma AsWrittenAltersLatin1Claims(rt: Runtime, payload: map<string, Json>, secret: string, nowMs: int, ttl: int)
    requires secret != ""
    requires var text := rt.stringify(Claims(payload, Seconds(nowMs), ttl));
      IsLatin1(text) && !Utf8.IsAscii(text)
    ensures var text := rt.stringify(Claims(payload, Seconds(nowMs), ttl));
      var token := SignJwtAsWritten(rt, payload, secret, nowMs, ttl);
      token.Some? && ClaimsText(token.value).Some? && ClaimsText(token.value).value != text
  {
    var text := rt.stringify(Claims(payload, Seconds(nowMs), ttl));
    var bytes := Latin1Bytes(text);
    SegmentsOfToken(rt, secret, HeaderSegment(), UrlText(bytes));
    UrlRoundTrip(bytes);
    Latin1ReadAsUtf8(text);
  }

  /** A concrete instance: the byte of `é` is not UTF-8 on its own, so the
      decoder turns it into U+FFFD. */
  lemma AccentBecomesReplacement()
    ensures Utf8.Decode(Latin1Bytes("\"\U{E9}\"")) == "\"\U{FFFD}\""
  {
    var b := Latin1Bytes("\"\U{E9}\"");
    assert b == [0x22, 0xE9, 0x22];
    assert Utf8.Run(b[2..], Utf8.Idle) == "\"";
  }

  /** With `TextEncoder`, every claims text survives the trip. */
  lemma CorrectedKeepsClaims(rt: Runtime, payload: map<string, Json>, secret: string, nowMs: int, ttl: int)
    requires secret != ""
    requires var text := rt.stringify(Claims(payload, Seconds(nowMs), ttl));
      |text| > 0 && text[0] == '{'
    ensures var text := rt.stringify(Claims(payload, Seconds(nowMs), ttl));
      ClaimsText(SignJwt(rt, payload, secret, nowMs, ttl).value) == Some(text)
  {
    var text := rt.stringify(Claims(payload, Seconds(nowMs), ttl));
    var bytes := Utf8.Encode(text);
    SegmentsOfToken(rt, secret, HeaderSegment(), UrlText(bytes));
    UrlRoundTrip(bytes);
    Utf8.DecodeEncode(text);
  }
}

=== FILE: ordering.dfy ===
/** Orders used by the two listings of the core: the key-value store and
    the blob store both enumerate keys in lexicographic order, and the
    version history is then re-sorted newest first. `TakeFirst` is the
    "sort, then keep the first `limit`" step both listings perform. */
module Ordering {

  /** Lexicographic order on strings by code point, which is also the
      order of their UTF-8 encodings. */
  predicate LexLess(a: string, b: string)
    decreases |a|
  {
    if |a| == 0 then |b| > 0
    else if |b| == 0 then false
    else if a[0] != b[0] then a[0] < b[0]
    else LexLess(a[1..], b[1..])
  }

  lemma {:induction false} LexIrreflexive(a: string)
    ensures !LexLess(a, a)
    decreases |a|
  {
    if |a| > 0 {
      LexIrreflexive(a[1..]);
    }
  }

  lemma {:induction false} LexTransitive(a: string, b: string, c: string)
    requires LexLess(a, b) && LexLess(b, c)
    ensures LexLess(a, c)
    decreases |a|
  {
    if |a| > 0 && |b| > 0 && |c| > 0 && a[0] == b[0] && b[0] == c[0] {
      LexTransitive(a[1..], b[1..], c[1..]);
    }
  }

  lemma {:induction false} LexTotal(a: string, b: string)
    requires a != b
    ensures LexLess(a, b) || LexLess(b, a)
    decreases |a|
  {
    if |a| > 0 && |b| > 0 && a[0] == b[0] {
      assert a == [a[0]] + a[1..] && b == [b[0]] + b[1..];
      LexTotal(a[1..], b[1..]);
    }
  }

  /** `before` is a strict total order on the elements of `s`. */
  ghost predicate StrictTotalOn<T(!new)>(before: (T, T) -> bool, s: set<T>)
  {
    && (forall a :: a in s ==> !before(a, a))
    && (forall a, b, c :: a in s && b in s && c in s && before(a, b) && before(b, c) ==> before(a, c))
    && (forall a, b :: a in s && b in s && a != b ==> before(a, b) || before(b, a))
  }

  predicate IsFirst<T>(before: (T, T) -> bool, x: T, s: set<T>)
  {
    x in s && forall y :: y in s && y != x ==> before(x, y)
  }

  lemma {:induction false} FirstExists<T(!new)>(before: (T, T) -> bool, s: set<T>)
    requires StrictTotalOn(before, s) && s != {}
    ensures exists x :: IsFirst(before, x, s)
    decreases |s|
  {
    var x :| x in s;
    var rest := s - {x};
    if rest != {} {
      assert StrictTotalOn(before, rest);
      FirstExists(before, rest);
      var y :| IsFirst(before, y, rest);
      if before(x, y) {
        assert IsFirst(before, x, s);
      } else {
        assert IsFirst(before, y, s);
      }
    } else {
      assert s == {x};
      assert IsFirst(before, x, s);
    }
  }

  /** The first `limit` elements of `s` in `before` order: strictly
      ordered, drawn from `s`, as many as `s` allows, and every element
      left out comes after every element kept. */
  function TakeFirst<T(!new)>(s: set<T>, before: (T, T) -> bool, limit: nat): (r: seq<T>)
    requires StrictTotalOn(before, s)
    ensures |r| == if limit < |s| then limit else |s|
    ensures forall i :: 0 <= i < |r| ==> r[i] in s
    ensures forall i, j :: 0 <= i < j < |r| ==> before(r[i], r[j])
    ensures forall x :: x in s && x !in r ==> forall i :: 0 <= i < |r| ==> before(r[i], x)
    decreases |s|
  {
    if s == {} || limit == 0 then []
    else
      FirstExists(before, s);
      var x :| IsFirst(before, x, s);
      var rest := s - {x};
      assert StrictTotalOn(before, rest);
      [x] + TakeFirst(rest, before, limit - 1)
  }

  // ---- Store listings ----

  lemma LexIsStrictTotal(s: set<string>)
    ensures StrictTotalOn(LexLess, s)
  {
    forall a | a in s ensures !LexLess(a, a) { LexIrreflexive(a); }
    forall a, b, c | a in s && b in s && c in s && LexLess(a, b) && LexLess(b, c) ensures LexLess(a, c) {
      LexTransitive(a, b, c);
    }
    forall a, b | a in s && b in s && a != b ensures LexLess(a, b) || LexLess(b, a) { LexTotal(a, b); }
  }

  /** One page of a store listing: the first `limit` keys in lexicographic
      order, and every key past the page comes after every key on it. */
  function Listing(keys: set<string>, limit: nat): (page: seq<string>)
    ensures |page| == if limit < |keys| then limit else |keys|
    ensures forall i :: 0 <= i < |page| ==> page[i] in keys
    ensures forall i, j :: 0 <= i < j < |page| ==> LexLess(page[i], page[j])
    ensures forall k :: k in keys && k !in page ==> forall i :: 0 <= i < |page| ==> LexLess(page[i], k)
  {
    LexIsStrictTotal(keys);
    TakeFirst(keys, LexLess, limit)
  }

  /** A store holding no more keys than the limit is listed whole. */
  lemma SmallListingWhole(keys: set<string>, limit: nat, k: string)
    requires |keys| <= limit && k in keys
    ensures k in Listing(keys, limit)
  {
    var page := Listing(keys, limit);
    if k !in page {
      var ks := set i | 0 <= i < |page| :: page[i];
      assert ks <= keys - {k};
      DistinctCount(page);
      assert |keys - {k}| < |keys|;
      SubsetCard(ks, keys - {k});
    }
  }

  lemma SubsetCard<T>(a: set<T>, b: set<T>)
    requires a <= b
    ensures |a| <= |b|
  {
    assert b == a + (b - a);
  }

  lemma ProperSubsetCard<T>(a: set<T>, b: set<T>)
    requires a < b
    ensures |a| < |b|
  {
    assert b - a != {};
    var x :| x in b - a;
    SubsetCard(a, b - {x});
  }

  /** A strictly increasing listing has no repeats, so it names as many
      keys as it has entries. */
  lemma {:induction false} DistinctCount(keys: seq<string>)
    requires forall i, j :: 0 <= i < j < |keys| ==> LexLess(keys[i], keys[j])
    ensures |set i | 0 <= i < |keys| :: keys[i]| == |keys|
    decreases |keys|
  {
    if |keys| > 0 {
      var rest := keys[1..];
      DistinctCount(rest);
      var s := set i | 0 <= i < |keys| :: keys[i];
      var t := set i | 0 <= i < |rest| :: rest[i];
      assert s == {keys[0]} + t by {
        forall x | x in s ensures x in {keys[0]} + t {
          var i :| 0 <= i < |keys| && keys[i] == x;
          if i > 0 { assert x == rest[i - 1]; }
        }
      }
      assert keys[0] !in t by {
        forall i | 0 <= i < |rest| ensures rest[i] != keys[0] {
          assert LexLess(keys[0], keys[i + 1]);
          LexIrreflexive(keys[0]);
        }
      }
    }
  }
}

=== FILE: platform.dfy ===
/** The primitives the core calls but does not define, passed in as
    functions so that every operation stays a pure function of its
    inputs: JSON text conversion, the clock's ISO rendering, HMAC-SHA-256,
    PBKDF2 and the upstream feed fetch. Nothing is assumed about them
    beyond what a lemma states in its own `requires`. */
module Platform {
  import opened Common
  import opened Js

  datatype Runtime = Runtime(
    /** `JSON.stringify`. */
    stringify: Json -> string,
    /** `JSON.parse`; `None` when it throws. */
    parse: string -> Option<Json>,
    /** `new Date(ms).toISOString()`. */
    isoDate: int -> string,
    /** HMAC-SHA-256 keyed with the UTF-8 bytes of the secret. */
    mac: (string, seq<byte>) -> seq<byte>,
    /** `hashPassword(password, salt)`: PBKDF2-SHA-256, 100000 rounds, 256 bits, as lower-case hex. */
    pbkdf2: (Json, string) -> string,
    /** `fetch(url)` then `res.text()`: the text, or the message of the
        error it throws. */
    fetchText: string -> Fetched)

  datatype Fetched = FetchFailed(message: string) | FetchedText(text: string)
}

=== FILE: rss.dfy ===
/** The feed proxy of worker.js (`handleRSS`): it fetches one of two
    Substack feeds and extracts the title, link and date of the first two
    `<item>` blocks with lazy regular expressions. Each expression is
    modelled by what it matches: the leftmost opening tag from which the
    closing tag can be reached, and the shortest text in between. */
module Rss {
  import opened Common
  import opened Js
  import opened Http
  import opened Platform

  // ---- Lazy tag matching ----

  /** The first position at or after `from` where `sub` occurs. */
  function FirstFrom(s: string, sub: string, from: nat): (k: Option<nat>)
    ensures k.Some? ==> from <= k.value && k.value + |sub| <= |s|
    decreases |s| - from
  {
    if from + |sub| > |s| then None
    else if MatchesAt(s, sub, from) then Some(from)
    else FirstFrom(s, sub, from + 1)
  }

  /** `OccursAt`, compared character by character. */
  predicate MatchesAt(s: string, sub: string, i: nat)
    decreases |sub|
  {
    i <= |s| && (|sub| == 0 || (i < |s| && s[i] == sub[0] && MatchesAt(s, sub[1..], i + 1)))
  }

  lemma {:induction false} MatchesAtIff(s: string, sub: string, i: nat)
    ensures MatchesAt(s, sub, i) <==> OccursAt(s, sub, i)
    decreases |sub|
  {
    if |sub| > 0 && i < |s| {
      MatchesAtIff(s, sub[1..], i + 1);
      if i + |sub| <= |s| {
        assert s[i..i + |sub|] == [s[i]] + s[i + 1..i + |sub|];
      }
    }
  }

  /** `FirstFrom` finds the leftmost occurrence, and finds none only when
      there is none. */
  lemma {:induction false} FirstFromSpec(s: string, sub: string, from: nat)
    ensures var k := FirstFrom(s, sub, from);
      && (k.Some? ==> OccursAt(s, sub, k.value) && forall j :: from <= j < k.value ==> !OccursAt(s, sub, j))
      && (k.None? ==> forall j :: from <= j ==> !OccursAt(s, sub, j))
    decreases |s| - from
  {
    MatchesAtIff(s, sub, from);
    if from + |sub| <= |s| && !OccursAt(s, sub, from) {
      FirstFromSpec(s, sub, from + 1);
    }
  }

  /** The first match at or after `from` of `open([\s\S]*?)close`, as the
      bounds of the captured text: the first opening tag, and the nearest
      closing tag after it. */
  function Between(s: string, open: string, close: string, from: nat): (m: Option<(nat, nat)>)
    ensures m.Some? ==> from + |open| <= m.value.0 <= m.value.1 && m.value.1 + |close| <= |s|
    decreases |s| - from
  {
    if from + |open| > |s| then None
    else if MatchesAt(s, open, from) then
      match FirstFrom(s, close, from + |open|)
      case None => None
      case Some(j) => Some((from + |open|, j))
    else Between(s, open, close, from + 1)
  }

  /** `Between` is the nearest closing tag after the first opening tag. */
  lemma {:induction false} BetweenFirst(s: string, open: string, close: string, from: nat)
    ensures Between(s, open, close, from) ==
      match FirstFrom(s, open, from)
      case None => None
      case Some(i) =>
        match FirstFrom(s, close, i + |open|)
        case None => None
        case Some(j) => Some((i + |open|, j))
    decreases |s| - from
  {
    if from + |open| <= |s| && !MatchesAt(s, open, from) {
      BetweenFirst(s, open, close, from + 1);
    }
  }

  /** The first match at or after `from` of `open(.*?)close`. An opening
      tag whose nearest closing tag lies beyond a line break cannot match,
      and the search moves on to the next opening tag. */
  function Capture(s: string, open: string, close: string, from: nat): (m: Option<(nat, nat)>)
    ensures m.Some? ==> from + |open| <= m.value.0 <= m.value.1 <= |s|
    decreases |s| + 1 - from
  {
    if from > |s| then None
    else match Between(s, open, close, from)
      case None => None
      case Some((c, j)) =>
        if NoBreak(s[c..j]) then Some((c, j))
        else Capture(s, open, close, c - |open| + 1)
  }

  /** The text between `c` and `j` is preceded by an opening tag and
      followed by a closing tag, with no closing tag inside. */
  predicate Encloses(s: string, open: string, close: string, c: nat, j: nat)
  {
    && OccursAt(s, open, c - |open|)
    && OccursAt(s, close, j)
    && forall k :: c <= k < j ==> !OccursAt(s, close, k)
  }

  /** A match of `open([\s\S]*?)close` is delimited by the two tags, with
      no closing tag inside. */
  lemma BetweenSpec(s: string, open: string, close: string, from: nat)
    ensures var m := Between(s, open, close, from);
      m.Some? ==> Encloses(s, open, close, m.value.0, m.value.1)
  {
    BetweenFirst(s, open, close, from);
    FirstFromSpec(s, open, from);
    var i := FirstFrom(s, open, from);
    if i.Some? {
      FirstFromSpec(s, close, i.value + |open|);
    }
  }

  /** The text between `c` and `j` lies between an opening and a closing
      tag, with no line break inside. */
  predicate Delimits(s: string, open: string, close: string, c: nat, j: nat)
    requires c <= j <= |s|
  {
    Encloses(s, open, close, c, j) && NoBreak(s[c..j])
  }

  /** A match of `open(.*?)close` is delimited by the two tags, with no
      closing tag and no line break inside. */
  lemma {:induction false} CaptureSpec(s: string, open: string, close: string, from: nat)
    ensures var m := Capture(s, open, close, from);
      m.Some? ==> Delimits(s, open, close, m.value.0, m.value.1)
    decreases |s| + 1 - from
  {
    if Capture(s, open, close, from).Some? {
      var next := CaptureStep(s, open, close, from);
      if next.Some? {
        CaptureSpec(s, open, close, next.value);
      }
    }
  }

  /** One step of the search: either the match is found at `from`, or the
      search carries on from a later position with the same result. */
  lemma CaptureStep(s: string, open: string, close: string, from: nat) returns (next: Option<nat>)
    requires Capture(s, open, close, from).Some?
    ensures var m := Capture(s, open, close, from).value;
      next.None? ==> Delimits(s, open, close, m.0, m.1)
    ensures next.Some? ==> from < next.value && Capture(s, open, close, from) == Capture(s, open, close, next.value)
  {
    var c := Between(s, open, close, from).value.0;
    var j := Between(s, open, close, from).value.1;
    if NoBreak(s[c..j]) {
      CaptureFound(s, open, close, from, c, j);
      next := None;
    } else {
      CaptureSkips(s, open, close, from, c, j);
      next := Some(c - |open| + 1);
    }
  }

  /** An opening tag whose nearest closing tag comes before any line break
      is the match. */
  lemma CaptureFound(s: string, open: string, close: string, from: nat, c: nat, j: nat)
    requires from <= |s| && Between(s, open, close, from) == Some((c, j))
    requires j <= |s| && NoBreak(s[c..j])
    ensures Capture(s, open, close, from) == Some((c, j))
    ensures Delimits(s, open, close, c, j)
  {
    BetweenSpec(s, open, close, from);
  }

  /** An opening tag whose nearest closing tag lies beyond a line break is
      skipped, and the search resumes just after its first character. */
  lemma CaptureSkips(s: string, open: string, close: string, from: nat, c: nat, j: nat)
    requires from <= |s| && Between(s, open, close, from) == Some((c, j))
    requires c <= j <= |s| && !NoBreak(s[c..j])
    ensures c >= from + |open|
    ensures Capture(s, open, close, from) == Capture(s, open, close, c - |open| + 1)
  {
  }

  /** Without an opening tag at or after `from` there is no match. */
  lemma CaptureNone(s: string, open: string, close: string, from: nat)
    requires forall k :: from <= k ==> !OccursAt(s, open, k)
    ensures Capture(s, open, close, from).None?
  {
    BetweenFirst(s, open, close, from);
    FirstFromSpec(s, open, from);
  }

  /** `(s.match(re) || [])[1] || ''` for `re` = `open(.*?)close`. */
  function Group(s: string, open: string, close: string): string
  {
    match Capture(s, open, close, 0)
    case None => ""
    case Some((c, j)) => s[c..j]
  }

  /** When the opening tag first occurs at `i` and the closing tag first
      occurs after it at `j`, the match of `open([\s\S]*?)close` is the
      text between them. */
  lemma BetweenAt(s: string, open: string, close: string, from: nat, i: nat, j: nat)
    requires from <= i && OccursAt(s, open, i)
    requires forall k :: from <= k < i ==> !OccursAt(s, open, k)
    requires i + |open| <= j && OccursAt(s, close, j)
    requires forall k :: i + |open| <= k < j ==> !OccursAt(s, close, k)
    ensures Between(s, open, close, from) == Some((i + |open|, j))
  {
    BetweenFirst(s, open, close, from);
    FirstAt(s, open, from, i);
    FirstAt(s, close, i + |open|, j);
  }

  /** With, in addition, no line break between, so is the match of
      `open(.*?)close`. */
  lemma CaptureAt(s: string, open: string, close: string, from: nat, i: nat, j: nat)
    requires from <= i && OccursAt(s, open, i)
    requires forall k :: from <= k < i ==> !OccursAt(s, open, k)
    requires i + |open| <= j && OccursAt(s, close, j)
    requires forall k :: i + |open| <= k < j ==> !OccursAt(s, close, k)
    requires NoBreak(s[i + |open|..j])
    ensures Capture(s, open, close, from) == Some((i + |open|, j))
  {
    BetweenAt(s, open, close, from, i, j);
  }

  lemma FirstAt(s: string, sub: string, from: nat, i: nat)
    requires from <= i && OccursAt(s, sub, i)
    requires forall k :: from <= k < i ==> !OccursAt(s, sub, k)
    ensures FirstFrom(s, sub, from) == Some(i)
  {
    FirstFromSpec(s, sub, from);
  }

  // ---- Items ----

  datatype Item = Item(title: string, link: string, pubDate: string)

  /** The fields of one item: the title in a CDATA section if there is one,
      otherwise the plain title; then the link and the date. */
  function ParseItem(x: string): Item
  {
    var cdata := Capture(x, "<title><![CDATA[", "]]></title>", 0);
    var title := if cdata.Some? then x[cdata.value.0..cdata.value.1] else Group(x, "<title>", "</title>");
    Item(title, Group(x, "<link>", "</link>"), Group(x, "<pubDate>", "</pubDate>"))
  }

  /** The texts captured by the global expression `open([\s\S]*?)close`,
      at most `limit` of them. Each search resumes after the previous
      closing tag; a match found from there in the whole text is the match
      found in the rest of the text, so the rest is what is searched. */
  function Blocks(xml: string, open: string, close: string, limit: nat): (blocks: seq<string>)
    ensures |blocks| <= limit
    decreases limit
  {
    if limit == 0 then []
    else match Between(xml, open, close, 0)
      case None => []
      case Some((c, j)) => [xml[c..j]] + Blocks(xml[j + |close|..], open, close, limit - 1)
  }

  /** The items the proxy returns: the first two blocks, parsed. */
  function Items(xml: string): (items: seq<Item>)
    ensures |items| <= 2
  {
    var blocks := Blocks(xml, "<item>", "</item>", 2);
    seq(|blocks|, i requires 0 <= i < |blocks| => ParseItem(blocks[i]))
  }

  // ---- Feeds built from items ----

  /** A field a feed can carry verbatim: no markup and no line break. */
  predicate IsPlain(s: string) {
    '<' !in s && NoBreak(s)
  }

  predicate IsPlainItem(it: Item) {
    IsPlain(it.title) && IsPlain(it.link) && IsPlain(it.pubDate)
  }

  function ItemXml(it: Item): string
  {
    "<title>" + it.title + "</title><link>" + it.link + "</link><pubDate>" + it.pubDate + "</pubDate>"
  }

  /** `sub`, which starts with `<`, cannot start at any position of
      `[from, to)` that does not hold `<` followed by the second character
      of `sub`. */
  lemma NoTagIn(s: string, sub: string, from: nat, to: nat)
    requires |sub| >= 2 && sub[0] == '<'
    requires forall k :: from <= k < to && k + 1 < |s| ==> s[k] != '<' || s[k + 1] != sub[1]
    ensures forall k :: from <= k < to ==> !OccursAt(s, sub, k)
  {
    forall k | from <= k < to ensures !OccursAt(s, sub, k) {
      if k + |sub| <= |s| {
        assert s[k..k + |sub|][0] == s[k] && s[k..k + |sub|][1] == s[k + 1];
      }
    }
  }

  /** In `pre + field + post`, where `field` has no `<`, the only `<` near
      the field are those of `pre` and `post`. */
  lemma FieldHasNoTag(s: string, start: nat, field: string)
    requires start + |field| <= |s| && s[start..start + |field|] == field && '<' !in field
    ensures forall k :: start <= k < start + |field| ==> s[k] != '<'
  {
    forall k | start <= k < start + |field| ensures s[k] != '<' {
      assert s[k] == field[k - start];
    }
  }

  /** Where the tags of `ItemXml(it)` sit: the title starts at 7, `</title>`
      at `a`, `<link>` at `a + 8`, `</link>` at `c`, `<pubDate>` at `c + 7`
      and `</pubDate>` at `f`; these are the only places holding `<`. */
  predicate Layout(x: string, t: string, l: string, d: string)
  {
    var a := 7 + |t|;
    var c := a + 14 + |l|;
    var f := c + 16 + |d|;
    && |x| == f + 10
    && x[7..a] == t && x[a + 14..c] == l && x[c + 16..f] == d
    && x[0] == '<' && x[1] == 't'
    && x[a] == '<' && x[a + 1] == '/' && x[a + 2] == 't'
    && x[a + 8] == '<' && x[a + 9] == 'l'
    && x[c] == '<' && x[c + 1] == '/' && x[c + 2] == 'l'
    && x[c + 7] == '<' && x[c + 8] == 'p'
    && x[f] == '<' && x[f + 1] == '/' && x[f + 2] == 'p'
    && forall k :: 0 <= k < |x| && x[k] == '<' ==> k in {0, a, a + 8, c, c + 7, f}
  }

  /** `x` cut at the tags of an item with fields `t`, `l` and `d`. */
  predicate Pieces(x: string, t: string, l: string, d: string)
  {
    var a := 7 + |t|;
    var c := a + 14 + |l|;
    var f := c + 16 + |d|;
    && |x| == f + 10
    && x[..7] == "<title>" && x[7..a] == t
    && x[a..a + 14] == "</title><link>" && x[a + 14..c] == l
    && x[c..c + 16] == "</link><pubDate>" && x[c + 16..f] == d
    && x[f..] == "</pubDate>"
  }

  lemma ItemPieces(it: Item)
    ensures Pieces(ItemXml(it), it.title, it.link, it.pubDate)
  {
  }

  lemma ItemLayout(it: Item)
    requires IsPlainItem(it)
    ensures Layout(ItemXml(it), it.title, it.link, it.pubDate)
  {
    ItemPieces(it);
    PiecesLayout(ItemXml(it), it.title, it.link, it.pubDate);
  }

  lemma PiecesLayout(x: string, t: string, l: string, d: string)
    requires Pieces(x, t, l, d) && '<' !in t && '<' !in l && '<' !in d
    ensures Layout(x, t, l, d)
  {
    var a := 7 + |t|;
    var c := a + 14 + |l|;
    var f := c + 16 + |d|;
    assert x[..7][0] == x[0] && x[..7][1] == x[1];
    assert x[a..a + 14][0] == x[a] && x[a..a + 14][1] == x[a + 1] && x[a..a + 14][2] == x[a + 2];
    assert x[a..a + 14][8] == x[a + 8] && x[a..a + 14][9] == x[a + 9];
    assert x[c..c + 16][0] == x[c] && x[c..c + 16][1] == x[c + 1] && x[c..c + 16][2] == x[c + 2];
    assert x[c..c + 16][7] == x[c + 7] && x[c..c + 16][8] == x[c + 8];
    assert x[f..][0] == x[f] && x[f..][1] == x[f + 1] && x[f..][2] == x[f + 2];
    PiecesTags(x, t, l, d);
  }

  lemma PiecesTags(x: string, t: string, l: string, d: string)
    requires Pieces(x, t, l, d) && '<' !in t && '<' !in l && '<' !in d
    ensures var a := 7 + |t|;
      var c := a + 14 + |l|;
      var f := c + 16 + |d|;
      forall k :: 0 <= k < |x| && x[k] == '<' ==> k in {0, a, a + 8, c, c + 7, f}
  {
    var a := 7 + |t|;
    var c := a + 14 + |l|;
    var f := c + 16 + |d|;
    FieldHasNoTag(x, 7, t);
    FieldHasNoTag(x, a + 14, l);
    FieldHasNoTag(x, c + 16, d);
    forall k | 0 <= k < |x| && x[k] == '<' ensures k in {0, a, a + 8, c, c + 7, f} {
      if k < 7 {
        assert x[k] == x[..7][k];
      } else if a <= k < a + 14 {
        assert x[k] == x[a..a + 14][k - a];
      } else if c <= k < c + 16 {
        assert x[k] == x[c..c + 16][k - c];
      } else if f <= k {
        assert x[k] == x[f..][k - f];
      }
    }
  }

  /** An item written from fields has no CDATA title. */
  lemma NoCdataIn(x: string, t: string, l: string, d: string)
    requires Layout(x, t, l, d)
    ensures Capture(x, "<title><![CDATA[", "]]></title>", 0).None?
  {
    var cdata := "<title><![CDATA[";
    NoTagIn(x, cdata, 1, |x|);
    assert !OccursAt(x, cdata, 0) by {
      if |t| > 0 { assert x[7] == t[0]; } else { assert x[8] == '/'; }
    }
    assert forall k :: 0 <= k ==> !OccursAt(x, cdata, k) by {
      forall k | 0 <= k ensures !OccursAt(x, cdata, k) {
        if k == 0 {
        } else if k < |x| {
        }
      }
    }
    CaptureNone(x, cdata, "]]></title>", 0);
  }

  lemma TitleIn(x: string, t: string, l: string, d: string)
    requires Pieces(x, t, l, d) && Layout(x, t, l, d) && NoBreak(t)
    ensures Group(x, "<title>", "</title>") == t
  {
    var a := 7 + |t|;
    NoTagIn(x, "</title>", 7, a);
    assert x[0..7] == "<title>";
    assert x[a..a + 8] == x[a..a + 14][..8] == "</title>";
    CaptureAt(x, "<title>", "</title>", 0, 0, a);
  }

  lemma LinkIn(x: string, t: string, l: string, d: string)
    requires Pieces(x, t, l, d) && Layout(x, t, l, d) && NoBreak(l)
    ensures Group(x, "<link>", "</link>") == l
  {
    var b := 7 + |t| + 8;
    var c := b + 6 + |l|;
    NoTagIn(x, "<link>", 0, b);
    NoTagIn(x, "</link>", b + 6, c);
    var open := x[b - 8..b + 6];
    assert open == "</title><link>";
    assert x[b..b + 6] == open[8..] == "<link>";
    var close := x[c..c + 16];
    assert close == "</link><pubDate>";
    assert x[c..c + 7] == close[..7] == "</link>";
    CaptureAt(x, "<link>", "</link>", 0, b, c);
  }

  lemma DateIn(x: string, t: string, l: string, d: string)
    requires Pieces(x, t, l, d) && Layout(x, t, l, d) && NoBreak(d)
    ensures Group(x, "<pubDate>", "</pubDate>") == d
  {
    var c := 7 + |t| + 14 + |l|;
    var e := c + 7;
    var f := e + 9 + |d|;
    NoTagIn(x, "<pubDate>", 0, e);
    NoTagIn(x, "</pubDate>", e + 9, f);
    var tags := x[c..c + 16];
    assert tags == "</link><pubDate>";
    assert tags[7..] == "<pubDate>";
    assert x[e..e + 9] == tags[7..];
    assert x[f..f + 10] == x[f..] == "</pubDate>";
    CaptureAt(x, "<pubDate>", "</pubDate>", 0, e, f);
  }

  /** An item written with plain fields reads back as the same item. */
  lemma ParseItemXml(it: Item)
    requires IsPlainItem(it)
    ensures ParseItem(ItemXml(it)) == it
  {
    var x := ItemXml(it);
    ItemPieces(it);
    ItemLayout(it);
    NoCdataIn(x, it.title, it.link, it.pubDate);
    TitleIn(x, it.title, it.link, it.pubDate);
    LinkIn(x, it.title, it.link, it.pubDate);
    DateIn(x, it.title, it.link, it.pubDate);
  }

  /** `x` followed by `close` first holds `close` at the end of `x`. */
  predicate ClosesAtEnd(x: string, close: string)
  {
    forall k :: 0 <= k < |x| ==> !OccursAt(x + close, close, k)
  }

  /** An item written with plain fields holds no `</item>`. */
  lemma ItemClosesAtEnd(it: Item)
    requires IsPlainItem(it)
    ensures ClosesAtEnd(ItemXml(it), "</item>")
  {
    ItemPieces(it);
    ItemLayout(it);
    LayoutClosesAtEnd(ItemXml(it), it.title, it.link, it.pubDate);
  }

  lemma LayoutClosesAtEnd(x: string, t: string, l: string, d: string)
    requires Layout(x, t, l, d)
    ensures ClosesAtEnd(x, "</item>")
  {
    var y := x + "</item>";
    var a := 7 + |t|;
    var c := a + 14 + |l|;
    var f := c + 16 + |d|;
    assert "</item>"[0] == '<' && "</item>"[1] == '/' && "</item>"[2] == 'i';
    forall k | 0 <= k < |x| ensures !OccursAt(y, "</item>", k) {
      if k + 7 <= |y| {
        assert y[k..k + 7][0] == x[k];
        if x[k] == '<' {
          assert k in {0, a, a + 8, c, c + 7, f};
          assert k + 2 < |x|;
          assert y[k..k + 7][1] == x[k + 1] && y[k..k + 7][2] == x[k + 2];
        }
      }
    }
  }

  /** Where `s` holds `y` from `off`, an occurrence inside that stretch is
      an occurrence in `y`. */
  lemma OccursShift(s: string, off: nat, y: string, sub: string, k: nat)
    requires off + |y| <= |s| && s[off..off + |y|] == y
    requires off <= k && k + |sub| <= off + |y|
    ensures OccursAt(s, sub, k) == OccursAt(y, sub, k - off)
  {
    var a, b := s[k..k + |sub|], y[k - off..k - off + |sub|];
    forall m | 0 <= m < |sub| ensures a[m] == b[m] {
      assert y[k - off + m] == s[off..off + |y|][k - off + m];
    }
    assert a == b;
  }

  /** The texts, each between the two tags. */
  function Wrap(open: string, close: string, texts: seq<string>): string
  {
    if |texts| == 0 then "" else open + texts[0] + close + Wrap(open, close, texts[1..])
  }

  /** The blocks of wrapped texts are the texts, as many as the limit
      allows, provided the opening tag is not empty and no text holds the
      closing tag. */
  lemma {:induction false} WrapBlocks(open: string, close: string, texts: seq<string>, n: nat)
    requires |open| > 0
    requires forall i :: 0 <= i < |texts| ==> ClosesAtEnd(texts[i], close)
    ensures Blocks(Wrap(open, close, texts), open, close, n) == texts[..if n < |texts| then n else |texts|]
    decreases n
  {
    if n > 0 && |texts| > 0 {
      var x, w := texts[0], Wrap(open, close, texts[1..]);
      assert Wrap(open, close, texts) == open + x + close + w;
      BlocksStep(open, x, close, w, n);
      WrapBlocks(open, close, texts[1..], n - 1);
      PrefixStep(texts, n);
    }
  }

  /** The first block of `open + x + close + w` is `x`; the rest are those of `w`. */
  lemma BlocksStep(open: string, x: string, close: string, w: string, n: nat)
    requires ClosesAtEnd(x, close) && n > 0
    ensures Blocks(open + x + close + w, open, close, n) == [x] + Blocks(w, open, close, n - 1)
  {
    var s := open + x + close + w;
    BlockHead(s, open, x, close, w);
    BlocksAt(s, open, close, n, |open|, |open| + |x|, x, w);
  }

  /** Unfolding `Blocks` at a known first match. */
  lemma BlocksAt(s: string, open: string, close: string, n: nat, c: nat, j: nat, x: string, w: string)
    requires n > 0 && Between(s, open, close, 0) == Some((c, j))
    requires s[c..j] == x && s[j + |close|..] == w
    ensures Blocks(s, open, close, n) == [x] + Blocks(w, open, close, n - 1)
  {
  }

  lemma PrefixStep<T>(xs: seq<T>, n: nat)
    requires n > 0 && |xs| > 0
    ensures xs[..if n < |xs| then n else |xs|]
         == [xs[0]] + xs[1..][..if n - 1 < |xs[1..]| then n - 1 else |xs[1..]|]
  {
  }

  /** The first block of `open + x + close + w` is `x`, and what follows it is `w`. */
  lemma BlockHead(s: string, open: string, x: string, close: string, w: string)
    requires s == open + x + close + w && ClosesAtEnd(x, close)
    ensures s[|open|..|open| + |x|] == x && s[|open| + |x| + |close|..] == w
    ensures Between(s, open, close, 0) == Some((|open|, |open| + |x|))
  {
    var j := |open| + |x|;
    Parts(open, x, close, w);
    assert s[|open|..j + |close|] == x + close;
    forall k | |open| <= k < j ensures !OccursAt(s, close, k) {
      OccursShift(s, |open|, x + close, close, k);
    }
    BetweenAt(s, open, close, 0, 0, j);
  }

  /** The pieces of `a + b + c + d`. */
  lemma Parts(a: string, b: string, c: string, d: string)
    ensures var s := a + b + c + d;
      && s[..|a|] == a && s[|a|..|a| + |b|] == b
      && s[|a| + |b|..|a| + |b| + |c|] == c && s[|a| + |b| + |c|..] == d
      && s[|a|..|a| + |b| + |c|] == b + c
  {
  }

  /** A feed written from items. */
  function FeedXml(items: seq<Item>): string
  {
    Wrap("<item>", "</item>", seq(|items|, i requires 0 <= i < |items| => ItemXml(items[i])))
  }

  /** A feed written from plain items gives back its first two items. */
  lemma FeedRoundTrip(items: seq<Item>)
    requires forall i :: 0 <= i < |items| ==> IsPlainItem(items[i])
    ensures Items(FeedXml(items)) == items[..if 2 < |items| then 2 else |items|]
  {
    var texts := seq(|items|, i requires 0 <= i < |items| => ItemXml(items[i]));
    forall i | 0 <= i < |items| ensures ClosesAtEnd(texts[i], "</item>") {
      ItemClosesAtEnd(items[i]);
    }
    WrapBlocks("<item>", "</item>", texts, 2);
    var k := if 2 < |items| then 2 else |items|;
    forall i | 0 <= i < k ensures ParseItem(texts[i]) == items[i] {
      ParseItemXml(items[i]);
    }
  }

  // ---- The proxy ----

  /** The feeds the proxy serves, by key. */
  const Feeds: map<string, string> := map[
    "aixleaders" := "https://aixleaders.substack.com/feed",
    "uglytruth" := "https://nashsuglytruth.substack.com/feed"]

  /** `url.searchParams.get('feed')` used as a property key: a missing
      parameter is `null`, which becomes the key `"null"`. */
  function FeedKey(req: Request): string
  {
    if "feed" in req.query then req.query["feed"] else "null"
  }

  const RssHeaders: map<string, string> := map[
    "content-type" := "application/json",
    "access-control-allow-origin" := "*",
    "cache-control" := "public, max-age=3600"]

  function ItemJson(it: Item): Json
  {
    JObj(map["title" := JStr(it.title), "link" := JStr(it.link), "pubDate" := JStr(it.pubDate)])
  }

  function ItemsJson(items: seq<Item>): (j: Json)
    ensures j.JArr? && |j.items| == |items|
  {
    JArr(seq(|items|, i requires 0 <= i < |items| => ItemJson(items[i])))
  }

  /** `handleRSS`: an unknown feed is refused with 400, a failed fetch is
      reported with its message and 500, and a fetched feed gives the
      items of its first two `<item>` blocks, cacheable for an hour. */
  function HandleRss(rt: Runtime, req: Request): (r: Response)
    ensures FeedKey(req) !in Feeds <==> r == ErrorResponse("Feed inconnu", 400)
    ensures FeedKey(req) in Feeds && rt.fetchText(Feeds[FeedKey(req)]).FetchFailed? ==>
      r == ErrorResponse(rt.fetchText(Feeds[FeedKey(req)]).message, 500)
    ensures r.status == 200 <==> FeedKey(req) in Feeds && rt.fetchText(Feeds[FeedKey(req)]).FetchedText?
    ensures r.status == 200 ==>
      && r.headers == RssHeaders && r.body.JsonBody? && r.body.data.JObj?
      && r.body.data.fields.Keys == {"items"} && r.body.data.fields["items"].JArr?
      && |r.body.data.fields["items"].items| <= 2
  {
    var key := FeedKey(req);
    if key !in Feeds then ErrorResponse("Feed inconnu", 400)
    else match rt.fetchText(Feeds[key])
      case FetchFailed(message) => ErrorResponse(message, 500)
      case FetchedText(xml) =>
        Response(200, "", RssHeaders, JsonBody(JObj(map["items" := ItemsJson(Items(xml))])))
  }

  /** When a known feed returns a feed written from plain items, the proxy
      answers with the first two of those items. */
  lemma ProxyRoundTrip(rt: Runtime, req: Request, items: seq<Item>)
    requires FeedKey(req) in Feeds && rt.fetchText(Feeds[FeedKey(req)]) == FetchedText(FeedXml(items))
    requires forall i :: 0 <= i < |items| ==> IsPlainItem(items[i])
    ensures HandleRss(rt, req).status == 200
    ensures HandleRss(rt, req).body == JsonBody(JObj(map["items" := ItemsJson(items[..if 2 < |items| then 2 else |items|])]))
  {
    FeedRoundTrip(items);
  }
}

=== FILE: ssr.dfy ===
/** Server-side content injection of ssr.js. A page is the list of
    elements the rewriter hands to the marker handlers; the handlers
    splice values from the merged shared/page content into the element
    named by a marker attribute. */
module Ssr {
  import opened Common
  import opened Js
  import opened Http
  import opened Platform
  import ContentApi

  // ---- getPageId ----

  function StripLeadingSlash(p: string): string { if |p| > 0 && p[0] == '/' then p[1..] else p }
  function StripHtml(p: string): string { if EndsWith(p, ".html") then p[..|p| - 5] else p }
  function StripTrailingSlash(p: string): string { if |p| > 0 && p[|p| - 1] == '/' then p[..|p| - 1] else p }

  /** `getPageId`: drop one leading slash, then a `.html` suffix, then one
      trailing slash; the root and `index` name the `index` page. */
  function PageIdOf(path: string): (id: string)
    ensures id != ""
    ensures path in {"", "/", "/index", "/index.html", "/index/"} ==> id == "index"
  {
    var id := StripTrailingSlash(StripHtml(StripLeadingSlash(path)));
    if id == "" || id == "index" then "index" else id
  }

  /** The three spellings of a page's address all name that page. */
  lemma PageIdOfSpellings(id: string)
    requires id != "" && id[|id| - 1] != '/' && !EndsWith(id, ".html")
    ensures PageIdOf("/" + id) == id
    ensures PageIdOf("/" + id + ".html") == id
    ensures PageIdOf("/" + id + "/") == id
  {
    assert ("/" + id)[1..] == id;
    assert ("/" + id + ".html")[1..] == id + ".html";
    assert (id + ".html")[..|id|] == id;
    assert ("/" + id + "/")[1..] == id + "/";
    assert (id + "/")[..|id|] == id;
    assert !EndsWith(id + "/", ".html") by {
      assert (id + "/")[|id|] == '/';
    }
  }

  /** The `.html` suffix is removed before the trailing slash, so an
      address ending in `.html/` keeps its `.html`. */
  lemma HtmlStrippedBeforeSlash(id: string)
    ensures PageIdOf("/" + id + ".html/") == id + ".html"
  {
    var p := "/" + id + ".html/";
    assert p[1..] == id + ".html/";
    assert !EndsWith(id + ".html/", ".html") by {
      assert (id + ".html/")[|id| + 5] == '/';
    }
    assert (id + ".html/")[..|id| + 5] == id + ".html";
    assert (id + ".html")[|id|] == '.';
  }

  // ---- Merging the two content scopes ----

  /** The own properties an array-like value spreads: its index, written
      in decimal, names each element. */
  function IndexFields(items: seq<Json>): (m: map<string, Json>)
    ensures forall i :: 0 <= i < |items| ==> Decimal(i) in m && m[Decimal(i)] == items[i]
    ensures forall k :: k in m ==> IsDigits(k) && DigitsValue(k) < |items| && k == Decimal(DigitsValue(k))
  {
    DecimalsRoundTrip(|items|);
    map i | 0 <= i < |items| :: Decimal(i) := items[i]
  }

  lemma DecimalsRoundTrip(n: nat)
    ensures forall i :: 0 <= i < n ==> DigitsValue(Decimal(i)) == i
  {
    forall i | 0 <= i < n
      ensures DigitsValue(Decimal(i)) == i
    {
      DecimalRoundTrip(i);
    }
  }

  /** A string spreads one single-character string per position. */
  function CharItems(s: string): (items: seq<Json>)
    ensures |items| == |s|
    ensures forall i :: 0 <= i < |s| ==> items[i] == JStr([s[i]])
  {
    seq(|s|, i requires 0 <= i < |s| => JStr([s[i]]))
  }

  /** `x || {}` spread into an object: nothing for a falsy value, the
      fields of an object, the indexed elements of an array or characters
      of a string, and nothing for a number or boolean. */
  function Fields(r: ContentApi.Read): (m: map<string, Json>)
    ensures !ContentApi.ReadTruthy(r) ==> m == map[]
    ensures ContentApi.ReadTruthy(r) && r.doc.JObj? ==> m == r.doc.fields
    ensures ContentApi.ReadTruthy(r) && r.doc.JArr? ==>
      forall i :: 0 <= i < |r.doc.items| ==> Decimal(i) in m && m[Decimal(i)] == r.doc.items[i]
    ensures ContentApi.ReadTruthy(r) && r.doc.JStr? ==>
      forall i :: 0 <= i < |r.doc.s| ==> Decimal(i) in m && m[Decimal(i)] == JStr([r.doc.s[i]])
    ensures ContentApi.ReadTruthy(r) && (r.doc.JArr? || r.doc.JStr?) ==> forall k :: k in m ==> IsDigits(k)
    ensures ContentApi.ReadTruthy(r) && (r.doc.JNum? || r.doc.JBool?) ==> m == map[]
  {
    if !ContentApi.ReadTruthy(r) then map[]
    else match r.doc
      case JObj(fields) => fields
      case JArr(items) => IndexFields(items)
      case JStr(s) => IndexFields(CharItems(s))
      case _ => map[]
  }

  /** `{ ...shared, ...page }`: every key of both, the page's value winning. */
  function Merge(shared: map<string, Json>, page: map<string, Json>): (m: map<string, Json>)
    ensures m.Keys == shared.Keys + page.Keys
    ensures forall k :: k in page ==> m[k] == page[k]
    ensures forall k :: k in shared && k !in page ==> m[k] == shared[k]
  {
    shared + page
  }

  // ---- The marker handlers ----

  /** The text a handler writes for marker `marker`: present only when the
      element carries the marker with a non-empty key that the content maps. */
  function MappedValue(content: map<string, Json>, e: Element, marker: string): Option<string>
  {
    if marker in e.attrs && e.attrs[marker] != "" && e.attrs[marker] in content
    then Some(ToJsString(content[e.attrs[marker]]))
    else None
  }

  function SetAttr(e: Element, name: string, v: Option<string>): Element
  {
    match v
    case Some(s) => e.(attrs := e.attrs[name := s])
    case None => e
  }

  /** `CmsTextHandler.element`: inner content from `data-cms`. */
  function TextHandler(content: map<string, Json>, e: Element): (r: Element)
    ensures r.attrs == e.attrs
    ensures MappedValue(content, e, "data-cms").None? ==> r == e
  {
    match MappedValue(content, e, "data-cms")
    case Some(s) => e.(inner := s)
    case None => e
  }

  /** `CmsLinkHandler.element`: `href` from `data-cms-href`. */
  function LinkHandler(content: map<string, Json>, e: Element): (r: Element)
    ensures r.inner == e.inner && SameMarkers(content, e, r)
    ensures r.attrs == Upd(e.attrs, "href", MappedValue(content, e, "data-cms-href"))
  {
    SetTargetKeepsMarkers(content, e, "href", MappedValue(content, e, "data-cms-href"));
    SetAttr(e, "href", MappedValue(content, e, "data-cms-href"))
  }

  /** `CmsImageHandler.element`: `src` from `data-cms-src`, then `alt` from `data-cms-alt`. */
  function ImageHandler(content: map<string, Json>, e: Element): Element
  {
    var e1 := SetAttr(e, "src", MappedValue(content, e, "data-cms-src"));
    SetAttr(e1, "alt", MappedValue(content, e1, "data-cms-alt"))
  }

  /** `CmsMetaHandler.element`: `content` from `data-cms-content`. */
  function MetaHandler(content: map<string, Json>, e: Element): (r: Element)
    ensures r.inner == e.inner && SameMarkers(content, e, r)
    ensures r.attrs == Upd(e.attrs, "content", MappedValue(content, e, "data-cms-content"))
  {
    SetTargetKeepsMarkers(content, e, "content", MappedValue(content, e, "data-cms-content"));
    SetAttr(e, "content", MappedValue(content, e, "data-cms-content"))
  }

  /** The handlers run on an element in registration order, each only when
      its selector (presence of the marker attribute) matches; the image
      handler is registered for both `[data-cms-src]` and `[data-cms-alt]`. */
  function RewriteElement(content: map<string, Json>, e: Element): Element
  {
    var e1 := if "data-cms" in e.attrs then TextHandler(content, e) else e;
    var e2 := if "data-cms-href" in e1.attrs then LinkHandler(content, e1) else e1;
    var e3 := if "data-cms-src" in e2.attrs then ImageHandler(content, e2) else e2;
    var e4 := if "data-cms-alt" in e3.attrs then ImageHandler(content, e3) else e3;
    if "data-cms-content" in e4.attrs then MetaHandler(content, e4) else e4
  }

  function Rewrite(content: map<string, Json>, page: seq<Element>): (r: seq<Element>)
    ensures |r| == |page|
    ensures forall i :: 0 <= i < |page| ==> r[i] == RewriteElement(content, page[i])
  {
    seq(|page|, i requires 0 <= i < |page| => RewriteElement(content, page[i]))
  }

  /** The rewrite as a table: each attribute target and the marker that
      feeds it. */
  function MarkerOf(target: string): Option<string>
  {
    if target == "href" then Some("data-cms-href")
    else if target == "src" then Some("data-cms-src")
    else if target == "alt" then Some("data-cms-alt")
    else if target == "content" then Some("data-cms-content")
    else None
  }

  /** The text the table puts in attribute `a`, if any. */
  function TargetValue(content: map<string, Json>, e: Element, a: string): Option<string>
  {
    match MarkerOf(a)
    case Some(marker) => MappedValue(content, e, marker)
    case None => None
  }

  /** What a rewritten element should look like, attribute by attribute:
      a target whose marker is mapped holds the mapped text, every other
      attribute is as it was, and the inner content changes only for a
      mapped `data-cms`. */
  ghost predicate RewrittenAsSpecified(content: map<string, Json>, e: Element, r: Element)
  {
    && r.inner == (match MappedValue(content, e, "data-cms") case Some(s) => s case None => e.inner)
    && (forall a :: a in r.attrs <==> a in e.attrs || TargetValue(content, e, a).Some?)
    && (forall a :: a in r.attrs ==>
          r.attrs[a] == match TargetValue(content, e, a) case Some(v) => v case None => e.attrs[a])
  }

  function Upd(attrs: map<string, string>, name: string, v: Option<string>): map<string, string>
  {
    match v
    case Some(s) => attrs[name := s]
    case None => attrs
  }

  /** `e` and `f` agree on what every marker reads. */
  predicate SameMarkers(content: map<string, Json>, e: Element, f: Element)
  {
    && MappedValue(content, e, "data-cms") == MappedValue(content, f, "data-cms")
    && MappedValue(content, e, "data-cms-href") == MappedValue(content, f, "data-cms-href")
    && MappedValue(content, e, "data-cms-src") == MappedValue(content, f, "data-cms-src")
    && MappedValue(content, e, "data-cms-alt") == MappedValue(content, f, "data-cms-alt")
    && MappedValue(content, e, "data-cms-content") == MappedValue(content, f, "data-cms-content")
  }

  /** Setting a target attribute leaves what every marker reads unchanged. */
  lemma SetTargetKeepsMarkers(content: map<string, Json>, e: Element, name: string, v: Option<string>)
    requires MarkerOf(name).Some?
    ensures SameMarkers(content, e, SetAttr(e, name, v))
    ensures SetAttr(e, name, v).attrs == Upd(e.attrs, name, v)
  {
  }

  lemma ImageHandlerEffect(content: map<string, Json>, e: Element)
    ensures SameMarkers(content, e, ImageHandler(content, e))
    ensures ImageHandler(content, e).inner == e.inner
    ensures ImageHandler(content, e).attrs ==
      Upd(Upd(e.attrs, "src", MappedValue(content, e, "data-cms-src")), "alt", MappedValue(content, e, "data-cms-alt"))
  {
    var x := SetAttr(e, "src", MappedValue(content, e, "data-cms-src"));
    SetTargetKeepsMarkers(content, e, "src", MappedValue(content, e, "data-cms-src"));
    SetTargetKeepsMarkers(content, x, "alt", MappedValue(content, x, "data-cms-alt"));
  }

  lemma UpdAgain(m: map<string, string>, vs: Option<string>, va: Option<string>)
    ensures Upd(Upd(Upd(Upd(m, "src", vs), "alt", va), "src", vs), "alt", va) == Upd(Upd(m, "src", vs), "alt", va)
  {
  }

  /** The four target updates, each with the value its marker reads in `e`. */
  function TargetUpdates(content: map<string, Json>, e: Element): map<string, string>
  {
    UpdTargets(e.attrs, MappedValue(content, e, "data-cms-href"), MappedValue(content, e, "data-cms-src"),
      MappedValue(content, e, "data-cms-alt"), MappedValue(content, e, "data-cms-content"))
  }

  function UpdTargets(m: map<string, string>, vh: Option<string>, vs: Option<string>, va: Option<string>, vc: Option<string>): map<string, string>
  {
    Upd(Upd(Upd(Upd(m, "href", vh), "src", vs), "alt", va), "content", vc)
  }

  lemma UpdTargetsAgain(m: map<string, string>, vh: Option<string>, vs: Option<string>, va: Option<string>, vc: Option<string>)
    ensures UpdTargets(UpdTargets(m, vh, vs, va, vc), vh, vs, va, vc) == UpdTargets(m, vh, vs, va, vc)
  {
  }

  /** Updating the targets leaves what every marker reads unchanged. */
  lemma TargetUpdatesKeepMarkers(content: map<string, Json>, e: Element, f: Element)
    requires f.attrs == TargetUpdates(content, e)
    ensures SameMarkers(content, e, f)
  {
    var vh, vs, va, vc := MappedValue(content, e, "data-cms-href"), MappedValue(content, e, "data-cms-src"),
      MappedValue(content, e, "data-cms-alt"), MappedValue(content, e, "data-cms-content");
    var e1 := SetAttr(e, "href", vh);
    SetTargetKeepsMarkers(content, e, "href", vh);
    var e2 := SetAttr(e1, "src", vs);
    SetTargetKeepsMarkers(content, e1, "src", vs);
    var e3 := SetAttr(e2, "alt", va);
    SetTargetKeepsMarkers(content, e2, "alt", va);
    var e4 := SetAttr(e3, "content", vc);
    SetTargetKeepsMarkers(content, e3, "content", vc);
    assert SameMarkers(content, e4, f);
  }

  /** Each handler sets its targets from what the original element's
      markers read, so the pipeline is four independent updates. */
  lemma RewriteElementUpdates(content: map<string, Json>, e: Element)
    ensures RewriteElement(content, e).inner == (match MappedValue(content, e, "data-cms") case Some(s) => s case None => e.inner)
    ensures RewriteElement(content, e).attrs == TargetUpdates(content, e)
  {
    var vh, vs, va, vc := MappedValue(content, e, "data-cms-href"), MappedValue(content, e, "data-cms-src"),
      MappedValue(content, e, "data-cms-alt"), MappedValue(content, e, "data-cms-content");
    var e1 := if "data-cms" in e.attrs then TextHandler(content, e) else e;
    assert e1.attrs == e.attrs;
    assert SameMarkers(content, e, e1);
    var e2 := if "data-cms-href" in e1.attrs then LinkHandler(content, e1) else e1;
    assert e2 == SetAttr(e1, "href", vh);
    SetTargetKeepsMarkers(content, e1, "href", vh);
    var e3 := if "data-cms-src" in e2.attrs then ImageHandler(content, e2) else e2;
    var e4 := if "data-cms-alt" in e3.attrs then ImageHandler(content, e3) else e3;
    ImageHandlerEffect(content, e2);
    assert e4 == ImageHandler(content, e2) by {
      ImageHandlerIdempotent(content, e2);
    }
    SetTargetKeepsMarkers(content, e4, "content", vc);
  }

  /** The handler pipeline meets the table: each target changes exactly
      when its marker is non-empty and mapped, and nothing else changes. */
  lemma RewriteElementMeetsTable(content: map<string, Json>, e: Element)
    ensures RewrittenAsSpecified(content, e, RewriteElement(content, e))
  {
    RewriteElementUpdates(content, e);
    UpdatesMeetTable(content, e, RewriteElement(content, e));
  }

  lemma UpdatesMeetTable(content: map<string, Json>, e: Element, r: Element)
    requires r.inner == (match MappedValue(content, e, "data-cms") case Some(s) => s case None => e.inner)
    requires r.attrs == TargetUpdates(content, e)
    ensures RewrittenAsSpecified(content, e, r)
  {
    forall a
      ensures a in r.attrs <==> a in e.attrs || TargetValue(content, e, a).Some?
      ensures a in r.attrs ==> r.attrs[a] == match TargetValue(content, e, a) case Some(v) => v case None => e.attrs[a]
    {
      if a == "href" {
      } else if a == "src" {
      } else if a == "alt" {
      } else if a == "content" {
      } else {
        assert TargetValue(content, e, a).None?;
      }
    }
  }

  /** Applying the image handler twice gives what applying it once gives,
      so its double registration is harmless. */
  lemma ImageHandlerIdempotent(content: map<string, Json>, e: Element)
    ensures ImageHandler(content, ImageHandler(content, e)) == ImageHandler(content, e)
  {
    var once := ImageHandler(content, e);
    ImageHandlerEffect(content, e);
    ImageHandlerEffect(content, once);
    UpdAgain(e.attrs, MappedValue(content, e, "data-cms-src"), MappedValue(content, e, "data-cms-alt"));
  }

  /** Rewriting an already rewritten element changes nothing more. */
  lemma RewriteElementIdempotent(content: map<string, Json>, e: Element)
    ensures RewriteElement(content, RewriteElement(content, e)) == RewriteElement(content, e)
  {
    var r := RewriteElement(content, e);
    RewriteElementUpdates(content, e);
    RewriteElementUpdates(content, r);
    TargetUpdatesKeepMarkers(content, e, r);
    UpdTargetsAgain(e.attrs, MappedValue(content, e, "data-cms-href"), MappedValue(content, e, "data-cms-src"),
      MappedValue(content, e, "data-cms-alt"), MappedValue(content, e, "data-cms-content"));
  }

  /** Rewriting an already rewritten page changes nothing more. */
  lemma RewriteIdempotent(content: map<string, Json>, page: seq<Element>)
    ensures Rewrite(content, Rewrite(content, page)) == Rewrite(content, page)
  {
    forall i | 0 <= i < |page|
      ensures RewriteElement(content, RewriteElement(content, page[i])) == RewriteElement(content, page[i])
    {
      RewriteElementIdempotent(content, page[i]);
    }
  }

  // ---- injectContent ----

  datatype Injection = Injected(resp: Response) | Failed

  /** The header changes of a rewritten response: caching disabled, the
      strong validator dropped, and the diagnostic marker set. */
  function NoCacheHeaders(h: map<string, string>): (r: map<string, string>)
    ensures "cache-control" in r && r["cache-control"] == "no-cache, must-revalidate"
    ensures "x-cms-injected" in r && r["x-cms-injected"] == "true"
    ensures "etag" !in r
    ensures forall k :: k in h && k !in {"cache-control", "etag", "x-cms-injected"} ==> k in r && r[k] == h[k]
    ensures forall k :: k in r ==> k in h || k in {"cache-control", "x-cms-injected"}
  {
    (h["cache-control" := "no-cache, must-revalidate"] - {"etag"})["x-cms-injected" := "true"]
  }

  /** `injectContent`: read the page's and the shared content; with
      neither present the response is returned as it came, otherwise its
      elements are rewritten with the merged content and its headers get
      the no-cache treatment. A stored value that is not JSON makes the
      read throw. */
  function InjectContent(rt: Runtime, kv: ContentApi.Kv, path: string, resp: Response): (r: Injection)
    ensures var page := ContentApi.ReadJson(rt, kv, ContentApi.ContentKey(PageIdOf(path)));
      var shared := ContentApi.ReadJson(rt, kv, ContentApi.ContentKey("_shared"));
      && (r.Failed? <==> page.Unparseable? || shared.Unparseable?)
      && (r.Injected? && !ContentApi.ReadTruthy(page) && !ContentApi.ReadTruthy(shared) ==> r.resp == resp)
      && (r.Injected? && (ContentApi.ReadTruthy(page) || ContentApi.ReadTruthy(shared)) ==>
            && r.resp.status == resp.status && r.resp.statusText == resp.statusText
            && r.resp.headers == NoCacheHeaders(resp.headers)
            && (resp.body.HtmlBody? ==> r.resp.body == HtmlBody(Rewrite(Merge(Fields(shared), Fields(page)), resp.body.elements))))
  {
    var page := ContentApi.ReadJson(rt, kv, ContentApi.ContentKey(PageIdOf(path)));
    var shared := ContentApi.ReadJson(rt, kv, ContentApi.ContentKey("_shared"));
    if page.Unparseable? || shared.Unparseable? then Failed
    else if !ContentApi.ReadTruthy(page) && !ContentApi.ReadTruthy(shared) then Injected(resp)
    else
      var content := Merge(Fields(shared), Fields(page));
      var body := match resp.body
        case HtmlBody(elements) => HtmlBody(Rewrite(content, elements))
        case other => other;
      Injected(Response(resp.status, resp.statusText, NoCacheHeaders(resp.headers), body))
  }

  /** The cache headers, once set, are what setting them again gives. */
  lemma NoCacheHeadersIdempotent(h: map<string, string>)
    ensures NoCacheHeaders(NoCacheHeaders(h)) == NoCacheHeaders(h)
  {
  }

  /** Injecting into a response that was already injected changes nothing
      more: the elements are rewritten to the same values and the headers
      already carry the no-cache treatment. Inserted markup is held as
      text here; the rewriter would parse it on a second pass. */
  lemma InjectTwice(rt: Runtime, kv: ContentApi.Kv, path: string, resp: Response)
    requires InjectContent(rt, kv, path, resp).Injected?
    ensures InjectContent(rt, kv, path, InjectContent(rt, kv, path, resp).resp) == InjectContent(rt, kv, path, resp)
  {
    var page := ContentApi.ReadJson(rt, kv, ContentApi.ContentKey(PageIdOf(path)));
    var shared := ContentApi.ReadJson(rt, kv, ContentApi.ContentKey("_shared"));
    if ContentApi.ReadTruthy(page) || ContentApi.ReadTruthy(shared) {
      var content := Merge(Fields(shared), Fields(page));
      NoCacheHeadersIdempotent(resp.headers);
      if resp.body.HtmlBody? {
        RewriteIdempotent(content, resp.body.elements);
      }
    }
  }

  /** A page whose stored content is an array fills `data-cms="<i>"` with
      the text of its element `i`, whatever the shared content holds. */
  lemma ArrayContentByIndex(shared: ContentApi.Read, items: seq<Json>, e: Element, i: nat)
    requires i < |items| && "data-cms" in e.attrs && e.attrs["data-cms"] == Decimal(i)
    ensures RewriteElement(Merge(Fields(shared), Fields(ContentApi.Parsed(JArr(items)))), e).inner == ToJsString(items[i])
  {
    var content := Merge(Fields(shared), Fields(ContentApi.Parsed(JArr(items))));
    assert Decimal(i) in content && content[Decimal(i)] == items[i];
    RewriteElementUpdates(content, e);
  }
}

=== FILE: utf8.dfy ===
/** UTF-8 as `TextEncoder` writes it (section 3 of RFC 3629) and as
    `TextDecoder` reads it: the UTF-8 decoder of the WHATWG Encoding
    standard (section 8.1), which replaces every ill-formed subsequence by
    U+FFFD and drops a leading byte order mark. A `char` is a Unicode
    scalar value, so every string here is well formed. */
module Utf8 {
  import opened Common

  const Replacement: char := '\U{FFFD}'
  const ByteOrderMark: char := '\U{FEFF}'

  /** The bytes of one scalar value. */
  function EncodeChar(c: char): (b: seq<byte>)
    ensures 1 <= |b| <= 4
    ensures (|b| == 1) == (c as int < 0x80)
  {
    var v := c as int;
    var v1 := v / 64;
    var v2 := v1 / 64;
    if v < 0x80 then [v as byte]
    else if v < 0x800 then [(0xC0 + v1) as byte, (0x80 + v % 64) as byte]
    else if v < 0x10000 then [(0xE0 + v2) as byte, (0x80 + v1 % 64) as byte, (0x80 + v % 64) as byte]
    else [(0xF0 + v2 / 64) as byte, (0x80 + v2 % 64) as byte, (0x80 + v1 % 64) as byte, (0x80 + v % 64) as byte]
  }

  /** `new TextEncoder().encode(s)`. */
  function Encode(s: string): (b: seq<byte>)
    ensures |b| >= |s|
  {
    if |s| == 0 then [] else EncodeChar(s[0]) + Encode(s[1..])
  }

  /** The decoder's state: the code point so far, the continuation bytes
      seen and needed, and the range the next byte must fall in. */
  datatype Decoder = Decoder(cp: int, seen: nat, needed: nat, lower: int, upper: int)

  const Idle := Decoder(0, 0, 0, 0x80, 0xBF)

  /** `cp` as a character. The boundaries the decoder enforces keep every
      completed code point a scalar value; the fallback only satisfies
      the type. */
  function ScalarOr(cp: int): char
  {
    if 0 <= cp < 0xD800 || 0xE000 <= cp < 0x11_0000 then cp as char else Replacement
  }

  /** The decoder run over `bytes` from state `d`, flushing at the end. A
      byte outside the expected range ends the sequence in progress with
      U+FFFD and is read again from the idle state. */
  function Run(bytes: seq<byte>, d: Decoder): string
    decreases |bytes|, d.needed
  {
    if |bytes| == 0 then (if d.needed != 0 then [Replacement] else [])
    else
      var b := bytes[0] as int;
      if d.needed == 0 then
        if b <= 0x7F then [b as char] + Run(bytes[1..], Idle)
        else if 0xC2 <= b <= 0xDF then Run(bytes[1..], Decoder(b - 0xC0, 0, 1, 0x80, 0xBF))
        else if 0xE0 <= b <= 0xEF then
          Run(bytes[1..], Decoder(b - 0xE0, 0, 2, if b == 0xE0 then 0xA0 else 0x80, if b == 0xED then 0x9F else 0xBF))
        else if 0xF0 <= b <= 0xF4 then
          Run(bytes[1..], Decoder(b - 0xF0, 0, 3, if b == 0xF0 then 0x90 else 0x80, if b == 0xF4 then 0x8F else 0xBF))
        else [Replacement] + Run(bytes[1..], Idle)
      else if b < d.lower || d.upper < b then [Replacement] + Run(bytes, Idle)
      else
        var cp := d.cp * 64 + (b - 0x80);
        if d.seen + 1 < d.needed then Run(bytes[1..], Decoder(cp, d.seen + 1, d.needed, 0x80, 0xBF))
        else [ScalarOr(cp)] + Run(bytes[1..], Idle)
  }

  /** `new TextDecoder().decode(bytes)`: the decoder's output without a
      leading byte order mark. */
  function Decode(bytes: seq<byte>): string
  {
    var out := Run(bytes, Idle);
    if |out| > 0 && out[0] == ByteOrderMark then out[1..] else out
  }

  // ---- Decoding what was encoded ----

  lemma DecodeTwo(v: int, rest: seq<byte>)
    requires 0x80 <= v < 0x800
    ensures Run([(0xC0 + v / 64) as byte, (0x80 + v % 64) as byte] + rest, Idle) == [v as char] + Run(rest, Idle)
  {
    var bs := [(0xC0 + v / 64) as byte, (0x80 + v % 64) as byte] + rest;
    assert bs[1..] == [(0x80 + v % 64) as byte] + rest;
    assert bs[1..][1..] == rest;
    assert (v / 64) * 64 + v % 64 == v;
  }

  /** A lead byte that opens a sequence of `needed` continuation bytes. */
  lemma LeadStep(b: byte, rest: seq<byte>)
    requires 0xE0 <= b as int <= 0xF4
    ensures var v := b as int;
      Run([b] + rest, Idle)
      == if v <= 0xEF then Run(rest, Decoder(v - 0xE0, 0, 2, if v == 0xE0 then 0xA0 else 0x80, if v == 0xED then 0x9F else 0xBF))
         else Run(rest, Decoder(v - 0xF0, 0, 3, if v == 0xF0 then 0x90 else 0x80, if v == 0xF4 then 0x8F else 0xBF))
  {
    assert ([b] + rest)[1..] == rest;
  }

  /** A continuation byte in range that does not complete the sequence. */
  lemma ContinueStep(b: byte, rest: seq<byte>, d: Decoder)
    requires d.needed != 0 && d.lower <= b as int <= d.upper && d.seen + 1 < d.needed
    ensures Run([b] + rest, d) == Run(rest, Decoder(d.cp * 64 + (b as int - 0x80), d.seen + 1, d.needed, 0x80, 0xBF))
  {
    assert ([b] + rest)[1..] == rest;
  }

  /** The continuation byte that completes the sequence. */
  lemma FinishStep(b: byte, rest: seq<byte>, d: Decoder)
    requires d.needed != 0 && d.lower <= b as int <= d.upper && d.seen + 1 == d.needed
    ensures Run([b] + rest, d) == [ScalarOr(d.cp * 64 + (b as int - 0x80))] + Run(rest, Idle)
  {
    assert ([b] + rest)[1..] == rest;
  }

  /** Three bytes carrying the digits `d2 d1 d0` in base 64. */
  lemma DecodeThreeDigits(d2: int, d1: int, d0: int, rest: seq<byte>)
    requires 0 <= d2 < 16 && 0 <= d1 < 64 && 0 <= d0 < 64
    requires (d2 == 0 ==> d1 >= 32) && (d2 == 13 ==> d1 < 32)
    ensures Run([(0xE0 + d2) as byte, (0x80 + d1) as byte, (0x80 + d0) as byte] + rest, Idle)
      == [ScalarOr((d2 * 64 + d1) * 64 + d0)] + Run(rest, Idle)
  {
    var b0, b1, b2 := (0xE0 + d2) as byte, (0x80 + d1) as byte, (0x80 + d0) as byte;
    var t1 := [b1] + ([b2] + rest);
    assert [b0, b1, b2] + rest == [b0] + t1;
    var l := Decoder(d2, 0, 2, if d2 == 0 then 0xA0 else 0x80, if d2 == 13 then 0x9F else 0xBF);
    var m := Decoder(d2 * 64 + d1, 1, 2, 0x80, 0xBF);
    calc {
      Run([b0] + t1, Idle);
      { LeadStep(b0, t1); }
      Run(t1, l);
      { ContinueStep(b1, [b2] + rest, l); }
      Run([b2] + rest, m);
      { FinishStep(b2, rest, m); }
      [ScalarOr((d2 * 64 + d1) * 64 + d0)] + Run(rest, Idle);
    }
  }

  lemma DecodeThree(v: int, rest: seq<byte>)
    requires 0x800 <= v < 0x10000 && !(0xD800 <= v < 0xE000)
    ensures var v1 := v / 64;
      Run([(0xE0 + v1 / 64) as byte, (0x80 + v1 % 64) as byte, (0x80 + v % 64) as byte] + rest, Idle)
      == [v as char] + Run(rest, Idle)
  {
    var v1 := v / 64;
    var v2 := v1 / 64;
    assert 32 <= v1 < 1024;
    assert v2 == 0 ==> v1 % 64 >= 32;
    assert v2 == 13 ==> v1 % 64 < 32;
    assert (v2 * 64 + v1 % 64) * 64 + v % 64 == v;
    DecodeThreeDigits(v2, v1 % 64, v % 64, rest);
  }

  /** Four bytes carrying the digits `d3 d2 d1 d0` in base 64. */
  lemma DecodeFourDigits(d3: int, d2: int, d1: int, d0: int, rest: seq<byte>)
    requires 0 <= d3 <= 4 && 0 <= d2 < 64 && 0 <= d1 < 64 && 0 <= d0 < 64
    requires (d3 == 0 ==> d2 >= 16) && (d3 == 4 ==> d2 < 16)
    ensures Run([(0xF0 + d3) as byte, (0x80 + d2) as byte, (0x80 + d1) as byte, (0x80 + d0) as byte] + rest, Idle)
      == [ScalarOr(((d3 * 64 + d2) * 64 + d1) * 64 + d0)] + Run(rest, Idle)
  {
    var b0, b1, b2, b3 := (0xF0 + d3) as byte, (0x80 + d2) as byte, (0x80 + d1) as byte, (0x80 + d0) as byte;
    var t2 := [b2] + ([b3] + rest);
    var t1 := [b1] + t2;
    assert [b0, b1, b2, b3] + rest == [b0] + t1;
    var l := Decoder(d3, 0, 3, if d3 == 0 then 0x90 else 0x80, if d3 == 4 then 0x8F else 0xBF);
    var m := Decoder(d3 * 64 + d2, 1, 3, 0x80, 0xBF);
    var n := Decoder((d3 * 64 + d2) * 64 + d1, 2, 3, 0x80, 0xBF);
    calc {
      Run([b0] + t1, Idle);
      { LeadStep(b0, t1); }
      Run(t1, l);
      { ContinueStep(b1, t2, l); }
      Run(t2, m);
      { ContinueStep(b2, [b3] + rest, m); }
      Run([b3] + rest, n);
      { FinishStep(b3, rest, n); }
      [ScalarOr(((d3 * 64 + d2) * 64 + d1) * 64 + d0)] + Run(rest, Idle);
    }
  }

  lemma DecodeFour(v: int, rest: seq<byte>)
    requires 0x10000 <= v < 0x11_0000
    ensures var v1 := v / 64; var v2 := v1 / 64;
      Run([(0xF0 + v2 / 64) as byte, (0x80 + v2 % 64) as byte, (0x80 + v1 % 64) as byte, (0x80 + v % 64) as byte] + rest, Idle)
      == [v as char] + Run(rest, Idle)
  {
    var v1 := v / 64;
    var v2 := v1 / 64;
    assert 1024 <= v1 < 17408;
    assert 16 <= v2 < 272;
    var v3 := v2 / 64;
    assert (v3 == 0 ==> v2 % 64 >= 16) && (v3 == 4 ==> v2 % 64 < 16);
    assert ((v3 * 64 + v2 % 64) * 64 + v1 % 64) * 64 + v % 64 == v;
    DecodeFourDigits(v3, v2 % 64, v1 % 64, v % 64, rest);
  }

  /** The decoder reads one encoded character back and is idle again. */
  lemma DecodeChar(c: char, rest: seq<byte>)
    ensures Run(EncodeChar(c) + rest, Idle) == [c] + Run(rest, Idle)
  {
    var v := c as int;
    if v < 0x80 {
      assert (EncodeChar(c) + rest)[1..] == rest;
    } else if v < 0x800 {
      DecodeTwo(v, rest);
    } else if v < 0x10000 {
      DecodeThree(v, rest);
    } else {
      DecodeFour(v, rest);
    }
  }

  lemma {:induction false} RunEncode(s: string)
    ensures Run(Encode(s), Idle) == s
    decreases |s|
  {
    if |s| > 0 {
      DecodeChar(s[0], Encode(s[1..]));
      RunEncode(s[1..]);
    }
  }

  /** `TextDecoder` gives back what `TextEncoder` wrote, unless the text
      starts with a byte order mark, which the decoder drops. */
  lemma DecodeEncode(s: string)
    ensures Decode(Encode(s)) == if |s| > 0 && s[0] == ByteOrderMark then s[1..] else s
  {
    RunEncode(s);
  }

  // ---- Latin-1 bytes read as UTF-8 ----

  predicate IsAscii(s: string) {
    forall i :: 0 <= i < |s| ==> s[i] as int < 0x80
  }

  /** On ASCII text the UTF-8 bytes are the character codes themselves. */
  lemma {:induction false} AsciiEncode(s: string)
    requires IsAscii(s)
    ensures |Encode(s)| == |s| && forall i :: 0 <= i < |s| ==> Encode(s)[i] as int == s[i] as int
    decreases |s|
  {
    if |s| > 0 {
      AsciiEncode(s[1..]);
    }
  }

  /** Without a replacement character in the output, the decoder writes at
      most one character per byte, and exactly one per byte only when
      every byte is ASCII; an unfinished sequence with `r` bytes still to
      come costs at least `r - 1` more bytes than it writes characters. */
  lemma {:induction false} RunLength(bytes: seq<byte>, d: Decoder)
    requires d.needed > 0 ==> d.seen < d.needed
    requires Replacement !in Run(bytes, d)
    ensures d.needed == 0 ==> |Run(bytes, d)| <= |bytes|
    ensures d.needed == 0 && |Run(bytes, d)| == |bytes| ==> forall i :: 0 <= i < |bytes| ==> bytes[i] < 0x80
    ensures d.needed > 0 ==> |Run(bytes, d)| + (d.needed - d.seen) <= |bytes| + 1
    decreases |bytes|, d.needed
  {
    if |bytes| > 0 {
      var b := bytes[0] as int;
      var out := Run(bytes, d);
      if d.needed == 0 {
        if b <= 0x7F {
          assert out == [b as char] + Run(bytes[1..], Idle);
          RunLength(bytes[1..], Idle);
          if |out| == |bytes| {
            forall i | 0 <= i < |bytes| ensures bytes[i] < 0x80 {
              if i > 0 { assert bytes[i] == bytes[1..][i - 1]; }
            }
          }
        } else if 0xC2 <= b <= 0xDF {
          RunLength(bytes[1..], Decoder(b - 0xC0, 0, 1, 0x80, 0xBF));
        } else if 0xE0 <= b <= 0xEF {
          RunLength(bytes[1..], Decoder(b - 0xE0, 0, 2, if b == 0xE0 then 0xA0 else 0x80, if b == 0xED then 0x9F else 0xBF));
        } else if 0xF0 <= b <= 0xF4 {
          RunLength(bytes[1..], Decoder(b - 0xF0, 0, 3, if b == 0xF0 then 0x90 else 0x80, if b == 0xF4 then 0x8F else 0xBF));
        }
      } else if d.lower <= b <= d.upper {
        var cp := d.cp * 64 + (b - 0x80);
        if d.seen + 1 < d.needed {
          RunLength(bytes[1..], Decoder(cp, d.seen + 1, d.needed, 0x80, 0xBF));
        } else {
          assert out == [ScalarOr(cp)] + Run(bytes[1..], Idle);
          RunLength(bytes[1..], Idle);
        }
      }
    }
  }
}

=== FILE: worker.dfy ===
/** The request router of worker.js: the preflight answer, the public
    feed proxy, login and hash provisioning, the gated content and image
    APIs, public image serving, the admin single-page application, and
    static pages with server-side content injection. The worker's bindings
    are the content store, the optional image bucket, the variables and
    the static asset fetcher; one clock reading serves the whole request. */
module Worker {
  import opened Common
  import opened Js
  import opened Http
  import opened Platform
  import Auth
  import ContentApi
  import ImageApi
  import Ssr
  import Rss

  /** The variables and the static asset fetcher (`env.ASSETS.fetch`). */
  datatype Env = Env(vars: Auth.Vars, assets: Request -> Response)

  /** The stored state: the content store and, when bound, the image bucket. */
  datatype World = World(kv: ContentApi.Kv, bucket: Option<ImageApi.Bucket>)

  /** The answer to a request and the state it leaves behind. */
  datatype Reply = Reply(out: Outcome, world: World)

  const Preflight := Response(204, "", CorsHeaders, NoBody)

  const ImagesUnbound := "R2 non configuré. Activez R2 dans le dashboard Cloudflare."

  const ServeUnbound := Response(503, "", map["content-type" := "text/plain;charset=UTF-8"], TextBody("R2 non configuré"))

  const ImagePrefix := "/cms-images/"

  predicate IsAdminPath(path: string) {
    path == "/admin" || StartsWith(path, "/admin/") || path == "/admin/index.html"
  }

  /** The request the admin route asks the assets for: the same request
      aimed at `/admin/index.html` on the same origin. */
  function AdminRequest(req: Request): Request
  {
    req.(path := "/admin/index.html", query := map[])
  }

  /** The last step: the static asset, with content injected into HTML
      pages outside the admin area; when injection throws, the asset is
      fetched again and served as it is. */
  function Static(rt: Runtime, env: Env, kv: ContentApi.Kv, req: Request): (r: Response)
    ensures r.status == env.assets(req).status && r.statusText == env.assets(req).statusText
    ensures var html := Contains(HeaderOr(env.assets(req).headers, "content-type"), "text/html");
      !html || StartsWith(req.path, "/admin") ==> r == env.assets(req)
    ensures var page := ContentApi.ReadJson(rt, kv, ContentApi.ContentKey(Ssr.PageIdOf(req.path)));
      var shared := ContentApi.ReadJson(rt, kv, ContentApi.ContentKey("_shared"));
      page.Unparseable? || shared.Unparseable? ==> r == env.assets(req)
    ensures var page := ContentApi.ReadJson(rt, kv, ContentApi.ContentKey(Ssr.PageIdOf(req.path)));
      var shared := ContentApi.ReadJson(rt, kv, ContentApi.ContentKey("_shared"));
      var resp := env.assets(req);
      && Contains(HeaderOr(resp.headers, "content-type"), "text/html") && !StartsWith(req.path, "/admin")
      && !page.Unparseable? && !shared.Unparseable?
      && (ContentApi.ReadTruthy(page) || ContentApi.ReadTruthy(shared))
      ==> && r.headers == Ssr.NoCacheHeaders(resp.headers)
          && (resp.body.HtmlBody? ==>
                r.body == HtmlBody(Ssr.Rewrite(Ssr.Merge(Ssr.Fields(shared), Ssr.Fields(page)), resp.body.elements)))
  {
    var resp := env.assets(req);
    if Contains(HeaderOr(resp.headers, "content-type"), "text/html") && !StartsWith(req.path, "/admin") then
      match Ssr.InjectContent(rt, kv, req.path, resp)
      case Injected(r) => r
      case Failed => env.assets(req)
    else resp
  }

  /** The handlers a request can reach. */
  datatype Route =
    | PreflightRoute | FeedRoute | LoginRoute | HashRoute
    | ContentRoute | ImagesRoute | PublicImageRoute | AdminRoute | PageRoute

  /** The route of a request: the first test of the worker it passes. */
  function RouteOf(req: Request): Route
  {
    var path := req.path;
    if req.verb == "OPTIONS" then PreflightRoute
    else if path == "/api/rss" then FeedRoute
    else if path == "/api/auth/login" then LoginRoute
    else if path == "/api/auth/hash" then HashRoute
    else if StartsWith(path, "/api/content") then ContentRoute
    else if StartsWith(path, "/api/images") then ImagesRoute
    else if StartsWith(path, ImagePrefix) then PublicImageRoute
    else if IsAdminPath(path) then AdminRoute
    else PageRoute
  }

  /** The gated content API; what it writes goes to the store. */
  function Content(rt: Runtime, env: Env, w: World, req: Request, nowMs: nat): (r: Reply)
    ensures r.world.bucket == w.bucket
    ensures r.world.kv != w.kv ==>
      (req.verb == "PUT" || req.verb == "POST") && Auth.WithAuth(rt, env.vars, req.headers, nowMs).Admitted?
  {
    match Auth.WithAuth(rt, env.vars, req.headers, nowMs)
    case Denied(resp) => Reply(Served(resp), w)
    case Admitted(email) =>
      var step := ContentApi.Handle(rt, w.kv, req, email, nowMs);
      Reply(step.out, w.(kv := ContentApi.ApplyPuts(w.kv, step.puts)))
  }

  /** The gated image API, refused outright when no bucket is bound. */
  function Images(rt: Runtime, env: Env, w: World, req: Request, nowMs: nat): (r: Reply)
    ensures r.world.kv == w.kv && (r.world.bucket.Some? <==> w.bucket.Some?)
    ensures r.world.bucket != w.bucket ==>
      (req.verb == "POST" || req.verb == "DELETE") && Auth.WithAuth(rt, env.vars, req.headers, nowMs).Admitted?
  {
    match w.bucket
    case None => Reply(Served(ErrorResponse(ImagesUnbound, 503)), w)
    case Some(bucket) =>
      match Auth.WithAuth(rt, env.vars, req.headers, nowMs)
      case Denied(resp) => Reply(Served(resp), w)
      case Admitted(_) =>
        var change := ImageApi.HandleImages(rt, bucket, req, nowMs);
        Reply(change.out, w.(bucket := Some(change.bucket)))
  }

  /** Public image serving: the key is the path without its prefix. */
  function PublicImage(w: World, req: Request): Response
  {
    match w.bucket
    case None => ServeUnbound
    case Some(bucket) => ImageApi.ServeImage(bucket, RemoveFirst(req.path, ImagePrefix))
  }

  /** The answer of the handler of `route`. */
  function Dispatch(route: Route, rt: Runtime, env: Env, w: World, req: Request, nowMs: nat): (r: Reply)
  {
    match route
    case PreflightRoute => Reply(Served(Preflight), w)
    case FeedRoute => Reply(Served(Rss.HandleRss(rt, req)), w)
    case LoginRoute => Reply(Auth.HandleLogin(rt, env.vars, req, nowMs), w)
    case HashRoute => Reply(Auth.HandleHashPassword(rt, req), w)
    case ContentRoute => Content(rt, env, w, req, nowMs)
    case ImagesRoute => Images(rt, env, w, req, nowMs)
    case PublicImageRoute => Reply(Served(PublicImage(w, req)), w)
    case AdminRoute => Reply(Served(env.assets(AdminRequest(req))), w)
    case PageRoute => Reply(Served(Static(rt, env, w.kv, req)), w)
  }

  /** `fetch`: the handler of the request's route. */
  function Fetch(rt: Runtime, env: Env, w: World, req: Request, nowMs: nat): (r: Reply)
    ensures r.world.bucket.Some? <==> w.bucket.Some?
    ensures r.world.kv != w.kv ==>
      RouteOf(req) == ContentRoute && (req.verb == "PUT" || req.verb == "POST")
    ensures r.world.bucket != w.bucket ==>
      RouteOf(req) == ImagesRoute && (req.verb == "POST" || req.verb == "DELETE")
  {
    Dispatch(RouteOf(req), rt, env, w, req, nowMs)
  }

  /** Only a caller the gate admits changes anything stored. */
  lemma WritesNeedAdmission(rt: Runtime, env: Env, w: World, req: Request, nowMs: nat)
    ensures Fetch(rt, env, w, req, nowMs).world != w ==> Auth.WithAuth(rt, env.vars, req.headers, nowMs).Admitted?
  {
  }

  // ---- Routing properties ----

  /** Which route a path reaches, for the prefixes the worker tests. */
  lemma ContentRouted(req: Request)
    requires req.verb != "OPTIONS" && StartsWith(req.path, "/api/content")
    ensures RouteOf(req) == ContentRoute
  {
    assert req.path[5] == req.path[..12][5] == 'c';
  }

  lemma ImagesRouted(req: Request)
    requires req.verb != "OPTIONS" && StartsWith(req.path, "/api/images")
    ensures RouteOf(req) == ImagesRoute
  {
    assert req.path[5] == req.path[..11][5] == 'i';
  }

  lemma PublicImageRouted(req: Request)
    requires req.verb != "OPTIONS" && StartsWith(req.path, ImagePrefix)
    ensures RouteOf(req) == PublicImageRoute
  {
    assert req.path[1] == req.path[..12][1] == 'c';
  }

  lemma AdminRouted(req: Request)
    requires req.verb != "OPTIONS" && IsAdminPath(req.path)
    ensures RouteOf(req) == AdminRoute
  {
    var p := req.path;
    assert p[1] == 'a' && p[2] == 'd' by {
      if StartsWith(p, "/admin/") { assert p[1] == p[..7][1] && p[2] == p[..7][2]; }
    }
  }

  /** The preflight is answered before anything else, for every path. */
  lemma PreflightFirst(rt: Runtime, env: Env, w: World, req: Request, nowMs: nat)
    requires req.verb == "OPTIONS"
    ensures Fetch(rt, env, w, req, nowMs) == Reply(Served(Preflight), w)
  {
  }

  /** A `GET` changes neither the store nor the bucket. */
  lemma GetChangesNothing(rt: Runtime, env: Env, w: World, req: Request, nowMs: nat)
    requires req.verb == "GET"
    ensures Fetch(rt, env, w, req, nowMs).world == w
  {
    var r := Fetch(rt, env, w, req, nowMs);
    assert r.world.kv == w.kv;
    assert r.world.bucket == w.bucket;
  }

  /** Without a `Bearer` header the content API refuses the request and
      the store is untouched, whatever the method and page. */
  lemma ContentNeedsToken(rt: Runtime, env: Env, w: World, req: Request, nowMs: nat)
    requires req.verb != "OPTIONS" && StartsWith(req.path, "/api/content")
    requires Auth.BearerToken(req.headers).None?
    ensures Fetch(rt, env, w, req, nowMs) == Reply(Served(ErrorResponse("Non autorise", 401)), w)
  {
    ContentRouted(req);
  }

  /** The image API answers 503 when no bucket is bound, before looking at
      the caller's token; so does public image serving. */
  lemma UnboundBucket(rt: Runtime, env: Env, w: World, req: Request, nowMs: nat)
    requires req.verb != "OPTIONS" && w.bucket.None?
    ensures StartsWith(req.path, "/api/images") ==>
      Fetch(rt, env, w, req, nowMs) == Reply(Served(ErrorResponse(ImagesUnbound, 503)), w)
    ensures StartsWith(req.path, ImagePrefix) ==> Fetch(rt, env, w, req, nowMs) == Reply(Served(ServeUnbound), w)
  {
    if StartsWith(req.path, "/api/images") {
      ImagesRouted(req);
    }
    if StartsWith(req.path, ImagePrefix) {
      PublicImageRouted(req);
    }
  }

  /** Public images need no token: the stored image under the rest of the
      path is served. */
  lemma PublicImageServed(rt: Runtime, env: Env, w: World, req: Request, nowMs: nat, key: string)
    requires req.verb != "OPTIONS" && w.bucket.Some? && req.path == ImagePrefix + key
    ensures Fetch(rt, env, w, req, nowMs) == Reply(Served(ImageApi.ServeImage(w.bucket.value, key)), w)
  {
    assert StartsWith(req.path, ImagePrefix) && req.path[12..] == key;
    PublicImageRouted(req);
  }

  /** An admitted caller's content request is the content API's answer,
      and the store takes its writes. */
  lemma AdmittedContent(rt: Runtime, env: Env, w: World, req: Request, nowMs: nat, email: string)
    requires req.verb != "OPTIONS" && StartsWith(req.path, "/api/content")
    requires Auth.WithAuth(rt, env.vars, req.headers, nowMs) == Auth.Admitted(email)
    ensures var step := ContentApi.Handle(rt, w.kv, req, email, nowMs);
      Fetch(rt, env, w, req, nowMs) == Reply(step.out, w.(kv := ContentApi.ApplyPuts(w.kv, step.puts)))
  {
    ContentRouted(req);
    FetchContent(rt, env, w, req, nowMs);
    ContentAdmitted(rt, env, w, req, nowMs, email);
  }

  lemma FetchContent(rt: Runtime, env: Env, w: World, req: Request, nowMs: nat)
    requires RouteOf(req) == ContentRoute
    ensures Fetch(rt, env, w, req, nowMs) == Content(rt, env, w, req, nowMs)
  {
  }

  lemma ContentAdmitted(rt: Runtime, env: Env, w: World, req: Request, nowMs: nat, email: string)
    requires Auth.WithAuth(rt, env.vars, req.headers, nowMs) == Auth.Admitted(email)
    ensures var step := ContentApi.Handle(rt, w.kv, req, email, nowMs);
      Content(rt, env, w, req, nowMs) == Reply(step.out, w.(kv := ContentApi.ApplyPuts(w.kv, step.puts)))
  {
  }

  /** With a bucket bound, an admitted caller's image request is the image
      API's answer, and the bucket becomes the one it leaves. */
  lemma AdmittedImages(rt: Runtime, env: Env, w: World, req: Request, nowMs: nat)
    requires req.verb != "OPTIONS" && StartsWith(req.path, "/api/images") && w.bucket.Some?
    requires Auth.WithAuth(rt, env.vars, req.headers, nowMs).Admitted?
    ensures var c := ImageApi.HandleImages(rt, w.bucket.value, req, nowMs);
      Fetch(rt, env, w, req, nowMs) == Reply(c.out, w.(bucket := Some(c.bucket)))
  {
    ImagesRouted(req);
    FetchImages(rt, env, w, req, nowMs);
    ImagesAdmitted(rt, env, w, req, nowMs);
  }

  lemma FetchImages(rt: Runtime, env: Env, w: World, req: Request, nowMs: nat)
    requires RouteOf(req) == ImagesRoute
    ensures Fetch(rt, env, w, req, nowMs) == Images(rt, env, w, req, nowMs)
  {
  }

  lemma ImagesAdmitted(rt: Runtime, env: Env, w: World, req: Request, nowMs: nat)
    requires w.bucket.Some? && Auth.WithAuth(rt, env.vars, req.headers, nowMs).Admitted?
    ensures var c := ImageApi.HandleImages(rt, w.bucket.value, req, nowMs);
      Images(rt, env, w, req, nowMs) == Reply(c.out, w.(bucket := Some(c.bucket)))
  {
  }

  /** After an upload, the image is served publicly, with no token, with
      the bytes and type it was sent with. */
  lemma UploadThenPublic(rt: Runtime, env: Env, bucket: ImageApi.Bucket, up: Request, w2: World, get: Request, nowMs: nat, laterMs: nat)
    requires var c := ImageApi.Upload(bucket, up, nowMs);
      c.out.Served? && c.out.resp.status == 200 && w2.bucket == Some(c.bucket)
    requires get.verb == "GET" && get.path == ImagePrefix + ImageApi.ImageKey(nowMs, ImageApi.ReadUpload(up).name)
    ensures var r := Fetch(rt, env, w2, get, laterMs);
      var f := ImageApi.ReadUpload(up);
      && r.out.Served? && r.out.resp.status == 200
      && r.out.resp.body == BytesBody(f.bytes)
      && "content-type" in r.out.resp.headers && r.out.resp.headers["content-type"] == f.mimeType
  {
    PublicImageServed(rt, env, w2, get, laterMs, ImageApi.ImageKey(nowMs, ImageApi.ReadUpload(up).name));
    ImageApi.UploadThenServe(bucket, up, nowMs);
  }

  /** The admin area always gets the application's index page. */
  lemma AdminIndex(rt: Runtime, env: Env, w: World, req: Request, nowMs: nat)
    requires req.verb != "OPTIONS" && IsAdminPath(req.path)
    ensures Fetch(rt, env, w, req, nowMs) == Reply(Served(env.assets(AdminRequest(req))), w)
  {
    AdminRouted(req);
  }

  /** A page with neither its own nor shared content stored is served as
      the assets hold it. */
  lemma PlainStatic(rt: Runtime, env: Env, kv: ContentApi.Kv, req: Request)
    requires ContentApi.ReadJson(rt, kv, ContentApi.ContentKey(Ssr.PageIdOf(req.path))).Missing?
    requires ContentApi.ReadJson(rt, kv, ContentApi.ContentKey("_shared")).Missing?
    ensures Static(rt, env, kv, req) == env.assets(req)
  {
  }

  /** The feed proxy answers without a token and serves the first two items
      of the upstream feed. */
  lemma FeedThroughWorker(rt: Runtime, env: Env, w: World, req: Request, nowMs: nat, items: seq<Rss.Item>)
    requires req.verb == "GET" && req.path == "/api/rss"
    requires Rss.FeedKey(req) in Rss.Feeds && rt.fetchText(Rss.Feeds[Rss.FeedKey(req)]) == FetchedText(Rss.FeedXml(items))
    requires forall i :: 0 <= i < |items| ==> Rss.IsPlainItem(items[i])
    ensures var r := Fetch(rt, env, w, req, nowMs);
      && r.world == w && r.out.Served? && r.out.resp.status == 200
      && r.out.resp.body == JsonBody(JObj(map["items" := Rss.ItemsJson(items[..if 2 < |items| then 2 else |items|])]))
  {
    Rss.ProxyRoundTrip(rt, req, items);
  }
}
